=== FILE: README.md ===
# Go learning repository: ledger, drills and blog rules in Dafny

This project models the logic at the heart of a Go learning repository and
proves properties of that model. There are four parts.

- **The ledger transfer engine** (`Task3-DbDriver/sql/transaction.go`), in module `Ledger`.
  - Accounts are a map from id to balance, kept in integer cents.
  - Transfer records form an append-only log, and there are next-id counters.
  - `Transfer` is one atomic step with the source's fixed check order. The
    order is: source exists, funds suffice, destination exists.
  - Every failure rolls back. A success debits, credits and appends one record.
  - The balance sum is conserved over any sequence of transfers.
- **The algorithm drills** (`week1-DreamStart/week1.go` and `week1-DreamStart/main.go`).
  - Modules `Week1` and `DreamStartMain` hold the two implementations of the
    same eight routines.
  - `DrillSpecs` and `Brackets` hold the independent reference definitions
    both are proved against: digit values, palindromes, balanced brackets,
    longest common prefix, interval cover, first pair.
  - `Atomic` holds the two pointer and slice mutations of
    `Task2-AdcancedLanguage/atomic.go`.
- **The blog domain rules** (`Task4-Blog/models`, `Task4-Blog/services`).
  - Modules `BlogModels`, `PostService`, `CommentService`, `UserService` and `AuthService`.
  - The store is three id-keyed tables with auto-increment counters.
  - Text comparisons in lookups and unique indexes ignore letter case, as
    the connection's default utf8mb4 collation does (`SameText`).
  - Every GORM `Update` stamps the row's updated_at with the operation's `now`.
  - Soft-deleted posts leave the live table, but their slugs stay in the
    unique index (`deletedSlugs`).
  - The GORM hooks are called explicitly: role default, summary
    truncation, set-once publish time, and the `post_count` and
    `comment_count` counters.
  - Every service operation is a pure transition. Lemmas show each writing
    operation keeps the store's foreign keys (`Valid`) and the
    hook-maintained counters (`CountersAgree`). The exceptions are the
    `…AsWritten` variants, which model the source's counter bugs and are
    shown to break `CountersAgree` (see Findings).
  - `GormDomain` models the smaller blog of `Task3-DbDriver/gorm/domain.go`,
    whose delete hook recounts comments.
- **Request admission** (`Task4-Blog/middleware`, `Task4-Blog/utils/validator_utils.go`).
  - Module `AuthMiddleware`: the Bearer header parser and the authentication
    and admin gates, as decisions over the header and the token validator's
    verdict.
  - Module `Cors`: the CORS origin and preflight decisions.
  - Module `Validators`: the custom username, password and slug rules.

`Seqs` holds the shared sequence helpers:
- ordering by a key (insertion sort with a permutation contract);
- SQL `OFFSET`/`LIMIT` windows with GORM's handling of non-positive values;
- the newest-first page all list endpoints use;
- enumeration of a table's rows in primary-key order.

`Wrappers` holds `Option` and `Result`. `GoTypes` holds Go's machine types
where their width shows:
- strings the source slices byte by byte, as sequences of bytes;
- Go's 64-bit `int`, with the two's-complement wrap-around of `+`, `-` and `*`.

Several things outside the code become parameters:
- **Time:** an explicit `now`.
- **Password hashing:** `hash` and `checkHash` functions.
- **JWT signing and validation:** `sign` and `validate` functions.
- **Go's `unicode.IsLetter` and `unicode.IsNumber`:** predicates.
- **Storage failures in the ledger:** a `StoreFault` value naming the
  statement that fails.

## Model

| member | source | states |
|---|---|---|
| Ledger.CreateAccount | Task3-DbDriver/sql/transaction.go:135-145 | A failed insert changes nothing. Otherwise exactly one account is added, under a fresh id, with the given balance, and every other account and the log are unchanged. |
| Ledger.GetAccount | Task3-DbDriver/sql/transaction.go:148-155 | Finds an account exactly when its id is present, and returns that id's balance. |
| Ledger.CreateThenGetAccount | Task3-DbDriver/sql/transaction.go:135-155 | An account just created is found by its returned id with its initial balance, and every other id finds what it found before. |
| Ledger.ClearAll | Task3-DbDriver/sql/transaction.go:197-213 | Both tables end empty, and the account and record counters are where they were. |
| Ledger.Transfer | Task3-DbDriver/sql/transaction.go:55-132 | Every error leaves the ledger unchanged. Success holds iff there is no fault, the source exists, its balance covers the amount and the destination exists. Errors follow the source's order: a missing destination is reported only when funds suffice. On success the source loses and the destination gains the amount, a self-transfer leaves balances alone, no other account changes, and exactly one record with the next id is appended. |
| Ledger.TransferConserves | Task3-DbDriver/sql/transaction.go:96-125 | On every path, success or failure, the sum of all balances is unchanged and the ledger stays well formed. The log grows by one record on success and by none on failure, and the new record's id is distinct from all earlier ones. |
| Ledger.RunConserves | Task3-DbDriver/sql/transaction.go:55-132 | Any sequence of transfers, whatever their outcomes, preserves the balance sum, the set of accounts and well-formedness. |
| Ledger.RepeatExhausts | Task3-DbDriver/sql/transaction.go:81-107 | Repeating one positive transfer n times from a non-negative account succeeds k times. k is n, or the source is left below the amount. The source loses k·amount and never goes negative, the destination gains k·amount, and the log grows by k. |
| Ledger.History | Task3-DbDriver/sql/transaction.go:175-194 | The history is a permutation of the log, ordered newest first by creation time. |
| Ledger.DemoRun | Task3-DbDriver/sql/transaction.go:215-281 | The demonstration script from any earlier state: the tables are cleared, and accounts of 500, 300 and 50 yuan get consecutive ids from the kept counter. A 100 yuan transfer succeeds, one is refused for insufficient funds with no change, and a 30 yuan transfer succeeds. The final balances are stated over the returned ids, and the log holds two records. |
| Ledger.NegativeAmountOverdrawsDestination | Task3-DbDriver/sql/transaction.go:81-107 | A transfer of -100 between two empty accounts succeeds and leaves the destination at -100. |
| Ledger.TransferChecked | Task3-DbDriver/sql/transaction.go:55-132 | A non-positive amount is refused with no change, and a positive one behaves as Transfer. Non-negative balances stay non-negative. |
| Week1.SingleNumber | week1-DreamStart/week1.go:17-23 | Returns the XOR of all elements. |
| DrillSpecs.SingleNumberIsUnpaired | week1-DreamStart/week1.go:17-23 | When the input is, in any order, one value plus a list of values each occurring twice, the XOR of all elements is the unpaired value. |
| Week1.IsPalindrome | week1-DreamStart/week1.go:32-47 | True iff x is non-negative and its decimal string reads the same reversed. |
| DrillSpecs.ItoaPalindrome | week1-DreamStart/week1.go:32-47 | The decimal string is a palindrome iff its digit sequence is, so week1.go's string version and main.go's arithmetic version agree on every integer. |
| Week1.IsValid | week1-DreamStart/week1.go:56-82 | True iff the string is a well-nested sequence of (), [] and {}. |
| Brackets.OthersCloseDecides | week1-DreamStart/week1.go:56-82 | week1.go's loop accepts exactly the balanced strings. It treats every non-opener as a closer whose map entry is rune 0. |
| Brackets.BalancedOnlyBrackets | week1-DreamStart/week1.go:65-75 | A balanced string contains only bracket characters, so any other character makes both versions answer false. |
| Week1.LongestCommonPrefix | week1-DreamStart/week1.go:91-117 | Over the strings' bytes: "" for no strings, the string itself for one, and otherwise a common prefix of all strings that no longer common prefix exceeds. |
| DrillSpecs.PrefixSplitsCharacter | week1-DreamStart/week1.go:102-109 | Because the comparison is byte-wise, the longest common prefix of "é" and "è" is the lone lead byte C3, which is not a whole UTF-8 character. |
| DrillSpecs.LongestCommonPrefixUnique | week1-DreamStart/week1.go:91-117 | There is only one longest common prefix, so the two implementations return the same string. |
| Week1.AddOne | week1-DreamStart/week1.go:126-143 | The caller's array ends with every slot after the last digit below 9 set to 0, that digit raised by one, and the earlier digits kept. If some digit is below 9 that array is returned. On an all-9 input the caller's array is left all zeros and a fresh array 1,0,…,0 one longer is returned. On digit input, the result denotes the input's value plus one. |
| Week1.RemoveDuplicates | week1-DreamStart/week1.go:154-170 | k is 0 for empty input and the tail past k is untouched. On sorted input the first k slots hold the distinct values strictly ascending, and k is their number. |
| Week1.Merge | week1-DreamStart/week1.go:181-215 | nil exactly for empty input. The result covers the same points as the input with separated intervals, and on well-formed input is well formed and ascending by start. The result shares its intervals with the caller's slice: the caller's slice ends as a start-ascending permutation of the input in which each result interval is the slot it was first taken from (`heads`), with its end widened, and every other slot holds its sorted value. |
| DrillSpecs.SlotsWiden | week1-DreamStart/week1.go:202-207 | Widening the last result interval writes through to its slot in the caller's slice and keeps every other slot. |
| Week1.TwoSum | week1-DreamStart/week1.go:223-233 | Empty iff no pair sums to the target with Go's 64-bit wrapping addition. Otherwise it returns the values of the first pair, in order of its second index. |
| GoTypes.Wrap | week1-DreamStart/week1.go:225-226 | The 64-bit result of a Go int operation agrees with the exact value modulo 2^64, and equals it when it fits. |
| GoTypes.ComplementIff | week1-DreamStart/week1.go:225-227 | With wrapping arithmetic, y equals target - x exactly when x + y equals target, so the complement lookup finds exactly the wrapped pairs. |
| DrillSpecs.WrappedPair | week1-DreamStart/week1.go:225-230 | Two copies of the smallest int form a pair for target 0 although their exact sum is -2^64. |
| DrillSpecs.FirstPairUnique | week1-DreamStart/main.go:236-247 | The first pair is unique, so both twoSum versions identify the same pair: main.go returns its indices, week1.go its values. |
| DreamStartMain.IsPalindrome | week1-DreamStart/main.go:32-47 | True iff x is non-negative and its digit sequence is a palindrome. |
| DreamStartMain.TrailingZeroNotPalindrome | week1-DreamStart/main.go:33-36 | The early rejection of non-zero multiples of 10 is sound: their digits are not a palindrome and they differ from their reversal. |
| DrillSpecs.RevAccPalindrome | week1-DreamStart/main.go:32-47 | A number equals its full digit reversal iff its digits form a palindrome. |
| DreamStartMain.IsValid | week1-DreamStart/main.go:58-87 | True iff the string is balanced, the same answer as week1.go's version. |
| Brackets.PushOthersDecides | week1-DreamStart/main.go:58-87 | main.go's loop, which pushes every non-closer, accepts exactly the balanced strings. |
| DreamStartMain.LongestCommonPrefix | week1-DreamStart/main.go:96-126 | Over the strings' bytes: "" for no strings, and otherwise the longest common prefix of all of them, which may end inside a multi-byte character. |
| DreamStartMain.PlusOne | week1-DreamStart/main.go:135-147 | The caller's array ends with every slot after the last digit other than 9 set to 0, that digit raised by one with 64-bit wrap-around, and the earlier digits kept. If some digit is not 9 that array is returned. On an all-9 input the caller's array is left all zeros and a fresh array 1,0,…,0 is returned. On digit input, the value is incremented. |
| DreamStartMain.RemoveDuplicates | week1-DreamStart/main.go:158-171 | On sorted input the first k slots hold the distinct values strictly ascending, and k is their number. The tail is untouched. |
| DreamStartMain.Partition | week1-DreamStart/main.go:215-228 | The pivot (the old last element) lands at the returned index. Smaller elements lie left of it and the rest right of it. The range is permuted and the outside is untouched. |
| DreamStartMain.QuickSort | week1-DreamStart/main.go:205-213 | Permutes the range into lexicographic (start, end) order and leaves the outside unchanged. |
| DreamStartMain.Merge | week1-DreamStart/main.go:183-203 | The result covers the same points as the input with separated intervals, and is well formed and ascending on well-formed input. The caller's slice ends as the lexicographically sorted input, except that each slot a result interval was first taken from (`heads`) holds that result interval with its widened end. |
| DreamStartMain.CallerSlotWidened | week1-DreamStart/main.go:192-198 | Merging [1,3], [1,5], [2,6] leaves the caller's slice as [1,6], [1,5], [2,6], which is not a permutation of the input. |
| DreamStartMain.TwoSum | week1-DreamStart/main.go:236-247 | Empty iff no pair sums to the target with Go's 64-bit wrapping addition. Otherwise returns [j, i], j < i, of the first pair in order of i. |
| Atomic.IncreaseByTen | Task2-AdcancedLanguage/atomic.go:6-8 | The pointed-to int grows by 10, wrapping past the largest int to the negative end, and nothing else is modified. |
| Atomic.DoubleSliceElements | Task2-AdcancedLanguage/atomic.go:11-19 | Every element of the shared backing array becomes its double modulo 2^64, exactly its double when that fits, and the length is unchanged. |
| Atomic.DoubleDemo | Task2-AdcancedLanguage/atomic.go:21-34 | The caller observes [2, 4, 6, 8, 10] after doubling [1, 2, 3, 4, 5] through the slice. |
| Validators.Utf8LenAscii | Task4-Blog/utils/validator_utils.go:37-40 | The byte length equals the character count iff the text is ASCII. |
| Validators.ValidUsername | Task4-Blog/utils/validator_utils.go:33-44 | Accepted iff 3 to 50 characters, all ASCII letters, digits or underscores. |
| Validators.ShortNameRejected | Task4-Blog/utils/validator_utils.go:37-44 | A two-character name with a non-ASCII letter passes the byte-length guard but not the pattern. |
| Validators.ValidPassword | Task4-Blog/utils/validator_utils.go:47-67 | Accepted iff at least 6 bytes long with at least one letter and at least one non-letter number. |
| Validators.ValidSlug | Task4-Blog/utils/validator_utils.go:70-76 | Accepted iff non-empty and every character is in [a-z0-9-]. A valid slug is ASCII. |
| Validators.ToLowerIdempotent | Task4-Blog/utils/validator_utils.go:81-109 | Lower-casing a field name twice equals lower-casing once. A valid slug is already lower case. |
| Validators.MessageDistinguishesTags | Task4-Blog/utils/validator_utils.go:81-109 | Only unknown tags get the default message. Distinct known tags get distinct messages. |
| Validators.ValidationErrorsToMap | Task4-Blog/utils/validator_utils.go:81-109 | Anything other than a list of validation errors gives the empty map. Otherwise the keys are exactly the lower-cased field names, each bound to the message of the last error on that field. |
| BlogModels.UserBeforeCreate | Task4-Blog/models/user.go:35-41 | An empty role becomes "user". A non-empty role is kept, and no other field changes. |
| BlogModels.UserBeforeCreateIdempotent | Task4-Blog/models/user.go:35-41 | Running the hook twice is running it once, and the stored role is never empty: it is the caller's role, or "user" when that was empty. |
| BlogModels.UserResponseOmitsSecrets | Task4-Blog/models/user.go:44-65 | The response determines every column except password, active flag, last login, update time and post count. Changing those secrets never changes the response. |
| BlogModels.AutoSummary | Task4-Blog/models/post.go:50-58 | Content of at most 150 bytes is its own summary. Longer content gives its first 150 bytes followed by "...". |
| BlogModels.PostBeforeCreate | Task4-Blog/models/post.go:50-58 | A non-empty summary leaves the post unchanged. An empty summary is replaced by the automatic summary, and nothing else changes. |
| BlogModels.SummaryProperties | Task4-Blog/models/post.go:50-58 | The summary is at most 153 bytes, empty only for empty content, and a prefix of the content up to 150 bytes. The hook is idempotent. |
| BlogModels.PostBeforeUpdate | Task4-Blog/models/post.go:61-68 | An existing publish time is never overwritten. A missing one is set to now exactly when the status is "published", and no other field changes. |
| BlogModels.PublishSetOnce | Task4-Blog/models/post.go:61-68 | A second update at a later time leaves the first one's result unchanged, and a published post keeps a publish time. |
| BlogModels.PostAfterCreate | Task4-Blog/models/post.go:71-75 | Exactly the author's post_count rises by one and the author's updated_at becomes now, as GORM's Update stamps it. No other row or column changes. |
| BlogModels.PostAfterDelete | Task4-Blog/models/post.go:78-82 | Exactly the author's post_count falls by one and the author's updated_at becomes now. No other row or column changes. |
| BlogModels.PostHooksCancel | Task4-Blog/models/post.go:71-82 | The create hook followed by the delete hook restores every row and column except the author's updated_at, which holds the delete hook's time. The store comes back exactly iff the author's updated_at already had that value. |
| BlogModels.PostResponseKeepsColumns | Task4-Blog/models/post.go:103-120 | The response carries every post column unchanged: the post can be rebuilt from it and its author id. |
| BlogModels.CommentAfterCreate | Task4-Blog/models/comment.go:42-48 | An approved comment raises its post's comment_count by one and sets that post's updated_at to now. An unapproved one changes nothing, and no other row or column changes. |
| BlogModels.CommentAfterDelete | Task4-Blog/models/comment.go:56-78 | An approved comment lowers its post's comment_count by one and sets that post's updated_at to now. An unapproved one changes nothing, and no other row or column changes. |
| BlogModels.CommentHooksCancel | Task4-Blog/models/comment.go:42-78 | The create hook followed by the delete hook restores every row and column except the post's updated_at, which holds the delete hook's time. The store comes back exactly iff the comment is unapproved, its post is gone, or that post's updated_at already had that value. |
| BlogModels.CommentToResponse | Task4-Blog/models/comment.go:94-112 | Id, content, approval, timestamps, post and parent are copied, the user is projected, and there is one reply response per reply. |
| BlogModels.ToResponseKeepsShape | Task4-Blog/models/comment.go:94-112 | The response tree has the same shape, order and ids as the reply tree at every level. |
| PostService.CreatePostAsWritten | Task4-Blog/services/post_service.go:23-44 | Every post the source's CreatePost stores is public. |
| PostService.PrivatePostStoredPublic | Task4-Blog/services/post_service.go:23-44 | A post created with is_public false is stored as public. |
| PostService.CreatePost | Task4-Blog/services/post_service.go:23-44 | Fails with a foreign-key error for an unknown author. Fails when the slug equals, ignoring letter case, the slug of another live post or of a soft-deleted post, since both stay in the unique index. Otherwise it stores one new post with the given fields, the default status and summary, zero counters, created and updated at now and no publish time. It raises exactly its author's post_count, sets that author's updated_at to now, and leaves the deleted slugs alone. |
| PostService.SlugClashIgnoresCase | Task4-Blog/services/post_service.go:23-44 | With a post whose slug is "hello-go" stored, creating one with slug "Hello-Go" fails with a duplicate key. |
| PostService.CreatePostPreserves | Task4-Blog/services/post_service.go:23-44 | CreatePost keeps foreign keys and counters consistent. |
| PostService.GetPostById | Task4-Blog/services/post_service.go:47-54 | Not found exactly for a missing id. Otherwise the stored post with its author and exactly its comments. |
| PostService.CreateThenGetPost | Task4-Blog/services/post_service.go:23-54 | A post just created is found by id with no comments, and with its author. |
| PostService.ListPosts | Task4-Blog/services/post_service.go:57-91 | At most pageSize responses, one per matching row with its author, newest first. A row matches when its status equals the requested one ignoring letter case. The total counts every matching post. |
| PostService.GetPosts | Task4-Blog/services/post_service.go:57-91 | At most pageSize posts whose status equals the requested one ignoring letter case (any when empty), newest first, each a live post of the author it is shown with. The total counts all matches. |
| PostService.StatusFilterIgnoresCase | Task4-Blog/services/post_service.go:64-67 | With one post stored as "published", asking for status "Published" counts it. |
| Seqs.NewestPage | Task4-Blog/services/post_service.go:76-80 | A page is at most pageSize rows, all drawn from the input, newest first. |
| Seqs.NewestPageWindow | Task4-Blog/services/post_service.go:61-80 | Page p holds the newest-first rows from offset (p-1)·pageSize on, starting at the first row when that offset is not positive. It is full whenever pageSize rows remain. |
| PostService.GetUserPosts | Task4-Blog/services/post_service.go:155-189 | At most pageSize posts of that user, newest first, each with the requested status ignoring letter case when one is given. The total counts that user's matching posts. |
| PostService.UpdatePostAsWritten | Task4-Blog/services/post_service.go:94-132 | The source's UpdatePost never changes the stored publish time. |
| PostService.PublishWithoutTimestamp | Task4-Blog/services/post_service.go:94-132 | Publishing a draft through the source's UpdatePost leaves it published with no publish time. |
| PostService.UpdatePost | Task4-Blog/services/post_service.go:94-132 | A missing id fails with no change. An empty patch returns the stored post. Otherwise each text field changes only when given non-empty, is_public only when given, identity and counters are kept, and updated_at becomes now. A post without a publish time gets now as its publish time exactly when it ends up published, and an existing publish time is never overwritten. |
| PostService.UpdatePostIdempotent | Task4-Blog/services/post_service.go:94-132 | Applying the same update twice equals applying it once. |
| PostService.UpdatePostPreserves | Task4-Blog/services/post_service.go:94-132 | UpdatePost keeps foreign keys and counters consistent. |
| PostService.IsPostOwner | Task4-Blog/services/post_service.go:140-146 | True iff the post exists and its author is the user. On a consistent store the owner is never user 0. |
| PostService.OwnershipStable | Task4-Blog/services/post_service.go:140-146 | The creator owns a new post, and updates never change who owns a post. |
| PostService.IncrementViewCount | Task4-Blog/services/post_service.go:149-152 | That post's view count rises by exactly one and its updated_at becomes now. Nothing else changes. |
| PostService.IncrementViewCountPreserves | Task4-Blog/services/post_service.go:149-152 | Counting a view keeps foreign keys and counters consistent. |
| PostService.ViewsAccumulate | Task4-Blog/services/post_service.go:149-152 | n views raise the count by exactly n and, when n is positive, leave the post updated at now. Every other column, post and table is unchanged. |
| PostService.DeletePostAsWritten | Task4-Blog/services/post_service.go:135-137 | The source's DeletePost removes the row, but on a consistent store it changes no user row. |
| PostService.DeleteKeepsStaleCount | Task4-Blog/services/post_service.go:135-137 | Deleting a user's only post through the source's DeletePost leaves that user's post_count at 1. |
| PostService.DeletePost | Task4-Blog/services/post_service.go:135-137 | Soft-deletes the post: it leaves the live posts and its slug joins the deleted slugs. Exactly its author's post_count falls by one and that author's updated_at becomes now. Every other user column, the comments and the id counters are unchanged, and a missing id changes nothing. |
| PostService.DeletePostPreserves | Task4-Blog/services/post_service.go:135-137 | DeletePost keeps foreign keys and counters consistent. |
| PostService.DeletedSlugStaysTaken | Task4-Blog/models/post.go:24-33 | After DeletePost, creating a post with the deleted post's slug fails with a duplicate key, for every author id allocated so far. |
| CommentService.CreateComment | Task4-Blog/services/comment_service.go:23-48 | A missing post gives not found with no change. On success one approved comment is stored with the given fields. Exactly that post's comment_count rises by one and its updated_at becomes now, and every other row and column is unchanged. |
| CommentService.CreateCommentPreserves | Task4-Blog/services/comment_service.go:23-48 | CreateComment keeps foreign keys and counters consistent. |
| CommentService.GetCommentById | Task4-Blog/services/comment_service.go:51-58 | Not found exactly for a missing id. Otherwise the stored comment with its user and post. |
| CommentService.CreateThenGetComment | Task4-Blog/services/comment_service.go:23-58 | A comment just created is found by id, with its content, post and author. |
| CommentService.Load | Task4-Blog/services/comment_service.go:76-82 | The preloaded thread carries the comment, its user and exactly its direct replies, each with no deeper replies. |
| CommentService.GetPostComments | Task4-Blog/services/comment_service.go:61-92 | At most pageSize responses, newest first, each a top-level approved comment of the post. The total counts exactly those comments. |
| CommentService.GetCommentReplies | Task4-Blog/services/comment_service.go:109-118 | Exactly the approved direct replies, with their users, oldest first. |
| CommentService.IsCommentOwner | Task4-Blog/services/comment_service.go:100-106 | True iff the comment exists and its author is the user. On a consistent store the owner is never user 0. |
| CommentService.CommentOwnerIsCreator | Task4-Blog/services/comment_service.go:100-106 | The creator owns a new comment. |
| CommentService.ToggleCommentApprovalAsWritten | Task4-Blog/services/comment_service.go:121-134 | The source's toggle never touches a post row. |
| CommentService.ToggleKeepsStaleCount | Task4-Blog/services/comment_service.go:121-134 | Unapproving the only approved comment leaves its post's comment_count at 1. |
| CommentService.ToggleCommentApproval | Task4-Blog/services/comment_service.go:121-134 | A missing id gives not found. Otherwise only the comment's approval flag and update time change. Its post's comment_count moves with the flag and that post's updated_at becomes now, and every other post row and column is unchanged. |
| CommentService.ToggleTwice | Task4-Blog/services/comment_service.go:121-134 | Toggling twice restores the comment except its update time, and restores every post row except the comment's post's updated_at, which holds the second toggle's time. |
| CommentService.ToggleCommentApprovalPreserves | Task4-Blog/services/comment_service.go:121-134 | The toggle keeps foreign keys and counters consistent. |
| CommentService.DeleteCommentAsWritten | Task4-Blog/services/comment_service.go:95-97 | The source's DeleteComment removes the row but changes no post or user row. |
| CommentService.DeleteCommentKeepsStaleCount | Task4-Blog/services/comment_service.go:95-97 | Deleting a post's only approved comment leaves its comment_count at 1. |
| CommentService.DeleteComment | Task4-Blog/services/comment_service.go:95-97 | Removes the comment. An approved comment lowers exactly its post's count by one and sets that post's updated_at to now. Every other row and column is unchanged, and a missing id changes nothing. |
| CommentService.DeleteCommentPreserves | Task4-Blog/services/comment_service.go:95-97 | DeleteComment keeps foreign keys and counters consistent. |
| UserService.FirstWhere | Task4-Blog/services/user_service.go:34-49 | The lowest live id whose row satisfies the condition, and none exactly when no live row does. |
| UserService.GetUserById | Task4-Blog/services/user_service.go:25-31 | Not found exactly for a missing id. Otherwise the stored user with that id. |
| UserService.GetUserByUsername | Task4-Blog/services/user_service.go:34-40 | A stored user whose username equals the argument ignoring letter case, as the database's default collation compares. Found exactly when one exists. |
| UserService.GetUserByEmail | Task4-Blog/services/user_service.go:43-49 | A stored user whose email equals the argument ignoring letter case. Found exactly when one exists. |
| UserService.LookupFindsUser | Task4-Blog/services/user_service.go:34-49 | Under unique logins, looking up a user's username or email returns that user. |
| UserService.UsernameExists | Task4-Blog/services/user_service.go:52-56 | True whenever the case-insensitive username lookup finds a user, and on a consistent store exactly then. |
| UserService.EmailExists | Task4-Blog/services/user_service.go:59-63 | True whenever the case-insensitive email lookup finds a user, and on a consistent store exactly then. |
| UserService.UpdateUser | Task4-Blog/services/user_service.go:66-87 | A missing user fails with no change. Bio and avatar change only when given non-empty, every other column is kept, and an empty update writes nothing. |
| UserService.UpdateUserIdempotent | Task4-Blog/services/user_service.go:66-87 | Applying the same update twice equals applying it once. |
| UserService.UpdateUserPreserves | Task4-Blog/services/user_service.go:66-87 | UpdateUser keeps foreign keys, counters and unique logins. |
| UserService.UpdateLastLogin | Task4-Blog/services/user_service.go:90-92 | Only that user's last login and update time change, and a missing id changes nothing. |
| UserService.UpdateLastLoginPreserves | Task4-Blog/services/user_service.go:90-92 | UpdateLastLogin keeps foreign keys, counters and unique logins. |
| UserService.GetUserPosts | Task4-Blog/services/user_service.go:95-124 | At most pageSize posts of that user, newest first. The total is the number of that user's posts. |
| UserService.UserPostsTotalIsPostCount | Task4-Blog/services/user_service.go:95-124 | On a consistent store that total equals the user's post_count. |
| UserService.GetUsers | Task4-Blog/services/user_service.go:127-149 | At most pageSize stored users, newest first. The total counts all users. |
| UserService.ChangePassword | Task4-Blog/services/user_service.go:152-171 | A missing user gives not found. A wrong old password gives invalid data with no change. Success stores the new password's hash and changes nothing else. |
| UserService.ChangePasswordPreserves | Task4-Blog/services/user_service.go:152-171 | ChangePassword keeps foreign keys, counters and unique logins. |
| UserService.ChangePasswordTakesEffect | Task4-Blog/services/user_service.go:152-171 | After a change, the new password is accepted as the old one, so changing back succeeds. |
| AuthService.Register | Task4-Blog/services/auth_service.go:27-49 | Fails when hashing fails, or when the username or email is taken ignoring letter case. Otherwise it stores one active user with role "user", the password's hash and no last login. |
| AuthService.RegisterPreserves | Task4-Blog/services/auth_service.go:27-49 | Register keeps foreign keys, counters and unique logins. |
| AuthService.Login | Task4-Blog/services/auth_service.go:52-71 | Every failure is the same not-found error. A success is the first stored user whose username or email equals the identifier ignoring letter case, which is active and whose hash checks. |
| AuthService.LoginDecision | Task4-Blog/services/auth_service.go:52-71 | Login succeeds iff the first matching user exists, is active and its hash checks. |
| AuthService.RegisterThenLogin | Task4-Blog/services/auth_service.go:27-71 | A user just registered can log in by username with the same password. |
| AuthService.RegisterThenGetUser | Task4-Blog/services/auth_service.go:27-49 | A user just registered is found by its id, with role "user", and the role hook leaves it unchanged. |
| AuthService.LoginsIgnoreCase | Task4-Blog/services/auth_service.go:27-71 | With "Alice" stored, registering "alice" fails with a duplicate key, and logging in as "ALICE" with the right password finds Alice. |
| AuthService.TokenClaims | Task4-Blog/services/auth_service.go:78-86 | Exactly seven claims: the user's id, username, email and role, iat = now, exp = now + 3600·hours, and the issuer. |
| AuthService.GenerateToken | Task4-Blog/services/auth_service.go:74-93 | An issued token is the signature of seven claims: the user's id, username, email and role, the issuer, iat = now and exp exactly expireHours hours later. |
| AuthMiddleware.GeneratedTokenAdmits | Task4-Blog/services/auth_service.go:74-93 | With a signer whose tokens the validator accepts with the signed claims, a generated token in a Bearer header admits exactly its user. |
| AuthService.TokenClaimsDetermineUser | Task4-Blog/services/auth_service.go:78-86 | Tokens live for exactly the configured hours. Two users get the same claims iff they agree on id, username, email and role. |
| AuthMiddleware.Split | Task4-Blog/middleware/auth_middleware.go:36-37 | strings.Split: at least one part, no part holds the separator, and joining the parts gives back the input. |
| AuthMiddleware.SplitJoin | Task4-Blog/middleware/auth_middleware.go:36-37 | Splitting a join of separator-free parts returns the parts. |
| AuthMiddleware.BearerFormat | Task4-Blog/middleware/auth_middleware.go:36-44 | The header splits into exactly "Bearer" and one more part iff it is "Bearer " followed by a text without spaces, and that text is the token. |
| AuthMiddleware.ToUint | Task4-Blog/middleware/auth_middleware.go:62 | The uint conversion is the identity on values that fit 64 bits. |
| AuthMiddleware.Extract | Task4-Blog/middleware/auth_middleware.go:62-65 | The identity exists iff the four claims have the asserted types, and is built from them. |
| AuthMiddleware.AuthRequired | Task4-Blog/middleware/auth_middleware.go:25-72 | An empty header, a malformed header, an invalid token or non-map claims are each rejected with 401 and the source's message. Otherwise it passes with the identity from the claims, or panics when a claim has the wrong type. |
| AuthMiddleware.IssuedTokenAdmits | Task4-Blog/middleware/auth_middleware.go:25-72 | A token the validator accepts with GenerateToken's claims admits exactly its user. |
| AuthMiddleware.OptionalAuth | Task4-Blog/middleware/auth_middleware.go:77-117 | Never rejects. |
| AuthMiddleware.OptionalAgreesWithRequired | Task4-Blog/middleware/auth_middleware.go:77-117 | It sets the same identity when AuthRequired would pass, continues anonymously exactly when AuthRequired would reject, and panics on the same inputs. |
| AuthMiddleware.AdminRequiredAsWritten | Task4-Blog/middleware/auth_middleware.go:120-138 | The protected handler runs whenever authentication passes, whatever the role. |
| AuthMiddleware.NonAdminReachesHandler | Task4-Blog/middleware/auth_middleware.go:120-138 | A valid token with role "user" reaches the handler even though 403 is then written. |
| AuthMiddleware.AdminRequired | Task4-Blog/middleware/auth_middleware.go:120-138 | The handler runs iff authentication passes with role "admin". Authentication failures keep their 401, and other roles get 403. |
| AuthMiddleware.GetUserFromContext | Task4-Blog/middleware/auth_middleware.go:141-152 | Found iff an identity was stored, and then exactly its fields. Otherwise zero values. |
| AuthMiddleware.ContextAfterAuth | Task4-Blog/middleware/auth_middleware.go:62-72 | After AuthRequired passes, handlers find the user id from the claims. After OptionalAuth, they find a user iff AuthRequired would have passed. |
| Cors.Finish | Task4-Blog/middleware/cors_middleware.go:31-36 | OPTIONS aborts with 204. Every other method continues with the headers unchanged. |
| Cors.CORS | Task4-Blog/middleware/cors_middleware.go:8-38 | Allow-Origin is the request origin, or "*" when none is given. The five fixed headers are always set, and OPTIONS is short-circuited. |
| Cors.CORSCustom | Task4-Blog/middleware/cors_middleware.go:41-71 | Allow-Origin is set, to the request origin, iff the list holds "*" or that origin. Every other header and the preflight handling match CORS. |
| Cors.WildcardMatchesCors | Task4-Blog/middleware/cors_middleware.go:41-71 | With "*" allowed, CORSCustom admits every origin and sets the same headers as CORS for a request with an origin. |
| GormDomain.PostAfterCreate | Task3-DbDriver/gorm/domain.go:54-65 | Exactly the owner's post_count rises by one and the owner's updated_at becomes now. Nothing else changes. |
| GormDomain.CreatePost | Task3-DbDriver/gorm/domain.go:143-145 | Succeeds iff the owner exists. The new post starts with no comments, status "无评论" and both timestamps now. Only the owner's row changes: its count rises by one and its updated_at becomes now. |
| GormDomain.CreatePostPreserves | Task3-DbDriver/gorm/domain.go:54-65 | Creating posts keeps every user's post_count equal to the number of their posts. |
| GormDomain.CreateComment | Task3-DbDriver/gorm/domain.go:159-161 | Succeeds iff the post exists. The comment is created at now, and no post or user row changes, since there is no create hook. |
| GormDomain.CreateCommentLeavesCountStale | Task3-DbDriver/gorm/domain.go:45-99 | After a comment is created, its post still shows zero comments until a delete reconciles it. |
| GormDomain.CommentAfterDelete | Task3-DbDriver/gorm/domain.go:74-99 | Only the comment's post changes. Its comment_count becomes the number of remaining comments, with status "无评论" iff that is zero and "有评论" otherwise, and its updated_at becomes now. |
| GormDomain.DeleteComment | Task3-DbDriver/gorm/domain.go:225-232 | A missing id is not found with no change. Otherwise the comment is removed and its real post is reconciled, with updated_at now. |
| GormDomain.DeleteCommentReconciles | Task3-DbDriver/gorm/domain.go:225-232 | After a delete, the deleted comment's post is reconciled and reconciled posts stay so. |
| GormDomain.DeleteCommentKeepsPostCounts | Task3-DbDriver/gorm/domain.go:225-232 | Deleting comments keeps every post_count right. |

## Left out

- **Floating point:** balances and amounts are float64 in transaction.go and are integer cents here. Rounding is not modelled.
- **Concurrency and locking:** transfers are atomic steps. The row lock, the transaction isolation and every goroutine, channel and mutex program are not modelled.
- **Storage engines:** SQL statements, GORM's query builder, Preload, Count and soft deletes are replaced by their effect on the tables.
  - Storage errors other than the ledger's named faults are not modelled.
  - Soft-deleted posts are absent from the live table, and only their slugs are kept, in `deletedSlugs`, for the unique index. Soft-deleted users and comments are simply absent.
- **Order of tied rows:** rows with equal creation times come back in primary-key order. The database may return them in any order.
- **Preload order:** the order of preloaded comments in GetPostById, and their own user preloads, are not modelled; the comments are a set of rows there.
- **Clock:** time.Now is an explicit `now` parameter. An operation and the hooks it triggers read the same `now`.
- **Collation:** `SameText` folds only ASCII letters. Accent folding, non-ASCII case folding and the collation's trailing-space rule are not modelled.
- **Auto-increment gaps:** InnoDB uses up an id on a failed or rolled-back insert, and DELETE FROM does not reset the counter. The model advances a counter only on success.
  - Ledger.CreateAccount, Ledger.Transfer, AuthService.Register, PostService.CreatePost and CommentService.CreateComment therefore state the next id as the counter's value, where the database may skip ids after failures.
  - Ledger.DemoRun is stated over the returned ids, so it holds whatever the counter was.
- **Cryptography and configuration:** bcrypt, JWT parsing and signing, and configuration loading are function parameters or constants.
- **ValidateToken** (auth_service.go): represented only by the `validate` verdict that AuthMiddleware receives.
- **GetUserFromToken** (auth_service.go): not modelled, because it is only a composition of the validator and GetUserById.
- **GetAllAccounts** (transaction.go): not modelled. It only prints the table.
- **Demonstration code:** the `main` functions, logging and printing are not modelled.
  - Ledger.DemoRun covers the demonstration's transfers.
  - Atomic.DoubleDemo covers atomic.go's slice demonstration.
- **week1 singleNumber in main.go:** identical to week1.go's, so it is modelled once.
- **Rune classes:** Go's unicode.IsLetter and unicode.IsNumber are parameters of ValidPassword, and non-ASCII case mapping keeps the character.
- AuthMiddleware.ToUint: models the float64-to-uint conversion only for integral values, on amd64. Fractional or huge user_id claims are not modelled.
- **post_count on users:** the blog's User model declares no post_count column, although the post hooks update one. The model keeps the column the hooks presume. Against a schema migrated from these models the hooks' UPDATE would fail, and since the hooks return that error, GORM would roll back every post create and delete. The model does not follow that consequence.
- **HTTP glue:** controllers, routes, response helpers and the logger, security and rate-limit middleware are not modelled.
- **GORM's Comment.BeforeCreate and BeforeDelete in the blog, and Post.BeforeCreate and Comment.BeforeDelete in domain.go:** not modelled. They only print or return nil.
- **Slices as arrays:** Week1.AddOne, DreamStartMain.PlusOne, both Merge methods, Atomic.IncreaseByTen and Atomic.DoubleSliceElements work on Dafny arrays, so what the caller sees through a shared slice is stated with `old` and `fresh`.
- Week1.Merge, DreamStartMain.Merge: the caller's inner interval slices are assumed to be distinct arrays. If two slots shared one inner slice, widening one would change the other too.
- Week1.Merge, DreamStartMain.Merge: each interval is a pair of ints. Go indexes [0] and [1] and would panic on a shorter inner slice, which the problem statement in the source comments rules out.
- DreamStartMain.IsPalindrome: the digit reversal is unbounded. Go's int64 reversal wraps when it exceeds 2^63-1, for example for x = 1999999999999999999, but the wrapped value is negative and never equals x, so the answer does not change.
- Week1.Merge: sort.Slice leaves the order of intervals with equal starts unspecified. The model keeps their input order.
- AuthService.TokenClaims: Go calls time.Now() once for exp and again for iat, so iat can be later than exp - 3600·hours by the time between the two calls. The model reads one `now` for both.

## Findings

| source | as written | input that shows it | evidently intended | confidence | as-written member | corrected member |
|---|---|---|---|---|---|---|
| Task3-DbDriver/sql/transaction.go:55-107 | Transfer never checks the amount's sign | transfer -100 from account 1 to account 2, both at 0: it succeeds and account 2 ends at -100 | only positive amounts move money, so balances never go negative | not executed | Ledger.NegativeAmountOverdrawsDestination | Ledger.TransferChecked |
| Task4-Blog/services/post_service.go:23-44 | is_public is declared with default true, and GORM replaces a false zero value by the column default on insert | CreatePost with isPublic = false: the stored post is public | the caller's false is stored | not executed | PostService.CreatePostAsWritten, PostService.PrivatePostStoredPublic | PostService.CreatePost |
| Task4-Blog/services/post_service.go:94-132 | Updates writes a column map without published_at; BeforeUpdate inspects the row as loaded, still a draft, and a change it makes to that struct is not written | publish a draft with status "published": it is stored published with no publish time | publishing sets the publish time once | not executed | PostService.UpdatePostAsWritten, PostService.PublishWithoutTimestamp | PostService.UpdatePost |
| Task4-Blog/services/post_service.go:135-137 | Delete receives a zero-valued Post, so AfterDelete decrements post_count of user 0 | delete a user's only post: their post_count stays 1 | the real author's post_count falls by one | not executed | PostService.DeletePostAsWritten, PostService.DeleteKeepsStaleCount | PostService.DeletePost |
| Task4-Blog/services/comment_service.go:95-97 | Delete receives a zero-valued Comment, so AfterDelete sees an unapproved comment and decrements nothing | delete a post's only approved comment: comment_count stays 1 | the post's comment_count falls by one for an approved comment | not executed | CommentService.DeleteCommentAsWritten, CommentService.DeleteCommentKeepsStaleCount | CommentService.DeleteComment |
| Task4-Blog/services/comment_service.go:121-134 | toggling approval never adjusts comment_count | unapprove a post's only approved comment: comment_count stays 1 | comment_count follows the approved comments | not executed | CommentService.ToggleCommentApprovalAsWritten, CommentService.ToggleKeepsStaleCount | CommentService.ToggleCommentApproval |
| Task4-Blog/middleware/auth_middleware.go:120-138 | AdminRequired runs AuthRequired's handler, which calls c.Next() before the role is checked | a valid token with role "user": the admin handler runs, then 403 is written | the handler runs only for role "admin" | not executed | AuthMiddleware.AdminRequiredAsWritten, AuthMiddleware.NonAdminReachesHandler | AuthMiddleware.AdminRequired |

=== FILE: atomic.dfy ===
/** Pointer and slice mutation through a callee (Task2-AdcancedLanguage/atomic.go),
    on Go's 64-bit ints. */
module Atomic {
  import opened GoTypes

  /** A heap-allocated int, standing for the variable an *int points to. */
  class IntCell {
    var value: Int64

    constructor (v: Int64)
      ensures value == v
    {
      value := v;
    }
  }

  /** increaseByTen: adds 10 to the pointed-to int and touches nothing else;
      within 10 of the largest int the sum wraps to the negative end. */
  method IncreaseByTen(ptr: IntCell)
    modifies ptr
    ensures old(ptr.value) <= MaxInt64 - 10 ==> ptr.value == old(ptr.value) + 10
    ensures old(ptr.value) > MaxInt64 - 10 ==> ptr.value == old(ptr.value) + 10 - Two64
  {
    ptr.value := Wrap(ptr.value as int + 10);
  }

  /** doubleSliceElements: the callee's copy of the slice header shares the
      backing array, so doubling through it is what the caller sees. Each
      product wraps to 64 bits. */
  method DoubleSliceElements(slice: array<Int64>)
    modifies slice
    ensures forall i | 0 <= i < slice.Length :: (slice[i] - 2 * (old(slice[i]) as int)) % Two64 == 0
    ensures forall i | 0 <= i < slice.Length && MinInt64 <= 2 * (old(slice[i]) as int) <= MaxInt64 ::
              slice[i] == 2 * old(slice[i])
  {
    var i := 0;
    while i < slice.Length
      invariant 0 <= i <= slice.Length
      invariant forall k | 0 <= k < i :: slice[k] == Wrap(2 * (old(slice[k]) as int))
      invariant forall k | i <= k < slice.Length :: slice[k] == old(slice[k])
    {
      slice[i] := Wrap(slice[i] as int * 2);
      i := i + 1;
    }
  }

  /** The demo in main: the caller's numbers 1..5 read back doubled. */
  method DoubleDemo() returns (numbers: seq<Int64>)
    ensures numbers == [2, 4, 6, 8, 10]
  {
    var backing := new Int64[5];
    backing[0], backing[1], backing[2], backing[3], backing[4] := 1, 2, 3, 4, 5;
    DoubleSliceElements(backing);
    numbers := backing[..];
  }
}

=== FILE: auth_middleware.dfy ===
/** The admission decisions of Task4-Blog/middleware/auth_middleware.go.
    Each middleware is a function of the Authorization header and of the
    token validator, whose signature check is a parameter. A failed type
    assertion on a claim panics; gin's Recovery turns that into a 500, so
    it is an outcome of its own here. */
module AuthMiddleware {
  import opened Wrappers
  import BlogModels
  import AuthService

  /** What ValidateToken reports: a parse or signature error, or a parsed
      token with its validity and, when they are a JSON object, its
      claims. */
  datatype Verdict = ParseError | Parsed(valid: bool, claims: Option<map<string, AuthService.Claim>>)

  /** The request context values the middleware sets. */
  datatype Identity = Identity(userId: nat, username: string, email: string, role: string)

  /** Abort with a status and message; continue with the context values set
      (or none); or panic. */
  datatype Outcome = Reject(status: int, message: string) | Pass(identity: Option<Identity>) | Panic

  const Unauthorized := 401
  const Forbidden := 403
  const MissingToken := "缺少认证token"
  const BadFormat := "token格式错误"
  const InvalidToken := "token无效或已过期"
  const BadClaims := "token解析失败"
  const AdminOnly := "需要管理员权限"
  const RoleAdmin := "admin"

  /** strings.Split(s, string(sep)): the pieces between separators, one
      more than there are separators. */
  function Split(s: string, sep: char): (parts: seq<string>)
    ensures |parts| >= 1
    ensures Join(parts, sep) == s
    ensures forall k | 0 <= k < |parts| :: sep !in parts[k]
  {
    if |s| == 0 then [""]
    else
      var rest := Split(s[1..], sep);
      if s[0] == sep then [""] + rest
      else
        assert sep !in [s[0]] + rest[0];
        [[s[0]] + rest[0]] + rest[1..]
  }

  /** strings.Join(parts, string(sep)). */
  function Join(parts: seq<string>, sep: char): (s: string)
    requires |parts| >= 1
    decreases |parts|
  {
    if |parts| == 1 then parts[0] else parts[0] + [sep] + Join(parts[1..], sep)
  }

  lemma JoinTwo(a: string, b: string, sep: char)
    ensures Join([a, b], sep) == a + [sep] + b
  {
    assert [a, b][1..] == [b];
  }

  /** Join then Split gives the pieces back when no piece holds the
      separator: with the ensures of Split, the two are inverse. */
  lemma {:induction false} SplitJoin(parts: seq<string>, sep: char)
    requires |parts| >= 1
    requires forall k | 0 <= k < |parts| :: sep !in parts[k]
    ensures Split(Join(parts, sep), sep) == parts
    decreases |parts|, |parts[0]|
  {
    var s := Join(parts, sep);
    if |parts[0]| == 0 {
      if |parts| > 1 {
        assert s == [sep] + Join(parts[1..], sep);
        assert s[1..] == Join(parts[1..], sep);
        SplitJoin(parts[1..], sep);
        assert parts == [""] + parts[1..];
      }
    } else {
      var tail := [parts[0][1..]] + parts[1..];
      assert forall k | 0 <= k < |tail| :: sep !in tail[k];
      assert s[1..] == Join(tail, sep) by {
        if |parts| == 1 {
        } else {
          assert Join(tail, sep) == parts[0][1..] + [sep] + Join(parts[1..], sep);
          assert s == parts[0] + [sep] + Join(parts[1..], sep);
        }
      }
      SplitJoin(tail, sep);
      assert s[0] == parts[0][0] && s[0] != sep;
      assert parts[0] == [parts[0][0]] + parts[0][1..];
      assert parts == [parts[0]] + tail[1..];
    }
  }

  /** The header format AuthRequired accepts: exactly "Bearer", one space,
      and a token with no space in it (possibly empty). */
  lemma BearerFormat(header: string)
    ensures var parts := Split(header, ' ');
            (|parts| == 2 && parts[0] == "Bearer") <==>
              (|header| >= 7 && header[..7] == "Bearer " && ' ' !in header[7..])
    ensures var parts := Split(header, ' ');
            |parts| == 2 && parts[0] == "Bearer" ==> parts[1] == header[7..]
  {
    var parts := Split(header, ' ');
    if |parts| == 2 && parts[0] == "Bearer" {
      assert parts == [parts[0], parts[1]];
      JoinTwo(parts[0], parts[1], ' ');
      assert header == "Bearer" + " " + parts[1];
      assert header[7..] == parts[1];
    }
    if |header| >= 7 && header[..7] == "Bearer " && ' ' !in header[7..] {
      JoinTwo("Bearer", header[7..], ' ');
      assert header == Join(["Bearer", header[7..]], ' ');
      SplitJoin(["Bearer", header[7..]], ' ');
    }
  }

  /** The amd64 conversion `uint(f)` of an integral float64 in the int64
      range: two's complement wrap-around. */
  function ToUint(n: int): (u: nat)
    ensures u < 0x1_0000_0000_0000_0000
    ensures 0 <= n < 0x1_0000_0000_0000_0000 ==> u == n
  {
    n % 0x1_0000_0000_0000_0000
  }

  /** The four type assertions on the claims; None where one would panic. */
  function Extract(claims: map<string, AuthService.Claim>): (r: Option<Identity>)
    ensures r.Some? <==> "user_id" in claims && claims["user_id"].Num? && "username" in claims && claims["username"].Text?
                         && "email" in claims && claims["email"].Text? && "role" in claims && claims["role"].Text?
    ensures r.Some? ==> r.value == Identity(ToUint(claims["user_id"].n), claims["username"].s,
                                            claims["email"].s, claims["role"].s)
  {
    if "user_id" in claims && claims["user_id"].Num? && "username" in claims && claims["username"].Text?
       && "email" in claims && claims["email"].Text? && "role" in claims && claims["role"].Text?
    then Some(Identity(ToUint(claims["user_id"].n), claims["username"].s, claims["email"].s, claims["role"].s))
    else None
  }

  /** AuthRequired: the checks in order, each with its own 401 message. */
  function AuthRequired(header: string, validate: string -> Verdict): (r: Outcome)
    ensures header == "" ==> r == Reject(Unauthorized, MissingToken)
    ensures header != "" && !(|header| >= 7 && header[..7] == "Bearer " && ' ' !in header[7..]) ==>
              r == Reject(Unauthorized, BadFormat)
    ensures r.Reject? ==> r.status == Unauthorized
    ensures r.Pass? ==> r.identity.Some?
    ensures r.Pass? || r.Panic? <==>
              && |header| >= 7 && header[..7] == "Bearer " && ' ' !in header[7..]
              && var v := validate(header[7..]);
                 v.Parsed? && v.valid && v.claims.Some?
    ensures r.Pass? <==>
              && |header| >= 7 && header[..7] == "Bearer " && ' ' !in header[7..]
              && var v := validate(header[7..]);
                 v.Parsed? && v.valid && v.claims.Some? && Extract(v.claims.value).Some?
    ensures r.Pass? ==> r.identity == Extract(validate(header[7..]).claims.value)
  {
    BearerFormat(header);
    if header == "" then Reject(Unauthorized, MissingToken)
    else
      var parts := Split(header, ' ');
      if |parts| != 2 || parts[0] != "Bearer" then Reject(Unauthorized, BadFormat)
      else
        var v := validate(parts[1]);
        if v.ParseError? || !v.valid then Reject(Unauthorized, InvalidToken)
        else if v.claims.None? then Reject(Unauthorized, BadClaims)
        else match Extract(v.claims.value)
          case None => Panic
          case Some(id) => Pass(Some(id))
  }

  /** OptionalAuth: every check that would reject lets the request through
      without context values; a bad claim still panics. */
  function OptionalAuth(header: string, validate: string -> Verdict): (r: Outcome)
    ensures !r.Reject?
  {
    if header == "" then Pass(None)
    else
      var parts := Split(header, ' ');
      if |parts| != 2 || parts[0] != "Bearer" then Pass(None)
      else
        var v := validate(parts[1]);
        if v.ParseError? || !v.valid then Pass(None)
        else if v.claims.None? then Pass(None)
        else match Extract(v.claims.value)
          case None => Panic
          case Some(id) => Pass(Some(id))
  }

  /** OptionalAuth sets the user exactly when AuthRequired would admit the
      request, to the same values, and continues without one where
      AuthRequired would reject. */
  lemma OptionalAgreesWithRequired(header: string, validate: string -> Verdict)
    ensures AuthRequired(header, validate).Pass? ==> OptionalAuth(header, validate) == AuthRequired(header, validate)
    ensures AuthRequired(header, validate).Reject? <==> OptionalAuth(header, validate) == Pass(None)
    ensures AuthRequired(header, validate).Panic? <==> OptionalAuth(header, validate).Panic?
  {
  }

  /** A middleware chain ending in a protected handler: whether the handler
      ran, and the middleware's own verdict. */
  datatype Chain = Chain(handlerRan: bool, outcome: Outcome)

  /** AdminRequired as written: it calls AuthRequired()(c) directly, and
      AuthRequired ends with c.Next(), which runs the protected handler
      before the role is looked at; the 403 comes after it. */
  function AdminRequiredAsWritten(header: string, validate: string -> Verdict): (r: Chain)
    ensures r.handlerRan <==> AuthRequired(header, validate).Pass?
  {
    match AuthRequired(header, validate)
    case Pass(id) =>
      if id.None? || id.value.role != RoleAdmin then Chain(true, Reject(Forbidden, AdminOnly))
      else Chain(true, Pass(id))
    case other => Chain(false, other)
  }

  /** A signed-in non-admin reaches the admin handler as written. */
  lemma NonAdminReachesHandler()
    ensures var claims := map["user_id" := AuthService.Num(7), "username" := AuthService.Text("bob"),
                              "email" := AuthService.Text("b@x"), "role" := AuthService.Text("user")];
            var validate := (t: string) => Parsed(true, Some(claims));
            var r := AdminRequiredAsWritten("Bearer tok", validate);
            r.handlerRan && r.outcome == Reject(Forbidden, AdminOnly)
  {
    var claims := map["user_id" := AuthService.Num(7), "username" := AuthService.Text("bob"),
                      "email" := AuthService.Text("b@x"), "role" := AuthService.Text("user")];
    var validate := (t: string) => Parsed(true, Some(claims));
    assert "Bearer tok"[..7] == "Bearer " && "Bearer tok"[7..] == "tok";
    assert ' ' !in "tok";
    assert Extract(claims) == Some(Identity(7, "bob", "b@x", "user"));
    assert AuthRequired("Bearer tok", validate) == Pass(Some(Identity(7, "bob", "b@x", "user")));
  }

  /** AdminRequired as intended: authentication without running the rest
      of the chain, then the role gate; the handler runs only for an
      admin. */
  function AdminRequired(header: string, validate: string -> Verdict): (r: Chain)
    ensures r.handlerRan <==> r.outcome.Pass?
    ensures r.handlerRan <==> AuthRequired(header, validate).Pass?
                              && AuthRequired(header, validate).identity.value.role == RoleAdmin
    ensures AuthRequired(header, validate).Reject? ==> r.outcome == AuthRequired(header, validate)
    ensures (AuthRequired(header, validate).Pass? && AuthRequired(header, validate).identity.value.role != RoleAdmin)
              ==> r.outcome == Reject(Forbidden, AdminOnly)
  {
    match AuthRequired(header, validate)
    case Pass(id) =>
      if id.None? || id.value.role != RoleAdmin then Chain(false, Reject(Forbidden, AdminOnly))
      else Chain(true, Pass(id))
    case other => Chain(false, other)
  }

  /** A token issued for a user and accepted by the validator admits a
      request bearing it, with that user's id, username, email and role. */
  lemma IssuedTokenAdmits(u: BlogModels.User, now: int, expireHours: int, issuer: string, token: string,
                          validate: string -> Verdict)
    requires ' ' !in token
    requires validate(token) == Parsed(true, Some(AuthService.TokenClaims(u, now, expireHours, issuer)))
    requires u.id < 0x1_0000_0000_0000_0000
    ensures AuthRequired("Bearer " + token, validate) == Pass(Some(Identity(u.id, u.username, u.email, u.role)))
  {
    var h := "Bearer " + token;
    assert h[..7] == "Bearer " && h[7..] == token;
  }

  /** Issuing and admitting round-trip: with a signer whose tokens contain
      no space and a validator that accepts each token the signer produced,
      yielding the claims it signed, a token GenerateToken issues admits a
      request with exactly the user it was issued for. */
  lemma GeneratedTokenAdmits(u: BlogModels.User, now: int, expireHours: int, issuer: string,
                             sign: map<string, AuthService.Claim> -> Option<string>, validate: string -> Verdict)
    requires u.id < 0x1_0000_0000_0000_0000
    requires forall c :: sign(c).Some? ==> ' ' !in sign(c).value && validate(sign(c).value) == Parsed(true, Some(c))
    ensures var t := AuthService.GenerateToken(u, now, expireHours, issuer, sign);
            t.Some? ==> AuthRequired("Bearer " + t.value, validate) == Pass(Some(Identity(u.id, u.username, u.email, u.role)))
  {
    var t := AuthService.GenerateToken(u, now, expireHours, issuer, sign);
    if t.Some? {
      IssuedTokenAdmits(u, now, expireHours, issuer, t.value, validate);
    }
  }

  /** What the handler reads back: GetUserFromContext on the context a
      middleware left, given as the identity it stored (None when it set
      nothing). Without a stored user id it returns zero values and false. */
  function GetUserFromContext(stored: Option<Identity>): (r: (nat, string, string, string, bool))
    ensures r.4 <==> stored.Some?
    ensures !r.4 ==> r == (0, "", "", "", false)
    ensures r.4 ==> Identity(r.0, r.1, r.2, r.3) == stored.value
  {
    match stored
    case None => (0, "", "", "", false)
    case Some(id) => (id.userId, id.username, id.email, id.role, true)
  }

  /** Behind AuthRequired the handler always finds the user from the token;
      behind OptionalAuth it finds one exactly when AuthRequired would have
      let the request through. */
  lemma ContextAfterAuth(header: string, validate: string -> Verdict)
    ensures var r := AuthRequired(header, validate);
            r.Pass? ==> GetUserFromContext(r.identity).4
                        && GetUserFromContext(r.identity).0 == Extract(validate(header[7..]).claims.value).value.userId
    ensures var o := OptionalAuth(header, validate);
            o.Pass? ==> (GetUserFromContext(o.identity).4 <==> AuthRequired(header, validate).Pass?)
  {
    OptionalAgreesWithRequired(header, validate);
  }
}

=== FILE: auth_service.dfy ===
/** The authentication service of Task4-Blog/services/auth_service.go:
    registration, the login decision and the claim set of an issued token.
    The bcrypt hasher and checker and the HS256 signer are parameters. */
module AuthService {
  import opened Wrappers
  import opened BlogModels
  import UserService
  import Validators

  /** Register: hashes the password, then inserts an active user with role
      "user". A hasher failure is HashFailed; a username or email already
      held by another user violates a unique index. */
  function Register(db: Db, username: string, email: string, password: string, bio: string,
                    hash: string -> Option<string>, now: int)
    : (r: Result<(Db, User), DbError>)
    ensures hash(password).None? ==> r == Failure(HashFailed)
    ensures r.Success? <==> hash(password).Some? && !UserService.UsernameExists(db, username)
                            && !UserService.EmailExists(db, email)
    ensures r.Failure? && hash(password).Some? ==> r.error == DuplicateKey
    ensures r.Success? ==>
      var (db', u) := r.value;
      && u.id == db.nextUserId && u.username == username && u.email == email && u.bio == bio
      && u.password == hash(password).value && u.role == RoleUser && u.isActive && u.postCount == 0
      && u.lastLogin.None? && u.createdAt == now
      && db' == db.(users := db.users[u.id := u], nextUserId := db.nextUserId + 1)
  {
    match hash(password)
    case None => Failure(HashFailed)
    case Some(hashed) =>
      var u := UserBeforeCreate(User(db.nextUserId, username, email, hashed, bio, "", RoleUser, true, None, now, now, 0));
      if UserService.UsernameExists(db, username) || UserService.EmailExists(db, email) then Failure(DuplicateKey)
      else Success((db.(users := db.users[u.id := u], nextUserId := db.nextUserId + 1), u))
  }

  lemma RegisterPreserves(db: Db, username: string, email: string, password: string, bio: string,
                          hash: string -> Option<string>, now: int)
    requires Valid(db) && CountersAgree(db) && UniqueLogins(db)
    ensures var r := Register(db, username, email, password, bio, hash, now);
            r.Success? ==> Valid(r.value.0) && CountersAgree(r.value.0) && UniqueLogins(r.value.0)
  {
    var r := Register(db, username, email, password, bio, hash, now);
    if r.Success? {
      var (db', u) := r.value;
      forall uid | uid in db'.users
        ensures db'.users[uid].postCount == |PostsBy(db', uid)|
      {
        assert PostsBy(db', uid) == PostsBy(db, uid);
        if uid == u.id {
          assert PostsBy(db, uid) == {};
        }
      }
      assert forall pid :: ApprovedOn(db', pid) == ApprovedOn(db, pid);
    }
  }

  /** The row Login looks up: the first user whose username or email is
      the identifier under the collation. */
  predicate Identifies(u: User, identifier: string)
  {
    SameText(u.username, identifier) || SameText(u.email, identifier)
  }

  /** Login: the first live user whose username or email equals the
      identifier, provided it is active and the password checks against its
      hash. Every failure is the same RecordNotFound. */
  function Login(db: Db, identifier: string, password: string, checkHash: (string, string) -> bool)
    : (r: Result<User, DbError>)
    ensures r.Failure? ==> r.error == RecordNotFound
    ensures r.Success? ==> exists id | id in db.users :: db.users[id] == r.value
    ensures r.Success? ==> Identifies(r.value, identifier) && r.value.isActive && checkHash(password, r.value.password)
    ensures r.Success? && Valid(db) ==> forall id | id in db.users && id < r.value.id :: !Identifies(db.users[id], identifier)
  {
    match UserService.FirstWhere(db, (u: User) => Identifies(u, identifier))
    case None => Failure(RecordNotFound)
    case Some(id) =>
      var u := db.users[id];
      if !u.isActive then Failure(RecordNotFound)
      else if !checkHash(password, u.password) then Failure(RecordNotFound)
      else Success(u)
  }

  /** Login succeeds exactly when the first matching user is active and
      the password checks; an inactive user and a wrong password are both
      reported as a missing user. */
  lemma LoginDecision(db: Db, identifier: string, password: string, checkHash: (string, string) -> bool)
    ensures var first := UserService.FirstWhere(db, (u: User) => Identifies(u, identifier));
            Login(db, identifier, password, checkHash).Success? <==>
              first.Some? && db.users[first.value].isActive && checkHash(password, db.users[first.value].password)
  {
  }

  /** A freshly registered user can log in with its username and password,
      when no other user's email matches that username and the checker
      accepts every password against its own hash. */
  lemma RegisterThenLogin(db: Db, username: string, email: string, password: string, bio: string,
                          hash: string -> Option<string>, checkHash: (string, string) -> bool, now: int)
    requires Valid(db)
    requires forall id | id in db.users :: !SameText(db.users[id].email, username)
    requires forall p | hash(p).Some? :: checkHash(p, hash(p).value)
    ensures var r := Register(db, username, email, password, bio, hash, now);
            r.Success? ==> Login(r.value.0, username, password, checkHash) == Success(r.value.1)
  {
    var r := Register(db, username, email, password, bio, hash, now);
    if r.Success? {
      var (db', u) := r.value;
      var keep := (v: User) => Identifies(v, username);
      var first := UserService.FirstWhere(db', keep);
      assert keep(db'.users[u.id]);
      assert forall id | id in db'.users && id != u.id :: !keep(db'.users[id]);
      assert first == Some(u.id);
    }
  }

  /** A registered user is found again by id, as stored, and its role
      is the one BeforeCreate keeps. */
  lemma RegisterThenGetUser(db: Db, username: string, email: string, password: string, bio: string,
                            hash: string -> Option<string>, now: int)
    ensures var r := Register(db, username, email, password, bio, hash, now);
            r.Success? ==>
              && UserService.GetUserById(r.value.0, r.value.1.id) == Success(r.value.1)
              && r.value.1.role == RoleUser && UserBeforeCreate(r.value.1) == r.value.1
  {
  }

  /** With "Alice" stored, registering "alice" is refused as a duplicate,
      and logging in as "ALICE" finds Alice. */
  lemma LoginsIgnoreCase(password: string, hash: string -> Option<string>, checkHash: (string, string) -> bool)
    requires hash(password).Some?
    ensures var alice := NoUser.(id := 1, username := "Alice", email := "a@x.io", password := "h", isActive := true);
            var db := EmptyDb.(users := map[1 := alice], nextUserId := 2);
            && Register(db, "alice", "b@x.io", password, "", hash, 0) == Failure(DuplicateKey)
            && (checkHash(password, "h") ==> Login(db, "ALICE", password, checkHash) == Success(alice))
  {
    var alice := NoUser.(id := 1, username := "Alice", email := "a@x.io", password := "h", isActive := true);
    var db := EmptyDb.(users := map[1 := alice], nextUserId := 2);
    assert Validators.ToLower("Alice") == "alice";
    assert Validators.ToLower("alice") == "alice";
    assert Validators.ToLower("ALICE") == "alice";
    assert SameText(db.users[1].username, "alice");
    assert UserService.UsernameExists(db, "alice");
    assert Identifies(alice, "ALICE");
  }

  /** A claim value as JSON decoding yields it: numbers, strings, or
      anything else. */
  datatype Claim = Num(n: int) | Text(s: string) | Other

  /** The claim set GenerateToken signs: the user's id, username, email and
      role, issued-at now, expiring expireHours hours later, and the
      configured issuer. */
  function TokenClaims(u: User, now: int, expireHours: int, issuer: string): (c: map<string, Claim>)
    ensures c.Keys == {"user_id", "username", "email", "role", "exp", "iat", "iss"}
    ensures c["user_id"] == Num(u.id) && c["username"] == Text(u.username) && c["email"] == Text(u.email)
    ensures c["role"] == Text(u.role) && c["iss"] == Text(issuer)
    ensures c["iat"] == Num(now) && c["exp"] == Num(now + expireHours * 3600)
  {
    map["user_id" := Num(u.id), "username" := Text(u.username), "email" := Text(u.email),
        "role" := Text(u.role), "exp" := Num(now + expireHours * 3600), "iat" := Num(now),
        "iss" := Text(issuer)]
  }

  /** GenerateToken: the signed claim set, or None when signing fails. A
      token it issues signs seven claims naming the user, the issuer and a
      lifetime of exactly expireHours hours from now. */
  function GenerateToken(u: User, now: int, expireHours: int, issuer: string,
                         sign: map<string, Claim> -> Option<string>): (r: Option<string>)
    ensures r.Some? ==> exists c :: (
              && sign(c) == r
              && c.Keys == {"user_id", "username", "email", "role", "exp", "iat", "iss"}
              && c["user_id"] == Num(u.id) && c["username"] == Text(u.username) && c["email"] == Text(u.email)
              && c["role"] == Text(u.role) && c["iss"] == Text(issuer)
              && c["iat"] == Num(now) && c["exp"] == Num(now + expireHours * 3600))
  {
    var c := TokenClaims(u, now, expireHours, issuer);
    sign(c)
  }

  /** A token lives exactly expireHours hours, and the claims differ for
      users that differ in id, username, email or role. */
  lemma TokenClaimsDetermineUser(u: User, v: User, now: int, expireHours: int, issuer: string)
    ensures var c := TokenClaims(u, now, expireHours, issuer);
            c["exp"].n - c["iat"].n == 3600 * expireHours
    ensures TokenClaims(u, now, expireHours, issuer) == TokenClaims(v, now, expireHours, issuer) <==>
              u.id == v.id && u.username == v.username && u.email == v.email && u.role == v.role
  {
    if TokenClaims(u, now, expireHours, issuer) == TokenClaims(v, now, expireHours, issuer) {
      assert TokenClaims(u, now, expireHours, issuer)["user_id"] == TokenClaims(v, now, expireHours, issuer)["user_id"];
      assert TokenClaims(u, now, expireHours, issuer)["username"] == TokenClaims(v, now, expireHours, issuer)["username"];
      assert TokenClaims(u, now, expireHours, issuer)["email"] == TokenClaims(v, now, expireHours, issuer)["email"];
      assert TokenClaims(u, now, expireHours, issuer)["role"] == TokenClaims(v, now, expireHours, issuer)["role"];
    }
  }
}

=== FILE: blog_models.dfy ===
/** The blog's records (Task4-Blog/models/user.go, post.go, comment.go), the
    GORM hooks they declare, and their JSON response projections, over an
    abstract database of three auto-increment tables.

    Hooks are called explicitly by the services that trigger them. A hook
    that issues `UPDATE ... WHERE id = ?` changes the row with that id if
    there is one and nothing otherwise; like every GORM `Update` on a model
    with an UpdatedAt field, it also sets that row's updated_at. Timestamps
    are an explicit `now`. */
module BlogModels {
  import opened Wrappers
  import opened GoTypes
  import Validators

  const SummaryLimit: nat := 150
  /** "..." */
  const Ellipsis: Bytes := [46, 46, 46]

  const StatusDraft := "draft"
  const StatusPublished := "published"
  const StatusArchived := "archived"
  const RoleUser := "user"
  const RoleAdmin := "admin"

  /** A users row. postCount is the column the post hooks maintain. */
  datatype User = User(
    id: nat, username: string, email: string, password: string,
    bio: string, avatar: string, role: string, isActive: bool,
    lastLogin: Option<int>, createdAt: int, updatedAt: int, postCount: int)

  /** A posts row; content and summary are byte strings. */
  datatype Post = Post(
    id: nat, title: string, content: Bytes, summary: Bytes, slug: string,
    status: string, isPublic: bool, viewCount: int, likeCount: int,
    commentCount: int, publishedAt: Option<int>, createdAt: int,
    updatedAt: int, userId: nat)

  /** A comments row; parentId is None for a top-level comment. */
  datatype Comment = Comment(
    id: nat, content: string, isApproved: bool, createdAt: int,
    updatedAt: int, userId: nat, postId: nat, parentId: Option<nat>)

  /** A comment with its author and replies preloaded. */
  datatype Thread = Thread(comment: Comment, user: User, replies: seq<Thread>)

  datatype UserResponse = UserResponse(
    id: nat, username: string, email: string, bio: string, avatar: string,
    role: string, createdAt: int)

  datatype PostResponse = PostResponse(
    id: nat, title: string, content: Bytes, summary: Bytes, slug: string,
    status: string, isPublic: bool, viewCount: int, likeCount: int,
    commentCount: int, publishedAt: Option<int>, createdAt: int,
    updatedAt: int, user: UserResponse)

  datatype CommentResponse = CommentResponse(
    id: nat, content: string, isApproved: bool, createdAt: int,
    updatedAt: int, user: UserResponse, postId: nat, parentId: Option<nat>,
    replies: seq<CommentResponse>)

  /** The errors the model distinguishes: a missing row, a failed password
      check, a unique-index violation, a foreign-key violation and a failure
      of the password hasher. */
  datatype DbError = RecordNotFound | InvalidData | DuplicateKey | ForeignKeyViolation | HashFailed

  /** The three live tables and each table's next auto-increment id.
      Deleted rows leave the maps; ids are never reused. A deleted post is
      only marked deleted in the database, so its slug stays in the unique
      index: deletedSlugs holds those slugs. */
  datatype Db = Db(
    users: map<nat, User>, posts: map<nat, Post>, comments: map<nat, Comment>,
    nextUserId: nat, nextPostId: nat, nextCommentId: nat, deletedSlugs: set<string>)

  /** A zero-valued User, what an empty association loads as. */
  const NoUser := User(0, "", "", "", "", "", "", false, None, 0, 0, 0)

  /** The zero-valued post and comment, which `Delete(&Post{}, id)` and
      `Delete(&Comment{}, id)` hand to their hooks, and which stand in for a
      missing association when preloading. */
  const NoPost := Post(0, "", [], [], "", "", false, 0, 0, 0, None, 0, 0, 0)
  const NoComment := Comment(0, "", false, 0, 0, 0, 0, None)

  /** The empty database: ids start at 1. */
  const EmptyDb := Db(map[], map[], map[], 1, 1, 1, {})

  /** Every row sits under its own id, ids are positive and below the next
      id, and every foreign key names an id that was allocated (rows are
      soft-deleted, so an allocated id always has a physical row). */
  ghost predicate Valid(db: Db)
  {
    && db.nextUserId >= 1 && db.nextPostId >= 1 && db.nextCommentId >= 1
    && (forall id | id in db.users :: 0 < id < db.nextUserId && db.users[id].id == id)
    && (forall id | id in db.posts :: 0 < id < db.nextPostId && db.posts[id].id == id
                                      && 0 < db.posts[id].userId < db.nextUserId)
    && (forall id | id in db.comments :: 0 < id < db.nextCommentId && db.comments[id].id == id
                                         && 0 < db.comments[id].userId < db.nextUserId
                                         && 0 < db.comments[id].postId < db.nextPostId)
  }

  /** Text equality as the database decides it, in WHERE clauses and
      unique indexes alike: the connection uses utf8mb4 with its default
      collation, which ignores letter case. The model folds ASCII letters. */
  predicate SameText(a: string, b: string)
  {
    Validators.ToLower(a) == Validators.ToLower(b)
  }

  /** The unique indexes on users.username and users.email, under the
      collation. */
  ghost predicate UniqueLogins(db: Db)
  {
    forall a, b | a in db.users && b in db.users && a != b ::
      !SameText(db.users[a].username, db.users[b].username) && !SameText(db.users[a].email, db.users[b].email)
  }

  /** The live posts written by user uid. */
  ghost function PostsBy(db: Db, uid: nat): set<nat>
  {
    set id | id in db.posts && db.posts[id].userId == uid
  }

  /** The live approved comments on post pid. */
  ghost function ApprovedOn(db: Db, pid: nat): set<nat>
  {
    set id | id in db.comments && db.comments[id].postId == pid && db.comments[id].isApproved
  }

  /** What the hooks are there to keep: each user's post_count is the
      number of their posts and each post's comment_count the number of
      its approved comments. */
  ghost predicate CountersAgree(db: Db)
  {
    && (forall uid | uid in db.users :: db.users[uid].postCount == |PostsBy(db, uid)|)
    && (forall pid | pid in db.posts :: db.posts[pid].commentCount == |ApprovedOn(db, pid)|)
  }

  lemma EmptyDbValid()
    ensures Valid(EmptyDb) && CountersAgree(EmptyDb) && UniqueLogins(EmptyDb)
  {
  }

  /** An update of user rows that keeps every key, id, username, email
      and post count keeps the store valid, the counters agreeing and the
      logins unique. */
  lemma UserEditPreserves(db: Db, users: map<nat, User>)
    requires Valid(db) && CountersAgree(db) && UniqueLogins(db) && users.Keys == db.users.Keys
    requires forall id | id in users ::
               && users[id].id == db.users[id].id && users[id].postCount == db.users[id].postCount
               && users[id].username == db.users[id].username && users[id].email == db.users[id].email
    ensures var db' := db.(users := users);
            Valid(db') && CountersAgree(db') && UniqueLogins(db')
  {
    var db' := db.(users := users);
    assert forall uid :: PostsBy(db', uid) == PostsBy(db, uid);
    assert forall pid :: ApprovedOn(db', pid) == ApprovedOn(db, pid);
  }

  // ---------------------------------------------------------------- users

  /** User.BeforeCreate: an empty role becomes "user". */
  function UserBeforeCreate(u: User): (r: User)
    ensures r.role != ""
    ensures u.role != "" ==> r == u
    ensures r == u.(role := r.role)
    ensures u.role == "" ==> r.role == RoleUser
  {
    if u.role == "" then u.(role := RoleUser) else u
  }

  /** Running the hook on a row it already prepared changes nothing, so a
      stored user has a role and saving it again keeps that role. */
  lemma UserBeforeCreateIdempotent(u: User)
    ensures UserBeforeCreate(UserBeforeCreate(u)) == UserBeforeCreate(u)
    ensures UserBeforeCreate(u).role == (if u.role == "" then RoleUser else u.role)
  {
  }

  /** User.ToResponse: the public fields. */
  function UserToResponse(u: User): (r: UserResponse)
    ensures r.id == u.id && r.username == u.username && r.email == u.email
    ensures r.bio == u.bio && r.avatar == u.avatar && r.role == u.role && r.createdAt == u.createdAt
  {
    UserResponse(u.id, u.username, u.email, u.bio, u.avatar, u.role, u.createdAt)
  }

  /** Rebuilds a user from its response and the fields the response omits. */
  function UserFromResponse(r: UserResponse, password: string, isActive: bool, lastLogin: Option<int>,
                            updatedAt: int, postCount: int): User
  {
    User(r.id, r.username, r.email, password, r.bio, r.avatar, r.role, isActive, lastLogin, r.createdAt,
         updatedAt, postCount)
  }

  /** The response loses exactly the password hash, the active flag, the
      last login, updated_at and post_count: with those it gives the user
      back, and it is the same whatever those are. */
  lemma UserResponseOmitsSecrets(u: User, password: string, isActive: bool, lastLogin: Option<int>)
    ensures UserFromResponse(UserToResponse(u), u.password, u.isActive, u.lastLogin, u.updatedAt, u.postCount) == u
    ensures UserToResponse(u.(password := password, isActive := isActive, lastLogin := lastLogin)) == UserToResponse(u)
  {
  }

  // ---------------------------------------------------------------- posts

  /** The summary BeforeCreate derives from content: the content itself
      when it has at most SummaryLimit bytes, else its first SummaryLimit
      bytes and an ellipsis. */
  function AutoSummary(content: Bytes): (s: Bytes)
    ensures |content| <= SummaryLimit ==> s == content
    ensures |content| > SummaryLimit ==> |s| == SummaryLimit + |Ellipsis|
    ensures |content| > SummaryLimit ==> s[..SummaryLimit] == content[..SummaryLimit] && s[SummaryLimit..] == Ellipsis
  {
    if |content| > SummaryLimit then content[..SummaryLimit] + Ellipsis else content
  }

  /** Post.BeforeCreate: an empty summary is filled from the content. */
  function PostBeforeCreate(p: Post): (r: Post)
    ensures r == p.(summary := r.summary)
    ensures p.summary != [] ==> r == p
    ensures p.summary == [] ==> r.summary == AutoSummary(p.content)
  {
    if p.summary == [] && |p.content| > SummaryLimit then p.(summary := p.content[..SummaryLimit] + Ellipsis)
    else if p.summary == [] then p.(summary := p.content)
    else p
  }

  /** A filled summary starts like the content, is at most SummaryLimit + 3
      bytes, is empty only for empty content, and filling again changes
      nothing. */
  lemma SummaryProperties(p: Post)
    ensures var r := PostBeforeCreate(p);
      && |r.summary| <= (if p.summary == [] then SummaryLimit + |Ellipsis| else |p.summary|)
      && (p.summary == [] ==> (r.summary == [] <==> p.content == []))
      && (p.summary == [] ==> r.summary[..Min(|p.content|, SummaryLimit)] == p.content[..Min(|p.content|, SummaryLimit)])
      && PostBeforeCreate(r) == r
  {
    var r := PostBeforeCreate(p);
    if p.summary == [] && |p.content| > SummaryLimit {
      assert r.summary[..SummaryLimit] == p.content[..SummaryLimit];
    }
  }

  function Min(a: int, b: int): int
  {
    if a <= b then a else b
  }

  /** Post.BeforeUpdate: a post whose status is "published" and that has
      no publish time gets now; an existing publish time is kept. */
  function PostBeforeUpdate(p: Post, now: int): (r: Post)
    ensures r == p.(publishedAt := r.publishedAt)
    ensures p.publishedAt.Some? ==> r == p
    ensures p.publishedAt.None? ==> (r.publishedAt.Some? <==> p.status == StatusPublished)
    ensures r.publishedAt.Some? ==> r.publishedAt == p.publishedAt || r.publishedAt == Some(now)
  {
    if p.status == StatusPublished && p.publishedAt.None? then p.(publishedAt := Some(now)) else p
  }

  /** The publish time is set once: a second BeforeUpdate, at any time,
      keeps the first one's result. */
  lemma PublishSetOnce(p: Post, t1: int, t2: int)
    ensures PostBeforeUpdate(PostBeforeUpdate(p, t1), t2) == PostBeforeUpdate(p, t1)
    ensures p.status == StatusPublished ==> PostBeforeUpdate(PostBeforeUpdate(p, t1), t2).publishedAt.Some?
  {
  }

  /** `UPDATE users SET post_count = post_count + delta, updated_at = now
      WHERE id = uid`. */
  function AddPostCount(db: Db, uid: nat, delta: int, now: int): (r: Db)
    ensures r == db.(users := r.users)
    ensures r.users.Keys == db.users.Keys
    ensures forall id | id in db.users && id != uid :: r.users[id] == db.users[id]
    ensures uid in db.users ==>
              r.users[uid] == db.users[uid].(postCount := db.users[uid].postCount + delta, updatedAt := now)
  {
    if uid in db.users then
      db.(users := db.users[uid := db.users[uid].(postCount := db.users[uid].postCount + delta, updatedAt := now)])
    else db
  }

  /** Post.AfterCreate: the author's post_count goes up by one and the
      author's updated_at becomes now. */
  function PostAfterCreate(db: Db, p: Post, now: int): (r: Db)
    ensures r == db.(users := r.users) && r.users.Keys == db.users.Keys
    ensures forall id | id in db.users ::
              && r.users[id].postCount == db.users[id].postCount + (if id == p.userId then 1 else 0)
              && r.users[id].updatedAt == (if id == p.userId then now else db.users[id].updatedAt)
              && r.users[id] == db.users[id].(postCount := r.users[id].postCount, updatedAt := r.users[id].updatedAt)
  {
    AddPostCount(db, p.userId, 1, now)
  }

  /** Post.AfterDelete: the user the hook's post names loses one from
      post_count and gets updated_at now. */
  function PostAfterDelete(db: Db, p: Post, now: int): (r: Db)
    ensures r == db.(users := r.users) && r.users.Keys == db.users.Keys
    ensures forall id | id in db.users ::
              && r.users[id].postCount == db.users[id].postCount - (if id == p.userId then 1 else 0)
              && r.users[id].updatedAt == (if id == p.userId then now else db.users[id].updatedAt)
              && r.users[id] == db.users[id].(postCount := r.users[id].postCount, updatedAt := r.users[id].updatedAt)
  {
    AddPostCount(db, p.userId, -1, now)
  }

  /** The two post hooks cancel on every column except the author's
      updated_at, which keeps the delete hook's time: the store comes back
      exactly when the author already had that time (or does not exist). */
  lemma PostHooksCancel(db: Db, p: Post, t1: int, t2: int)
    ensures var r := PostAfterDelete(PostAfterCreate(db, p, t1), p, t2);
            && r == db.(users := r.users) && r.users.Keys == db.users.Keys
            && (forall id | id in db.users :: r.users[id] == db.users[id].(updatedAt := r.users[id].updatedAt))
            && (forall id | id in db.users :: r.users[id].updatedAt == (if id == p.userId then t2 else db.users[id].updatedAt))
    ensures PostAfterDelete(PostAfterCreate(db, p, t1), p, t2) == db <==>
              (p.userId in db.users ==> db.users[p.userId].updatedAt == t2)
  {
    var r := PostAfterDelete(PostAfterCreate(db, p, t1), p, t2);
    if p.userId in db.users && db.users[p.userId].updatedAt == t2 {
      assert r.users[p.userId] == db.users[p.userId];
      assert r.users == db.users;
    } else if p.userId !in db.users {
      assert r.users == db.users;
    }
  }

  /** Post.ToResponse, with the preloaded author. */
  function PostToResponse(p: Post, author: User): (r: PostResponse)
    ensures r.user == UserToResponse(author)
  {
    PostResponse(p.id, p.title, p.content, p.summary, p.slug, p.status, p.isPublic, p.viewCount,
                 p.likeCount, p.commentCount, p.publishedAt, p.createdAt, p.updatedAt, UserToResponse(author))
  }

  function PostFromResponse(r: PostResponse, userId: nat): Post
  {
    Post(r.id, r.title, r.content, r.summary, r.slug, r.status, r.isPublic, r.viewCount, r.likeCount,
         r.commentCount, r.publishedAt, r.createdAt, r.updatedAt, userId)
  }

  /** The post response carries every column of the post except user_id. */
  lemma PostResponseKeepsColumns(p: Post, author: User)
    ensures PostFromResponse(PostToResponse(p, author), p.userId) == p
  {
  }

  // ------------------------------------------------------------- comments

  /** `UPDATE posts SET comment_count = comment_count + delta, updated_at =
      now WHERE id = pid`. */
  function AddCommentCount(db: Db, pid: nat, delta: int, now: int): (r: Db)
    ensures r == db.(posts := r.posts)
    ensures r.posts.Keys == db.posts.Keys
    ensures forall id | id in db.posts && id != pid :: r.posts[id] == db.posts[id]
    ensures pid in db.posts ==>
              r.posts[pid] == db.posts[pid].(commentCount := db.posts[pid].commentCount + delta, updatedAt := now)
  {
    if pid in db.posts then
      db.(posts := db.posts[pid := db.posts[pid].(commentCount := db.posts[pid].commentCount + delta, updatedAt := now)])
    else db
  }

  /** Comment.AfterCreate: an approved comment raises its post's
      comment_count by one and sets the post's updated_at to now; an
      unapproved one issues no update. */
  function CommentAfterCreate(db: Db, c: Comment, now: int): (r: Db)
    ensures r == db.(posts := r.posts) && r.posts.Keys == db.posts.Keys
    ensures forall id | id in db.posts ::
              var hit := c.isApproved && id == c.postId;
              && r.posts[id].commentCount == db.posts[id].commentCount + (if hit then 1 else 0)
              && r.posts[id].updatedAt == (if hit then now else db.posts[id].updatedAt)
              && r.posts[id] == db.posts[id].(commentCount := r.posts[id].commentCount, updatedAt := r.posts[id].updatedAt)
  {
    if c.isApproved then AddCommentCount(db, c.postId, 1, now) else db
  }

  /** Comment.AfterDelete: an approved comment lowers its post's
      comment_count by one and sets the post's updated_at to now. The count
      query and the empty zero-count branch that follow change nothing. */
  function CommentAfterDelete(db: Db, c: Comment, now: int): (r: Db)
    ensures r == db.(posts := r.posts) && r.posts.Keys == db.posts.Keys
    ensures forall id | id in db.posts ::
              var hit := c.isApproved && id == c.postId;
              && r.posts[id].commentCount == db.posts[id].commentCount - (if hit then 1 else 0)
              && r.posts[id].updatedAt == (if hit then now else db.posts[id].updatedAt)
              && r.posts[id] == db.posts[id].(commentCount := r.posts[id].commentCount, updatedAt := r.posts[id].updatedAt)
  {
    if c.isApproved then AddCommentCount(db, c.postId, -1, now) else db
  }

  /** The two comment hooks cancel on every column except the post's
      updated_at, which an approved comment leaves at the delete hook's
      time: the store comes back exactly when no stamp moved it. */
  lemma CommentHooksCancel(db: Db, c: Comment, t1: int, t2: int)
    ensures var r := CommentAfterDelete(CommentAfterCreate(db, c, t1), c, t2);
            && r == db.(posts := r.posts) && r.posts.Keys == db.posts.Keys
            && (forall id | id in db.posts :: r.posts[id] == db.posts[id].(updatedAt := r.posts[id].updatedAt))
            && (forall id | id in db.posts :: r.posts[id].updatedAt ==
                  (if c.isApproved && id == c.postId then t2 else db.posts[id].updatedAt))
    ensures CommentAfterDelete(CommentAfterCreate(db, c, t1), c, t2) == db <==>
              (c.isApproved && c.postId in db.posts ==> db.posts[c.postId].updatedAt == t2)
  {
    var r := CommentAfterDelete(CommentAfterCreate(db, c, t1), c, t2);
    if c.isApproved && c.postId in db.posts && db.posts[c.postId].updatedAt == t2 {
      assert r.posts[c.postId] == db.posts[c.postId];
      assert r.posts == db.posts;
    } else if !(c.isApproved && c.postId in db.posts) {
      assert r.posts == db.posts;
    }
  }

  /** Comment.ToResponse: the comment's fields, its author's response, and
      each reply converted the same way, in order. */
  function CommentToResponse(t: Thread): (r: CommentResponse)
    ensures r.id == t.comment.id && r.content == t.comment.content && r.isApproved == t.comment.isApproved
    ensures r.createdAt == t.comment.createdAt && r.updatedAt == t.comment.updatedAt
    ensures r.postId == t.comment.postId && r.parentId == t.comment.parentId
    ensures r.user == UserToResponse(t.user)
    ensures |r.replies| == |t.replies|
    decreases t
  {
    var c := t.comment;
    CommentResponse(c.id, c.content, c.isApproved, c.createdAt, c.updatedAt, UserToResponse(t.user), c.postId,
                    c.parentId, seq(|t.replies|, k requires 0 <= k < |t.replies| => CommentToResponse(t.replies[k])))
  }

  /** The ids of a reply tree, level by level. */
  datatype IdTree = IdTree(id: nat, children: seq<IdTree>)

  function ThreadIds(t: Thread): IdTree
    decreases t
  {
    IdTree(t.comment.id, seq(|t.replies|, k requires 0 <= k < |t.replies| => ThreadIds(t.replies[k])))
  }

  function ResponseIds(r: CommentResponse): IdTree
    decreases r
  {
    IdTree(r.id, seq(|r.replies|, k requires 0 <= k < |r.replies| => ResponseIds(r.replies[k])))
  }

  /** The response tree has the shape, order and ids of the reply tree. */
  lemma {:induction false} ToResponseKeepsShape(t: Thread)
    ensures ResponseIds(CommentToResponse(t)) == ThreadIds(t)
    decreases t
  {
    var r := CommentToResponse(t);
    forall k | 0 <= k < |t.replies|
      ensures ResponseIds(r.replies[k]) == ThreadIds(t.replies[k])
    {
      ToResponseKeepsShape(t.replies[k]);
    }
    assert ResponseIds(r).children == ThreadIds(t).children;
  }

  // ------------------------------------------------- counting the tables

  /** A fresh post joins its author's posts and nobody else's. */
  lemma PostsByInsert(db: Db, p: Post, uid: nat)
    requires p.id !in db.posts
    ensures PostsBy(db.(posts := db.posts[p.id := p]), uid) == PostsBy(db, uid) + (if p.userId == uid then {p.id} else {})
    ensures |PostsBy(db.(posts := db.posts[p.id := p]), uid)| == |PostsBy(db, uid)| + (if p.userId == uid then 1 else 0)
  {
    var db' := db.(posts := db.posts[p.id := p]);
    assert PostsBy(db', uid) == PostsBy(db, uid) + (if p.userId == uid then {p.id} else {});
  }

  /** A removed post leaves its author's posts. */
  lemma PostsByRemove(db: Db, id: nat, uid: nat)
    requires id in db.posts
    ensures PostsBy(db.(posts := db.posts - {id}), uid) == PostsBy(db, uid) - {id}
    ensures |PostsBy(db.(posts := db.posts - {id}), uid)| == |PostsBy(db, uid)| - (if db.posts[id].userId == uid then 1 else 0)
  {
    var db' := db.(posts := db.posts - {id});
    assert PostsBy(db', uid) == PostsBy(db, uid) - {id};
  }

  /** Rewriting a post without changing its author changes nobody's posts. */
  lemma PostsByReplace(db: Db, p: Post, uid: nat)
    requires p.id in db.posts && db.posts[p.id].userId == p.userId
    ensures PostsBy(db.(posts := db.posts[p.id := p]), uid) == PostsBy(db, uid)
  {
  }

  /** A fresh comment joins the approved comments of its post when approved. */
  lemma ApprovedOnInsert(db: Db, c: Comment, pid: nat)
    requires c.id !in db.comments
    ensures |ApprovedOn(db.(comments := db.comments[c.id := c]), pid)| ==
            |ApprovedOn(db, pid)| + (if c.isApproved && c.postId == pid then 1 else 0)
  {
    var db' := db.(comments := db.comments[c.id := c]);
    if c.isApproved && c.postId == pid {
      assert ApprovedOn(db', pid) == ApprovedOn(db, pid) + {c.id};
      assert c.id !in ApprovedOn(db, pid);
    } else {
      assert ApprovedOn(db', pid) == ApprovedOn(db, pid);
    }
  }

  /** A removed comment leaves the approved comments of its post. */
  lemma ApprovedOnRemove(db: Db, id: nat, pid: nat)
    requires id in db.comments
    ensures |ApprovedOn(db.(comments := db.comments - {id}), pid)| ==
            |ApprovedOn(db, pid)| - (if db.comments[id].isApproved && db.comments[id].postId == pid then 1 else 0)
  {
    var db' := db.(comments := db.comments - {id});
    assert ApprovedOn(db', pid) == ApprovedOn(db, pid) - {id};
  }

  /** Rewriting a comment counts it in or out of its post's approved
      comments as its approval changes. */
  lemma ApprovedOnReplace(db: Db, c: Comment, pid: nat)
    requires c.id in db.comments && db.comments[c.id].postId == c.postId
    ensures |ApprovedOn(db.(comments := db.comments[c.id := c]), pid)| ==
            |ApprovedOn(db, pid)| + (if c.postId != pid || c.isApproved == db.comments[c.id].isApproved then 0
                                     else if c.isApproved then 1 else -1)
  {
    var db' := db.(comments := db.comments[c.id := c]);
    var before := db.comments[c.id];
    if c.postId == pid && c.isApproved && !before.isApproved {
      assert ApprovedOn(db', pid) == ApprovedOn(db, pid) + {c.id};
    } else if c.postId == pid && !c.isApproved && before.isApproved {
      assert ApprovedOn(db', pid) == ApprovedOn(db, pid) - {c.id};
    } else {
      assert ApprovedOn(db', pid) == ApprovedOn(db, pid);
    }
  }
}

=== FILE: brackets.dfy ===
/** Bracket matching: the reference notion of a balanced string (pair
    cancellation) and the two stack disciplines the week1-DreamStart
    implementations use, each proved to decide balance. The stack is a
    sequence whose last element is the top. */
module Brackets {

  predicate IsOpener(c: char)
  {
    c == '(' || c == '{' || c == '['
  }

  predicate IsCloser(c: char)
  {
    c == ')' || c == '}' || c == ']'
  }

  /** The opener a closer matches; any other character maps to the rune 0,
      as a lookup of a missing key in a Go map does. */
  function MatchingOpener(c: char): (o: char)
    ensures IsCloser(c) ==> IsOpener(o)
    ensures !IsCloser(c) ==> o == 0 as char
  {
    if c == ')' then '(' else if c == '}' then '{' else if c == ']' then '[' else 0 as char
  }

  /** An opener immediately followed by its own closer. */
  predicate IsPair(o: char, c: char)
  {
    IsCloser(c) && o == MatchingOpener(c)
  }

  /** Balanced brackets by cancellation: the empty string, or a string with
      an adjacent matching pair whose removal leaves a balanced string. */
  ghost predicate Balanced(s: string)
    decreases |s|
  {
    |s| == 0 ||
    exists i | 0 <= i < |s| - 1 :: IsPair(s[i], s[i + 1]) && Balanced(s[..i] + s[i + 2..])
  }

  /** A balanced string contains only brackets: cancellation never removes
      any other character. */
  lemma {:induction false} BalancedOnlyBrackets(s: string)
    requires Balanced(s)
    ensures forall k | 0 <= k < |s| :: IsOpener(s[k]) || IsCloser(s[k])
    decreases |s|
  {
    if |s| > 0 {
      var i :| 0 <= i < |s| - 1 && IsPair(s[i], s[i + 1]) && Balanced(s[..i] + s[i + 2..]);
      var t := s[..i] + s[i + 2..];
      BalancedOnlyBrackets(t);
      forall k | 0 <= k < |s|
        ensures IsOpener(s[k]) || IsCloser(s[k])
      {
        if k < i {
          assert s[k] == t[k];
        } else if k > i + 1 {
          assert s[k] == t[k - 2];
        }
      }
    }
  }

  // ------------------------------------------- main.go: push every non-closer

  /** The verdict of main.go's isValid loop on the rest s of the input with
      stack st: a closer must find its opener on top, anything else is
      pushed, and the input is valid when the stack ends empty. */
  function PushOthers(s: string, st: seq<char>): bool
    decreases |s|
  {
    if |s| == 0 then |st| == 0
    else if IsCloser(s[0]) then
      |st| > 0 && st[|st| - 1] == MatchingOpener(s[0]) && PushOthers(s[1..], st[..|st| - 1])
    else PushOthers(s[1..], st + [s[0]])
  }

  /** Removing a matching pair anywhere does not change the verdict. */
  lemma {:induction false} PushOthersPairRemoval(u: string, o: char, c: char, v: string, st: seq<char>)
    requires IsPair(o, c)
    ensures PushOthers(u + [o, c] + v, st) == PushOthers(u + v, st)
    decreases |u|
  {
    var w := u + [o, c] + v;
    if |u| == 0 {
      assert w == [o, c] + v;
      assert w[1..] == [c] + v;
      assert w[1..][1..] == v;
      assert u + v == v;
      assert (st + [o])[..|st|] == st;
    } else {
      assert w[0] == u[0] && (u + v)[0] == u[0];
      assert w[1..] == u[1..] + [o, c] + v;
      assert (u + v)[1..] == u[1..] + v;
      if IsCloser(u[0]) {
        if |st| > 0 {
          PushOthersPairRemoval(u[1..], o, c, v, st[..|st| - 1]);
        }
      } else {
        PushOthersPairRemoval(u[1..], o, c, v, st + [u[0]]);
      }
    }
  }

  lemma {:induction false} BalancedPushOthers(s: string, st: seq<char>)
    requires Balanced(s)
    ensures PushOthers(s, st) == (|st| == 0)
    decreases |s|
  {
    if |s| > 0 {
      var i :| 0 <= i < |s| - 1 && IsPair(s[i], s[i + 1]) && Balanced(s[..i] + s[i + 2..]);
      assert s == s[..i] + [s[i], s[i + 1]] + s[i + 2..];
      PushOthersPairRemoval(s[..i], s[i], s[i + 1], s[i + 2..], st);
      BalancedPushOthers(s[..i] + s[i + 2..], st);
    }
  }

  /** Whatever accepts from stack st was balanced once st is put in front. */
  lemma {:induction false} PushOthersSound(s: string, st: seq<char>)
    requires PushOthers(s, st)
    ensures Balanced(st + s)
    decreases |s|
  {
    if |s| == 0 {
      assert st + s == [];
    } else if IsCloser(s[0]) {
      var st' := st[..|st| - 1];
      var o := st[|st| - 1];
      PushOthersSound(s[1..], st');
      var w := st + s;
      var i := |st'|;
      assert w[i] == o && w[i + 1] == s[0];
      assert w[..i] + w[i + 2..] == st' + s[1..];
    } else {
      PushOthersSound(s[1..], st + [s[0]]);
      assert (st + [s[0]]) + s[1..] == st + s;
    }
  }

  /** main.go's discipline decides balance. */
  lemma PushOthersDecides(s: string)
    ensures PushOthers(s, []) <==> Balanced(s)
  {
    if PushOthers(s, []) {
      PushOthersSound(s, []);
      assert [] + s == s;
    }
    if Balanced(s) {
      BalancedPushOthers(s, []);
    }
  }

  // ------------------------------------- week1.go: every non-opener closes

  /** The verdict of week1.go's isValid loop: an opener is pushed, anything
      else must find the opener its map entry names on top (the rune 0 for a
      non-bracket, which no opener equals). */
  function OthersClose(s: string, st: seq<char>): bool
    decreases |s|
  {
    if |s| == 0 then |st| == 0
    else if IsOpener(s[0]) then OthersClose(s[1..], st + [s[0]])
    else |st| > 0 && st[|st| - 1] == MatchingOpener(s[0]) && OthersClose(s[1..], st[..|st| - 1])
  }

  ghost predicate AllOpeners(st: seq<char>)
  {
    forall k | 0 <= k < |st| :: IsOpener(st[k])
  }

  /** A stack entry that is not an opener is never popped by main.go's
      discipline, so the verdict is false. */
  lemma {:induction false} StuckEntryRejects(s: string, st: seq<char>, k: int)
    requires 0 <= k < |st| && !IsOpener(st[k])
    ensures !PushOthers(s, st)
    decreases |s|
  {
    if |s| > 0 {
      if IsCloser(s[0]) {
        if |st| > 0 && st[|st| - 1] == MatchingOpener(s[0]) {
          assert k < |st| - 1;
          StuckEntryRejects(s[1..], st[..|st| - 1], k);
        }
      } else {
        StuckEntryRejects(s[1..], st + [s[0]], k);
      }
    }
  }

  /** On stacks of openers the two disciplines give the same verdict. */
  lemma {:induction false} OthersCloseAgrees(s: string, st: seq<char>)
    requires AllOpeners(st)
    ensures OthersClose(s, st) == PushOthers(s, st)
    decreases |s|
  {
    if |s| > 0 {
      var c := s[0];
      if IsOpener(c) {
        OthersCloseAgrees(s[1..], st + [c]);
      } else if IsCloser(c) {
        if |st| > 0 {
          OthersCloseAgrees(s[1..], st[..|st| - 1]);
        }
      } else {
        StuckEntryRejects(s[1..], st + [c], |st|);
        assert !OthersClose(s, st) by {
          if |st| > 0 {
            assert IsOpener(st[|st| - 1]);
          }
        }
      }
    }
  }

  /** week1.go's discipline decides balance. */
  lemma OthersCloseDecides(s: string)
    ensures OthersClose(s, []) <==> Balanced(s)
  {
    OthersCloseAgrees(s, []);
    PushOthersDecides(s);
  }
}

=== FILE: comment_service.dfy ===
/** The comment service of Task4-Blog/services/comment_service.go over the
    abstract database: creation with its hook, the top-level listing,
    ownership, moderation and deletion. */
module CommentService {
  import opened Wrappers
  import opened BlogModels
  import Seqs

  /** CreateComment: the post must exist; the comment is stored approved,
      so its post's comment_count goes up by one and the post's updated_at
      becomes now. A user or parent id that was never allocated violates a
      foreign key. */
  function CreateComment(db: Db, userId: nat, postId: nat, content: string, parentId: Option<nat>, now: int)
    : (r: Result<(Db, Comment), DbError>)
    ensures postId !in db.posts ==> r == Failure(RecordNotFound)
    ensures r.Success? <==> postId in db.posts && 0 < userId < db.nextUserId
                            && (parentId.Some? ==> 0 < parentId.value < db.nextCommentId)
    ensures r.Success? ==>
      var (db', c) := r.value;
      && c.id == db.nextCommentId && c.isApproved && c.userId == userId && c.postId == postId
      && c.parentId == parentId && c.content == content
      && db' == db.(comments := db.comments[c.id := c], nextCommentId := db.nextCommentId + 1, posts := db'.posts)
      && db'.posts.Keys == db.posts.Keys
      && db'.posts[postId] == db.posts[postId].(commentCount := db.posts[postId].commentCount + 1, updatedAt := now)
      && (forall id | id in db.posts && id != postId :: db'.posts[id] == db.posts[id])
  {
    if postId !in db.posts then Failure(RecordNotFound)
    else if !(0 < userId < db.nextUserId) then Failure(ForeignKeyViolation)
    else if parentId.Some? && !(0 < parentId.value < db.nextCommentId) then Failure(ForeignKeyViolation)
    else
      var c := Comment(db.nextCommentId, content, true, now, now, userId, postId, parentId);
      var inserted := db.(comments := db.comments[c.id := c], nextCommentId := db.nextCommentId + 1);
      Success((CommentAfterCreate(inserted, c, now), c))
  }

  lemma CreateCommentPreserves(db: Db, userId: nat, postId: nat, content: string, parentId: Option<nat>, now: int)
    requires Valid(db) && CountersAgree(db)
    ensures var r := CreateComment(db, userId, postId, content, parentId, now);
            r.Success? ==> Valid(r.value.0) && CountersAgree(r.value.0)
  {
    var r := CreateComment(db, userId, postId, content, parentId, now);
    if r.Success? {
      var (db', c) := r.value;
      var inserted := db.(comments := db.comments[c.id := c]);
      assert c.id !in db.comments;
      forall uid | uid in db'.users
        ensures db'.users[uid].postCount == |PostsBy(db', uid)|
      {
        assert PostsBy(db', uid) == PostsBy(db, uid);
      }
      forall pid | pid in db'.posts
        ensures db'.posts[pid].commentCount == |ApprovedOn(db', pid)|
      {
        ApprovedOnInsert(db, c, pid);
        assert ApprovedOn(db', pid) == ApprovedOn(inserted, pid);
      }
    }
  }

  function PostOf(db: Db, id: nat): Post
  {
    if id in db.posts then db.posts[id] else NoPost
  }

  /** GetCommentByID: the live comment with its author and post preloaded,
      or RecordNotFound. */
  function GetCommentById(db: Db, commentId: nat): (r: Result<(Comment, User, Post), DbError>)
    ensures r.Success? <==> commentId in db.comments
    ensures r.Failure? ==> r.error == RecordNotFound
    ensures r.Success? ==> r.value.0 in db.comments.Values && (Valid(db) ==> r.value.0.id == commentId)
    ensures r.Success? ==> r.value.1 == UserOf(db, r.value.0.userId) && r.value.2 == PostOf(db, r.value.0.postId)
  {
    if commentId !in db.comments then Failure(RecordNotFound)
    else
      var c := db.comments[commentId];
      Success((c, UserOf(db, c.userId), PostOf(db, c.postId)))
  }

  /** A created comment reads back as written, with the author and post
      the request named. */
  lemma CreateThenGetComment(db: Db, userId: nat, postId: nat, content: string, parentId: Option<nat>, now: int)
    ensures var r := CreateComment(db, userId, postId, content, parentId, now);
            r.Success? ==>
              var g := GetCommentById(r.value.0, r.value.1.id);
              && g.Success? && g.value.0 == r.value.1 && g.value.0.content == content
              && g.value.2.id == db.posts[postId].id
              && (userId in db.users ==> g.value.1 == db.users[userId])
  {
  }

  /** The rows GetPostComments selects. */
  predicate TopLevelApproved(c: Comment, postId: nat)
  {
    c.postId == postId && c.parentId.None? && c.isApproved
  }

  function UserOf(db: Db, id: nat): User
  {
    if id in db.users then db.users[id] else NoUser
  }

  /** A comment with its author and its direct replies preloaded; the
      replies' own replies are not loaded. The replies are every live
      comment naming it as parent, approved or not. */
  function Load(db: Db, c: Comment): (t: Thread)
    ensures t.comment == c && t.user == UserOf(db, c.userId)
    ensures forall k | 0 <= k < |t.replies| ::
              t.replies[k].comment in db.comments.Values && t.replies[k].comment.parentId == Some(c.id)
              && t.replies[k].replies == []
    ensures forall id | id in db.comments && id < db.nextCommentId && db.comments[id].parentId == Some(c.id) ::
              Thread(db.comments[id], UserOf(db, db.comments[id].userId), []) in t.replies
  {
    var rows := Seqs.RowsWhere(db.comments, db.nextCommentId, (r: Comment) => r.parentId == Some(c.id));
    Thread(c, UserOf(db, c.userId), Threads(db, rows))
  }

  ghost function TopLevelIds(db: Db, postId: nat): set<nat>
  {
    set id | id in db.comments && TopLevelApproved(db.comments[id], postId)
  }

  lemma TopLevelBelowNext(db: Db, postId: nat)
    ensures Valid(db) ==>
      Seqs.KeysBelow(db.comments, db.nextCommentId, (c: Comment) => TopLevelApproved(c, postId)) == TopLevelIds(db, postId)
  {
  }

  /** The approved top-level comments of a post, in id order, and the
      number of them. */
  function TopLevelRows(db: Db, postId: nat): (rows: seq<Comment>)
    ensures forall k | 0 <= k < |rows| :: rows[k] in db.comments.Values && TopLevelApproved(rows[k], postId)
    ensures Valid(db) ==> |rows| == |TopLevelIds(db, postId)|
  {
    TopLevelBelowNext(db, postId);
    Seqs.RowsWhere(db.comments, db.nextCommentId, (c: Comment) => TopLevelApproved(c, postId))
  }

  /** The rows GetPostComments shows: the page at offset
      (page - 1) * pageSize of at most pageSize approved top-level comments
      of the post, newest first. */
  function CommentPage(db: Db, postId: nat, page: int, pageSize: int): (rows: seq<Comment>)
    ensures pageSize >= 0 ==> |rows| <= pageSize
    ensures forall k | 0 <= k < |rows| :: rows[k] in db.comments.Values && TopLevelApproved(rows[k], postId)
    ensures forall i, j | 0 <= i < j < |rows| :: rows[i].createdAt >= rows[j].createdAt
  {
    Seqs.NewestPage(TopLevelRows(db, postId), (c: Comment) => c.createdAt, page, pageSize)
  }

  /** GetPostComments: the page's comments, each with its author and
      replies, in page order, and the number of approved top-level
      comments of the post. */
  function GetPostComments(db: Db, postId: nat, page: int, pageSize: int): (r: (seq<CommentResponse>, nat))
    ensures var rows := CommentPage(db, postId, page, pageSize);
      |r.0| == |rows| && forall k | 0 <= k < |rows| :: r.0[k] == CommentToResponse(Load(db, rows[k]))
    ensures pageSize >= 0 ==> |r.0| <= pageSize
    ensures forall i, j | 0 <= i < j < |r.0| :: r.0[i].createdAt >= r.0[j].createdAt
    ensures Valid(db) ==> r.1 == |TopLevelIds(db, postId)|
  {
    (Responses(db, CommentPage(db, postId, page, pageSize)), |TopLevelRows(db, postId)|)
  }

  function Responses(db: Db, rows: seq<Comment>): (r: seq<CommentResponse>)
    ensures |r| == |rows|
    ensures forall k | 0 <= k < |r| :: r[k] == CommentToResponse(Load(db, rows[k]))
  {
    seq(|rows|, k requires 0 <= k < |rows| => CommentToResponse(Load(db, rows[k])))
  }

  /** GetCommentReplies: the approved replies of a comment, oldest first,
      each with its author; an unknown comment has none. */
  function GetCommentReplies(db: Db, commentId: nat): (r: seq<Thread>)
    ensures forall k | 0 <= k < |r| :: r[k].comment in db.comments.Values && r[k].comment.isApproved
              && r[k].comment.parentId == Some(commentId) && r[k].user == UserOf(db, r[k].comment.userId)
              && r[k].replies == []
    ensures forall id | id in db.comments && id < db.nextCommentId
              && db.comments[id].isApproved && db.comments[id].parentId == Some(commentId) ::
              Thread(db.comments[id], UserOf(db, db.comments[id].userId), []) in r
    ensures forall i, j | 0 <= i < j < |r| :: r[i].comment.createdAt <= r[j].comment.createdAt
  {
    var replies := ApprovedReplies(db, commentId);
    var rows := Seqs.OldestFirst(replies, (c: Comment) => c.createdAt);
    Threads(db, rows)
  }

  /** The approved replies of a comment, in id order. */
  function ApprovedReplies(db: Db, commentId: nat): (rows: seq<Comment>)
    ensures forall k | 0 <= k < |rows| :: rows[k] in db.comments.Values && rows[k].isApproved
              && rows[k].parentId == Some(commentId)
    ensures forall id | id in db.comments && id < db.nextCommentId
              && db.comments[id].isApproved && db.comments[id].parentId == Some(commentId) ::
              db.comments[id] in rows
  {
    Seqs.RowsWhere(db.comments, db.nextCommentId, (c: Comment) => c.isApproved && c.parentId == Some(commentId))
  }

  function Threads(db: Db, rows: seq<Comment>): (r: seq<Thread>)
    ensures |r| == |rows|
    ensures forall k | 0 <= k < |r| :: r[k] == Thread(rows[k], UserOf(db, rows[k].userId), [])
    ensures forall c | c in rows :: Thread(c, UserOf(db, c.userId), []) in r
  {
    seq(|rows|, k requires 0 <= k < |rows| => Thread(rows[k], UserOf(db, rows[k].userId), []))
  }

  /** IsCommentOwner: false for a missing comment, else whether userId
      wrote it. It agrees with the comment GetCommentById loads, and on a
      valid store the id 0 of an absent user owns nothing. */
  function IsCommentOwner(db: Db, commentId: nat, userId: nat): (r: bool)
    ensures r <==> GetCommentById(db, commentId).Success? && GetCommentById(db, commentId).value.0.userId == userId
    ensures Valid(db) && r ==> userId != 0
  {
    commentId in db.comments && db.comments[commentId].userId == userId
  }

  /** The creator owns a new comment. */
  lemma CommentOwnerIsCreator(db: Db, userId: nat, postId: nat, content: string, parentId: Option<nat>, now: int)
    ensures var r := CreateComment(db, userId, postId, content, parentId, now);
            r.Success? ==> IsCommentOwner(r.value.0, r.value.1.id, userId)
  {
  }

  /** ToggleCommentApproval as written: `Save` writes the flipped flag and
      nothing adjusts the post's comment_count. */
  function ToggleCommentApprovalAsWritten(db: Db, commentId: nat, now: int): (r: Result<(Db, Comment), DbError>)
    ensures r.Success? ==> r.value.0.posts == db.posts
  {
    if commentId !in db.comments then Failure(RecordNotFound)
    else
      var before := db.comments[commentId];
      var c := before.(isApproved := !before.isApproved, updatedAt := now);
      Success((db.(comments := db.comments[commentId := c]), c))
  }

  /** Withdrawing approval as written leaves the post counting a comment
      that is no longer approved. */
  lemma ToggleKeepsStaleCount()
    ensures var c := Comment(1, "c", true, 0, 0, 1, 1, None);
            var p := Post(1, "t", [], [], "s", StatusDraft, true, 0, 0, 1, None, 0, 0, 1);
            var db := Db(map[1 := NoUser.(id := 1, postCount := 1)], map[1 := p], map[1 := c], 2, 2, 2, {});
            var r := ToggleCommentApprovalAsWritten(db, 1, 5);
            && Valid(db) && CountersAgree(db)
            && r.Success? && !r.value.1.isApproved && r.value.0.posts[1].commentCount == 1
            && !CountersAgree(r.value.0)
  {
    var c := Comment(1, "c", true, 0, 0, 1, 1, None);
    var p := Post(1, "t", [], [], "s", StatusDraft, true, 0, 0, 1, None, 0, 0, 1);
    var db := Db(map[1 := NoUser.(id := 1, postCount := 1)], map[1 := p], map[1 := c], 2, 2, 2, {});
    assert PostsBy(db, 1) == {1};
    assert ApprovedOn(db, 1) == {1};
    var r := ToggleCommentApprovalAsWritten(db, 1, 5);
    assert ApprovedOn(r.value.0, 1) == {};
  }

  /** ToggleCommentApproval: flips the approval of an existing comment and
      moves its post's comment_count with it, through the same `Update` the
      hooks issue, so the post's updated_at becomes now. No other column of
      any row changes. A missing comment is an error. */
  function ToggleCommentApproval(db: Db, commentId: nat, now: int): (r: Result<(Db, Comment), DbError>)
    ensures commentId !in db.comments <==> r == Failure(RecordNotFound)
    ensures r.Success? ==>
      var (db', c) := r.value;
      var before := db.comments[commentId];
      && c == before.(isApproved := !before.isApproved, updatedAt := now)
      && db' == db.(comments := db.comments[commentId := c], posts := db'.posts)
      && db'.posts.Keys == db.posts.Keys
      && (forall id | id in db.posts ::
            && db'.posts[id].commentCount ==
                 db.posts[id].commentCount + (if id != c.postId then 0 else if c.isApproved then 1 else -1)
            && db'.posts[id].updatedAt == (if id == c.postId then now else db.posts[id].updatedAt)
            && db'.posts[id] == db.posts[id].(commentCount := db'.posts[id].commentCount,
                                              updatedAt := db'.posts[id].updatedAt))
  {
    if commentId !in db.comments then Failure(RecordNotFound)
    else
      var before := db.comments[commentId];
      var c := before.(isApproved := !before.isApproved, updatedAt := now);
      var saved := db.(comments := db.comments[commentId := c]);
      Success((AddCommentCount(saved, c.postId, if c.isApproved then 1 else -1, now), c))
  }

  /** Toggling twice restores the comment and every post on every column
      except updated_at, which the second toggle sets on the comment and on
      its post. */
  lemma ToggleTwice(db: Db, commentId: nat, t1: int, t2: int)
    ensures var r := ToggleCommentApproval(db, commentId, t1);
            r.Success? ==>
              var r2 := ToggleCommentApproval(r.value.0, commentId, t2);
              var before := db.comments[commentId];
              && r2.Success? && r2.value.1 == before.(updatedAt := t2)
              && r2.value.0 == db.(comments := db.comments[commentId := r2.value.1], posts := r2.value.0.posts)
              && r2.value.0.posts.Keys == db.posts.Keys
              && (forall id | id in db.posts ::
                    r2.value.0.posts[id] == db.posts[id].(updatedAt := if id == before.postId then t2 else db.posts[id].updatedAt))
  {
    var r := ToggleCommentApproval(db, commentId, t1);
    if r.Success? {
      var r2 := ToggleCommentApproval(r.value.0, commentId, t2);
      assert r2.value.0.comments == db.comments[commentId := r2.value.1];
    }
  }

  lemma ToggleCommentApprovalPreserves(db: Db, commentId: nat, now: int)
    requires Valid(db) && CountersAgree(db)
    ensures var r := ToggleCommentApproval(db, commentId, now);
            r.Success? ==> Valid(r.value.0) && CountersAgree(r.value.0)
  {
    var r := ToggleCommentApproval(db, commentId, now);
    if r.Success? {
      var (db', c) := r.value;
      forall uid | uid in db'.users
        ensures db'.users[uid].postCount == |PostsBy(db', uid)|
      {
        assert PostsBy(db', uid) == PostsBy(db, uid);
      }
      forall pid | pid in db'.posts
        ensures db'.posts[pid].commentCount == |ApprovedOn(db', pid)|
      {
        ApprovedOnReplace(db, c, pid);
        assert ApprovedOn(db', pid) == ApprovedOn(db.(comments := db.comments[c.id := c]), pid);
      }
    }
  }

  /** DeleteComment as written: `Delete(&Comment{}, id)` removes the row,
      but AfterDelete receives the zero-valued comment, which is not
      approved, so no comment_count changes. */
  function DeleteCommentAsWritten(db: Db, commentId: nat, now: int): (r: Db)
    ensures r.comments == db.comments - {commentId}
    ensures r.posts == db.posts && r.users == db.users
  {
    CommentAfterDelete(db.(comments := db.comments - {commentId}), NoComment, now)
  }

  /** Deleting the only approved comment as written leaves its post's
      comment_count at 1. */
  lemma DeleteCommentKeepsStaleCount()
    ensures var c := Comment(1, "c", true, 0, 0, 1, 1, None);
            var p := Post(1, "t", [], [], "s", StatusDraft, true, 0, 0, 1, None, 0, 0, 1);
            var db := Db(map[1 := NoUser.(id := 1, postCount := 1)], map[1 := p], map[1 := c], 2, 2, 2, {});
            && Valid(db) && CountersAgree(db)
            && DeleteCommentAsWritten(db, 1, 5).posts[1].commentCount == 1
            && !CountersAgree(DeleteCommentAsWritten(db, 1, 5))
  {
    var c := Comment(1, "c", true, 0, 0, 1, 1, None);
    var p := Post(1, "t", [], [], "s", StatusDraft, true, 0, 0, 1, None, 0, 0, 1);
    var db := Db(map[1 := NoUser.(id := 1, postCount := 1)], map[1 := p], map[1 := c], 2, 2, 2, {});
    assert PostsBy(db, 1) == {1};
    assert ApprovedOn(db, 1) == {1};
    assert ApprovedOn(DeleteCommentAsWritten(db, 1, 5), 1) == {};
  }

  /** DeleteComment: removes the comment and, when it was approved, lowers
      its post's comment_count and sets the post's updated_at to now. No
      other column of any row changes, and a missing id changes nothing. */
  function DeleteComment(db: Db, commentId: nat, now: int): (r: Db)
    ensures r == db.(comments := db.comments - {commentId}, posts := r.posts) && r.posts.Keys == db.posts.Keys
    ensures commentId in db.comments ==>
              var c := db.comments[commentId];
              forall id | id in db.posts ::
                var hit := c.isApproved && id == c.postId;
                && r.posts[id].commentCount == db.posts[id].commentCount - (if hit then 1 else 0)
                && r.posts[id].updatedAt == (if hit then now else db.posts[id].updatedAt)
                && r.posts[id] == db.posts[id].(commentCount := r.posts[id].commentCount, updatedAt := r.posts[id].updatedAt)
    ensures commentId !in db.comments ==> r == db
  {
    if commentId in db.comments then
      CommentAfterDelete(db.(comments := db.comments - {commentId}), db.comments[commentId], now)
    else db
  }

  lemma DeleteCommentPreserves(db: Db, commentId: nat, now: int)
    requires Valid(db) && CountersAgree(db)
    ensures Valid(DeleteComment(db, commentId, now)) && CountersAgree(DeleteComment(db, commentId, now))
  {
    var db' := DeleteComment(db, commentId, now);
    if commentId in db.comments {
      forall uid | uid in db'.users
        ensures db'.users[uid].postCount == |PostsBy(db', uid)|
      {
        assert PostsBy(db', uid) == PostsBy(db, uid);
      }
      forall pid | pid in db'.posts
        ensures db'.posts[pid].commentCount == |ApprovedOn(db', pid)|
      {
        ApprovedOnRemove(db, commentId, pid);
        assert ApprovedOn(db', pid) == ApprovedOn(db.(comments := db.comments - {commentId}), pid);
      }
    }
  }
}

=== FILE: cors.dfy ===
/** The cross-origin middleware of Task4-Blog/middleware/cors_middleware.go:
    the response headers it sets and the preflight short-circuit. */
module Cors {

  datatype Request = Request(verb: string, origin: string)

  /** The headers written, and whether the chain stops here with 204 (a
      preflight) or goes on to the next handler. */
  datatype Response = Response(headers: map<string, string>, aborted: bool, status: int)

  const AllowOrigin := "Access-Control-Allow-Origin"
  const AllowMethods := "Access-Control-Allow-Methods"
  const AllowHeaders := "Access-Control-Allow-Headers"
  const AllowCredentials := "Access-Control-Allow-Credentials"
  const MaxAge := "Access-Control-Max-Age"
  const ExposeHeaders := "Access-Control-Expose-Headers"

  const NoContent := 204
  /** The status of a request that was passed on, left to the handler. */
  const Continue := 200

  /** The headers both middlewares set on every request. */
  const FixedHeaders: map<string, string> := map[
    AllowMethods := "GET, POST, PUT, PATCH, DELETE, OPTIONS",
    AllowHeaders := "Origin, Content-Type, Content-Length, Accept-Encoding, X-CSRF-Token, Authorization, Accept, Cache-Control, X-Requested-With",
    AllowCredentials := "true",
    MaxAge := "86400",
    ExposeHeaders := "Content-Length, Content-Type, Authorization"]

  /** A preflight stops with 204; anything else continues. */
  function Finish(headers: map<string, string>, verb: string): (r: Response)
    ensures r.headers == headers
    ensures r.aborted <==> verb == "OPTIONS"
    ensures r.aborted ==> r.status == NoContent
  {
    if verb == "OPTIONS" then Response(headers, true, NoContent) else Response(headers, false, Continue)
  }

  /** CORS: echoes a non-empty Origin, else allows every origin, and sets
      the fixed headers on every request. */
  function CORS(req: Request): (r: Response)
    ensures r.headers.Keys == FixedHeaders.Keys + {AllowOrigin}
    ensures r.headers[AllowOrigin] == (if req.origin != "" then req.origin else "*")
    ensures forall h | h in FixedHeaders :: r.headers[h] == FixedHeaders[h]
    ensures r.aborted <==> req.verb == "OPTIONS"
    ensures r.aborted ==> r.status == NoContent
  {
    Finish(FixedHeaders[AllowOrigin := if req.origin != "" then req.origin else "*"], req.verb)
  }

  /** Whether an allow-list admits an origin: it lists "*" or that exact
      origin. */
  predicate OriginAllowed(allowed: seq<string>, origin: string)
  {
    exists k | 0 <= k < |allowed| :: allowed[k] == "*" || allowed[k] == origin
  }

  /** CORSCustom: scans the allow-list and echoes the origin only when it
      is admitted; the other headers and the preflight rule are those of
      CORS. */
  method CORSCustom(allowed: seq<string>, req: Request) returns (r: Response)
    ensures AllowOrigin in r.headers <==> OriginAllowed(allowed, req.origin)
    ensures AllowOrigin in r.headers ==> r.headers[AllowOrigin] == req.origin
    ensures r.headers - {AllowOrigin} == CORS(req).headers - {AllowOrigin}
    ensures r.aborted == CORS(req).aborted && r.status == CORS(req).status
  {
    var ok := false;
    var i := 0;
    while i < |allowed|
      invariant 0 <= i <= |allowed|
      invariant ok <==> exists k | 0 <= k < i :: allowed[k] == "*" || allowed[k] == req.origin
    {
      if allowed[i] == "*" || allowed[i] == req.origin {
        ok := true;
        break;
      }
      i := i + 1;
    }
    var headers := if ok then FixedHeaders[AllowOrigin := req.origin] else FixedHeaders;
    assert AllowOrigin !in FixedHeaders;
    r := Finish(headers, req.verb);
  }

  /** With a wildcard in the list and a non-empty origin the custom
      middleware answers exactly as CORS does; with an empty origin CORS
      sends "*" where it sends the empty origin. */
  lemma WildcardMatchesCors(allowed: seq<string>, req: Request)
    requires "*" in allowed
    ensures OriginAllowed(allowed, req.origin)
    ensures req.origin != "" ==> FixedHeaders[AllowOrigin := req.origin] == CORS(req).headers
  {
    var k :| 0 <= k < |allowed| && allowed[k] == "*";
  }
}

=== FILE: dream_start_main.dfy ===
/** The second set of drills (week1-DreamStart/main.go): the same problems
    solved differently, proved against the same reference definitions. */
module DreamStartMain {
  import opened DrillSpecs
  import opened GoTypes
  import Brackets
  import Seqs

  /** isPalindrome: negatives and non-zero multiples of 10 are rejected up
      front; otherwise x is compared with its arithmetic digit reversal.
      The reversal is computed here without bound. Go's int64 reversal wraps
      only on its last step, when the reversal R of a 19-digit x reaches
      2^63; the wrapped R - 2^64 is negative and never equals x, so the
      answer is the same. */
  method IsPalindrome(x: int) returns (r: bool)
    ensures r <==> x >= 0 && DrillSpecs.IsPalindrome(Digits(x))
  {
    if x < 0 || (x % 10 == 0 && x != 0) {
      if x >= 0 {
        TrailingZeroNotPalindrome(x);
      }
      return false;
    }
    var reversedHalf := 0;
    var original := x;
    var y := x;
    while y > 0
      invariant y >= 0
      invariant RevAcc(y, reversedHalf) == RevAcc(original, 0)
    {
      reversedHalf := reversedHalf * 10 + y % 10;
      y := y / 10;
    }
    RevAccPalindrome(original);
    r := original == reversedHalf;
  }

  /** The guard for multiples of 10 only short-cuts: such a number never
      equals its digit reversal, and its digits are no palindrome. */
  lemma TrailingZeroNotPalindrome(x: nat)
    requires x % 10 == 0 && x != 0
    ensures !DrillSpecs.IsPalindrome(Digits(x))
    ensures x != RevAcc(x, 0)
  {
    var d := Digits(x);
    assert d[0] != 0 && d[|d| - 1] == 0;
    NotPalindromeAt(d, 0);
    RevAccPalindrome(x);
  }

  /** isValid: a closer must find its opener on top of the stack; every
      other rune is pushed. */
  method IsValid(s: string) returns (r: bool)
    ensures r <==> Brackets.Balanced(s)
  {
    var stack: seq<char> := [];
    var i := 0;
    while i < |s|
      invariant 0 <= i <= |s|
      invariant Brackets.PushOthers(s, []) == Brackets.PushOthers(s[i..], stack)
    {
      var c := s[i];
      assert s[i..][1..] == s[i + 1..];
      if Brackets.IsCloser(c) {
        var matchingOpen := Brackets.MatchingOpener(c);
        if |stack| == 0 || stack[|stack| - 1] != matchingOpen {
          Brackets.PushOthersDecides(s);
          return false;
        }
        stack := stack[..|stack| - 1];
      } else {
        stack := stack + [c];
      }
      i := i + 1;
    }
    Brackets.PushOthersDecides(s);
    r := |stack| == 0;
  }

  /** longestCommonPrefix: the candidate starts as the first string and
      loses its last byte until it is a prefix of each following string;
      an empty candidate ends the search. Go's len and slicing count bytes,
      so the strings are their bytes here. */
  method LongestCommonPrefix(strs: seq<Bytes>) returns (r: Bytes)
    ensures |strs| == 0 ==> r == []
    ensures |strs| > 0 ==> IsLongestCommonPrefix(r, strs)
  {
    if |strs| == 0 {
      return [];
    }
    var prefix := strs[0];
    SingleLongestCommonPrefix(strs[..1]);
    var i := 1;
    while i < |strs|
      invariant 1 <= i <= |strs|
      invariant IsLongestCommonPrefix(prefix, strs[..i])
    {
      ghost var p0 := prefix;
      while |prefix| > 0
        invariant prefix <= p0
        invariant forall m | |prefix| < m <= |p0| :: !(p0[..m] <= strs[i])
      {
        if |strs[i]| < |prefix| {
          prefix := prefix[..|prefix| - 1];
          continue;
        }
        if strs[i][..|prefix|] != prefix {
          prefix := prefix[..|prefix| - 1];
        } else {
          break;
        }
      }
      ShrinkToAgreement(p0, prefix, strs, i);
      if prefix == [] {
        EmptyLongestCommonPrefix(strs, i + 1);
        return [];
      }
      i := i + 1;
    }
    assert strs[..i] == strs;
    r := prefix;
  }

  /** Digit k of the caller's slice once plusOne has carried: a digit that
      every later digit carried past (each a 9) becomes 0 if it is a 9 and
      is incremented, with Go's wrap-around, otherwise; an earlier digit is
      untouched. */
  ghost function AfterPlusOne(d: seq<Int64>, k: int): Int64
    requires 0 <= k < |d|
  {
    if forall j | k < j < |d| :: d[j] == 9 then (if d[k] == 9 then 0 else Wrap(d[k] as int + 1)) else d[k]
  }

  lemma PlusOneStops(d: seq<Int64>, prev: seq<Int64>, i: int)
    requires |prev| == |d| && 0 <= i < |d| && d[i] != 9
    requires prev[..i + 1] == d[..i + 1]
    requires forall k | i < k < |d| :: prev[k] == 0 && d[k] == 9
    ensures forall k | 0 <= k < |d| :: prev[i := Wrap(d[i] as int + 1)][k] == AfterPlusOne(d, k)
  {
    forall k | 0 <= k < i
      ensures prev[k] == AfterPlusOne(d, k)
    {
      assert prev[..i + 1][k] == d[..i + 1][k];
    }
  }

  lemma PlusOneCarriedAll(d: seq<Int64>, a: seq<Int64>)
    requires |a| == |d|
    requires forall k | 0 <= k < |d| :: a[k] == 0 && d[k] == 9
    ensures forall k | 0 <= k < |d| :: a[k] == AfterPlusOne(d, k)
  {
  }

  /** plusOne: from the last digit, a 9 becomes 0 and carries; any other
      digit is incremented and the same array returned. When every digit
      carried, a fresh array 1, 0, ..., 0 one longer is returned, and the
      caller's slice is left all zeros. */
  method PlusOne(digits: array<Int64>) returns (r: array<Int64>)
    modifies digits
    ensures forall k | 0 <= k < digits.Length :: digits[k] == AfterPlusOne(old(digits[..]), k)
    ensures (exists k | 0 <= k < digits.Length :: old(digits[k]) != 9) ==> r == digits
    ensures (forall k | 0 <= k < digits.Length :: old(digits[k]) == 9) ==>
      fresh(r) && r.Length == digits.Length + 1 && r[0] == 1 && (forall k | 1 <= k < r.Length :: r[k] == 0)
      && (forall k | 0 <= k < digits.Length :: digits[k] == 0)
    ensures IsDigits(old(digits[..])) ==> IsDigits(r[..]) && Value(r[..]) == Value(old(digits[..])) + 1
  {
    ghost var d := digits[..];
    assert d[..digits.Length] == d;
    var i := digits.Length - 1;
    while i >= 0
      invariant -1 <= i < digits.Length
      invariant digits[..i + 1] == d[..i + 1]
      invariant forall k | i < k < digits.Length :: digits[k] == 0 && d[k] == 9
      invariant IsDigits(d) ==> Value(d) + 1 == (Value(d[..i + 1]) + 1) * Pow10(digits.Length - 1 - i)
    {
      if digits[i] == 9 {
        digits[i] := 0;
        if IsDigits(d) {
          CarryValue(d, i);
        }
      } else {
        PlusOneStops(d, digits[..], i);
        digits[i] := Wrap(digits[i] as int + 1);
        if IsDigits(d) {
          IncrementValue(d, digits[..], i);
          assert IsDigits(digits[..]);
        }
        return digits;
      }
      i := i - 1;
    }
    PlusOneCarriedAll(d, digits[..]);
    r := new Int64[digits.Length + 1];
    r[0] := 1;
    forall k | 1 <= k < r.Length {
      r[k] := 0;
    }
    if IsDigits(d) {
      OneThenZeros(r[..]);
      assert d[..0] == [];
    }
  }

  /** removeDuplicates: the slow index advances only past a strictly
      larger value, which is copied one past it. */
  method RemoveDuplicates(nums: array<int>) returns (k: int)
    modifies nums
    ensures 0 <= k <= nums.Length
    ensures nums.Length == 0 ==> k == 0
    ensures nums[k..] == old(nums[k..])
    ensures Seqs.Sorted(old(nums[..])) ==>
      Seqs.StrictlySorted(nums[..k]) && Seqs.Elements(nums[..k]) == Seqs.Elements(old(nums[..])) && k == |Seqs.Elements(old(nums[..]))|
  {
    ghost var d := nums[..];
    if nums.Length == 0 {
      return 0;
    }
    var slow := 0;
    var fast := 1;
    DedupStart(d);
    while fast < nums.Length
      invariant 0 <= slow < fast <= nums.Length
      invariant nums[..][slow + 1..] == d[slow + 1..]
      invariant Seqs.Sorted(d) ==> DedupPrefix(nums[..][..slow + 1], d[..fast])
    {
      ghost var prev := nums[..];
      assert nums[fast] == d[fast] by {
        assert prev[slow + 1..][fast - slow - 1] == d[slow + 1..][fast - slow - 1];
      }
      DedupStep(prev, d, slow, fast);
      if nums[fast] > nums[slow] {
        slow := slow + 1;
        nums[slow] := nums[fast];
        assert nums[..] == prev[slow := d[fast]];
      }
      fast := fast + 1;
    }
    assert d[..fast] == d;
    k := slow + 1;
    assert nums[k..] == nums[..][k..];
    if Seqs.Sorted(d) {
      DedupDone(nums[..k], d);
    }
  }

  /** The order quickSort sorts by: start, then end. */
  predicate Less(a: Interval, b: Interval)
  {
    a.start < b.start || (a.start == b.start && a.end < b.end)
  }

  /** a[lo..hi] is in lexicographic (start, end) order. */
  ghost predicate LexSorted(a: seq<Interval>, lo: int, hi: int)
    requires 0 <= lo <= hi <= |a|
  {
    forall i, j | lo <= i < j < hi :: !Less(a[j], a[i])
  }

  /** partition (Lomuto): with the last element as pivot, move every
      element below it to the front and the pivot just after them. */
  method Partition(arr: array<Interval>, left: int, right: int) returns (p: int)
    requires 0 <= left <= right < arr.Length
    modifies arr
    ensures left <= p <= right
    ensures arr[p] == old(arr[right])
    ensures forall k | left <= k < p :: Less(arr[k], arr[p])
    ensures forall k | p < k <= right :: !Less(arr[k], arr[p])
    ensures multiset(arr[left..right + 1]) == old(multiset(arr[left..right + 1]))
    ensures arr[..left] == old(arr[..left]) && arr[right + 1..] == old(arr[right + 1..])
  {
    var pivot := arr[right];
    var i := left - 1;
    var j := left;
    while j < right
      invariant left - 1 <= i < j <= right
      invariant arr[right] == pivot
      invariant forall k | left <= k <= i :: Less(arr[k], pivot)
      invariant forall k | i < k < j :: !Less(arr[k], pivot)
      invariant multiset(arr[left..right + 1]) == old(multiset(arr[left..right + 1]))
      invariant arr[..left] == old(arr[..left]) && arr[right + 1..] == old(arr[right + 1..])
    {
      if Less(arr[j], pivot) {
        i := i + 1;
        Swap(arr, left, right, i, j);
      }
      j := j + 1;
    }
    Swap(arr, left, right, i + 1, right);
    p := i + 1;
  }

  /** One read of removeDuplicates, on the array's contents prev: a value
      above the last kept one is copied just past it, anything else is
      skipped; either way the tail still equals the input's and the kept
      prefix is a dedup of the input read so far. */
  lemma DedupStep(prev: seq<int>, d: seq<int>, slow: int, fast: int)
    requires |prev| == |d| && 0 <= slow < fast < |d|
    requires prev[slow + 1..] == d[slow + 1..]
    requires Seqs.Sorted(d) ==> DedupPrefix(prev[..slow + 1], d[..fast])
    ensures d[fast] > prev[slow] ==>
      var next := prev[slow + 1 := d[fast]];
      next[slow + 2..] == d[slow + 2..] && (Seqs.Sorted(d) ==> DedupPrefix(next[..slow + 2], d[..fast + 1]))
    ensures d[fast] <= prev[slow] ==> Seqs.Sorted(d) ==> DedupPrefix(prev[..slow + 1], d[..fast + 1])
  {
    var before := prev[..slow + 1];
    if Seqs.Sorted(d) {
      assert before[slow] == d[..fast][fast - 1] <= d[fast];
    }
    if d[fast] > prev[slow] {
      Seqs.OverwriteNext(prev, d, slow, fast);
      if Seqs.Sorted(d) {
        DedupKeep(before, d, fast);
      }
    } else if Seqs.Sorted(d) {
      DedupSkip(before, d, fast);
    }
  }

  /** Exchanges two slots of arr[left..right]. */
  method Swap(arr: array<Interval>, left: int, right: int, x: int, y: int)
    requires 0 <= left <= x <= y <= right < arr.Length
    modifies arr
    ensures arr[x] == old(arr[y]) && arr[y] == old(arr[x])
    ensures forall k | 0 <= k < arr.Length && k != x && k != y :: arr[k] == old(arr[k])
    ensures multiset(arr[left..right + 1]) == old(multiset(arr[left..right + 1]))
    ensures arr[..left] == old(arr[..left]) && arr[right + 1..] == old(arr[right + 1..])
  {
    ghost var s := arr[..];
    arr[x], arr[y] := arr[y], arr[x];
    assert arr[..] == s[x := s[y]][y := s[x]];
    SwapSlice(s, left, right, x, y);
  }

  /** Exchanging two entries inside a window keeps the window's multiset and
      leaves everything outside it alone. */
  lemma SwapSlice<T>(s: seq<T>, left: int, right: int, x: int, y: int)
    requires 0 <= left <= x <= y <= right < |s|
    ensures var t := s[x := s[y]][y := s[x]];
      multiset(t[left..right + 1]) == multiset(s[left..right + 1])
      && t[..left] == s[..left] && t[right + 1..] == s[right + 1..]
  {
    var t := s[x := s[y]][y := s[x]];
    var w := s[left..right + 1];
    assert t[left..right + 1] == w[x - left := w[y - left]][y - left := w[x - left]];
  }

  /** quickSort: partition, then sort both sides of the pivot. */
  method QuickSort(arr: array<Interval>, left: int, right: int)
    requires 0 <= left <= right + 1 <= arr.Length
    modifies arr
    ensures LexSorted(arr[..], left, right + 1)
    ensures multiset(arr[left..right + 1]) == old(multiset(arr[left..right + 1]))
    ensures arr[..left] == old(arr[..left]) && arr[right + 1..] == old(arr[right + 1..])
    decreases right - left
  {
    if left >= right {
      return;
    }
    var pivotIndex := Partition(arr, left, right);
    ghost var afterPartition := arr[..];
    QuickSort(arr, left, pivotIndex - 1);
    ghost var afterLeft := arr[..];
    QuickSort(arr, pivotIndex + 1, right);
    SortedAroundPivot(afterPartition, afterLeft, arr[..], left, pivotIndex, right);
  }

  /** Lexicographic order puts starts in ascending order. */
  lemma LexSortedStarts(s: seq<Interval>)
    requires LexSorted(s, 0, |s|)
    ensures StartsAscending(s)
  {
  }

  /** Every element of a permuted range keeps a bound that every element
      of the original range had. */
  lemma BelowSurvives(a: seq<Interval>, b: seq<Interval>, pivot: Interval)
    requires multiset(a) == multiset(b)
    requires forall k | 0 <= k < |a| :: Less(a[k], pivot)
    ensures forall k | 0 <= k < |b| :: Less(b[k], pivot)
  {
    forall k | 0 <= k < |b|
      ensures Less(b[k], pivot)
    {
      assert b[k] in multiset(a);
      var m :| 0 <= m < |a| && a[m] == b[k];
    }
  }

  lemma AboveSurvives(a: seq<Interval>, b: seq<Interval>, pivot: Interval)
    requires multiset(a) == multiset(b)
    requires forall k | 0 <= k < |a| :: !Less(a[k], pivot)
    ensures forall k | 0 <= k < |b| :: !Less(b[k], pivot)
  {
    forall k | 0 <= k < |b|
      ensures !Less(b[k], pivot)
    {
      assert b[k] in multiset(a);
      var m :| 0 <= m < |a| && a[m] == b[k];
    }
  }

  /** Sorted lows, the pivot, then sorted highs make a sorted range. */
  lemma JoinAroundPivot(lo: seq<Interval>, pivot: Interval, hi: seq<Interval>)
    requires LexSorted(lo, 0, |lo|) && LexSorted(hi, 0, |hi|)
    requires forall k | 0 <= k < |lo| :: Less(lo[k], pivot)
    requires forall k | 0 <= k < |hi| :: !Less(hi[k], pivot)
    ensures var w := lo + [pivot] + hi; LexSorted(w, 0, |w|)
  {
    var w := lo + [pivot] + hi;
    forall i, j | 0 <= i < j < |w|
      ensures !Less(w[j], w[i])
    {
      if j < |lo| {
        assert w[i] == lo[i] && w[j] == lo[j];
      } else if i > |lo| {
        assert w[i] == hi[i - |lo| - 1] && w[j] == hi[j - |lo| - 1];
      } else if i < |lo| && j > |lo| {
        assert w[i] == lo[i] && w[j] == hi[j - |lo| - 1];
      }
    }
  }

  /** After partition and the two recursive sorts, the whole range is
      sorted and still a permutation of what partition left. */
  lemma SortedAroundPivot(a0: seq<Interval>, a1: seq<Interval>, a2: seq<Interval>, left: int, p: int, right: int)
    requires 0 <= left <= p <= right < |a0| && |a1| == |a0| && |a2| == |a0|
    requires forall k | left <= k < p :: Less(a0[k], a0[p])
    requires forall k | p < k <= right :: !Less(a0[k], a0[p])
    requires LexSorted(a1, left, p) && multiset(a1[left..p]) == multiset(a0[left..p])
    requires a1[..left] == a0[..left] && a1[p..] == a0[p..]
    requires LexSorted(a2, p + 1, right + 1) && multiset(a2[p + 1..right + 1]) == multiset(a1[p + 1..right + 1])
    requires a2[..p + 1] == a1[..p + 1] && a2[right + 1..] == a1[right + 1..]
    ensures LexSorted(a2, left, right + 1)
    ensures multiset(a2[left..right + 1]) == multiset(a0[left..right + 1])
    ensures a2[..left] == a0[..left] && a2[right + 1..] == a0[right + 1..]
  {
    var pivot := a0[p];
    var lo0, hi0 := a0[left..p], a0[p + 1..right + 1];
    var lo, hi := a2[left..p], a2[p + 1..right + 1];
    assert lo == a1[left..p] by {
      assert a2[..p + 1][left..p] == a1[..p + 1][left..p];
    }
    assert hi0 == a1[p + 1..right + 1] by {
      assert a1[p..][1..right + 1 - p] == a0[p..][1..right + 1 - p];
    }
    assert a2[p] == pivot by {
      assert a2[..p + 1][p] == a1[..p + 1][p];
      assert a1[p..][0] == a0[p..][0];
    }
    assert forall k | 0 <= k < |lo0| :: Less(lo0[k], pivot) by {
      forall k | 0 <= k < |lo0|
        ensures Less(lo0[k], pivot)
      {
        assert lo0[k] == a0[left + k];
      }
    }
    assert forall k | 0 <= k < |hi0| :: !Less(hi0[k], pivot) by {
      forall k | 0 <= k < |hi0|
        ensures !Less(hi0[k], pivot)
      {
        assert hi0[k] == a0[p + 1 + k];
      }
    }
    BelowSurvives(lo0, lo, pivot);
    AboveSurvives(hi0, hi, pivot);
    assert LexSorted(lo, 0, |lo|) by {
      forall i, j | 0 <= i < j < |lo|
        ensures !Less(lo[j], lo[i])
      {
        assert lo[i] == a1[left + i] && lo[j] == a1[left + j];
      }
    }
    assert LexSorted(hi, 0, |hi|) by {
      forall i, j | 0 <= i < j < |hi|
        ensures !Less(hi[j], hi[i])
      {
        assert hi[i] == a2[p + 1 + i] && hi[j] == a2[p + 1 + j];
      }
    }
    JoinAroundPivot(lo, pivot, hi);
    var w := lo + [pivot] + hi;
    assert a2[left..right + 1] == w;
    assert LexSorted(a2, left, right + 1) by {
      forall i, j | left <= i < j < right + 1
        ensures !Less(a2[j], a2[i])
      {
        assert a2[i] == w[i - left] && a2[j] == w[j - left];
      }
    }
    assert a0[left..right + 1] == lo0 + [pivot] + hi0;
    assert a2[..left] == a0[..left] by {
      assert a2[..p + 1][..left] == a1[..p + 1][..left];
    }
    assert a2[right + 1..] == a0[right + 1..] by {
      assert a1[p..][right + 1 - p..] == a0[p..][right + 1 - p..];
    }
  }

  /** merge: sort in place with quickSort, then sweep, starting a new
      merged interval whenever the next one starts after the last merged
      one ends. The merged slice holds the caller's inner slices, returned
      here as heads, the caller's slots they share: widening a merged
      interval writes its new end into that slot, which the caller sees.
      So the caller's slice ends up sorted, except that the slot of each
      merged interval holds the merged interval. */
  method Merge(intervals: array<Interval>) returns (r: seq<Interval>, heads: seq<int>, ghost sorted: seq<Interval>)
    modifies intervals
    ensures multiset(sorted) == old(multiset(intervals[..])) && LexSorted(sorted, 0, |sorted|)
    ensures SlotsShared(intervals[..], sorted, r, heads, |sorted|)
    ensures SameCover(r, old(intervals[..])) && Separated(r)
    ensures WellFormed(old(intervals[..])) ==> WellFormed(r) && StartsAscending(r)
  {
    if intervals.Length == 0 {
      assert intervals[..] == [];
      return [], [], [];
    }
    ghost var input := intervals[..];
    assert input[0..intervals.Length] == input;
    QuickSort(intervals, 0, intervals.Length - 1);
    assert intervals[0..intervals.Length] == intervals[..];
    sorted := intervals[..];
    LexSortedStarts(sorted);
    CoversPermutation(input, sorted);
    r, heads := SweepSlots(intervals, sorted);
    CoversPermutation(sorted, input);
  }

  /** merge's loop over the sorted slots s, writing widened ends back into
      the slot each merged interval shares. */
  method SweepSlots(intervals: array<Interval>, ghost s: seq<Interval>) returns (merged: seq<Interval>, heads: seq<int>)
    modifies intervals
    requires intervals[..] == s && |s| >= 1 && StartsAscending(s)
    ensures SlotsShared(intervals[..], s, merged, heads, |s|)
    ensures SameCover(merged, s) && Separated(merged)
    ensures WellFormed(s) ==> WellFormed(merged) && StartsAscending(merged)
  {
    merged := [intervals[0]];
    heads := [0];
    SweepStart(s);
    SlotsStart(s);
    var i := 1;
    while i < intervals.Length
      invariant SweepInv(merged, s, i)
      invariant SlotsShared(intervals[..], s, merged, heads, i) && |heads| > 0
    {
      ghost var a := intervals[..];
      SlotUnread(a, s, merged, heads, i);
      var interval := intervals[i];
      var last := merged[|merged| - 1];
      if interval.start > last.end {
        SweepAppend(merged, s, i);
        SlotsAppend(a, s, merged, heads, i);
        merged := merged + [interval];
        heads := heads + [i];
      } else {
        SweepExtend(merged, s, i);
        if interval.end > last.end {
          var h := heads[|heads| - 1];
          SlotsWiden(a, s, merged, heads, i, interval.end);
          intervals[h] := Interval(intervals[h].start, interval.end);
          assert intervals[..] == a[h := Interval(a[h].start, interval.end)];
          merged := merged[..|merged| - 1] + [Interval(last.start, interval.end)];
        } else {
          assert merged[..|merged| - 1] + [Interval(last.start, last.end)] == merged;
        }
      }
      i := i + 1;
    }
    SweepDone(merged, s);
  }

  /** Merging [1,3], [1,5], [2,6] widens the first slot to [1,6], so the
      caller's slice afterwards is no longer a permutation of its old
      contents. */
  lemma CallerSlotWidened()
    ensures var s := [Interval(1, 3), Interval(1, 5), Interval(2, 6)];
            var after := [Interval(1, 6), Interval(1, 5), Interval(2, 6)];
            SlotsShared(after, s, [Interval(1, 6)], [0], 3) && multiset(after) != multiset(s)
  {
    var s := [Interval(1, 3), Interval(1, 5), Interval(2, 6)];
    var after := [Interval(1, 6), Interval(1, 5), Interval(2, 6)];
    assert Interval(1, 3) !in multiset(after);
    assert Interval(1, 3) in multiset(s);
  }

  /** twoSum: for each element, look up the index last seen for its
      complement, computed with Go's wrapping subtraction; report the two
      indices of the first pair found, or nil (the empty sequence). */
  method TwoSum(nums: seq<Int64>, target: Int64) returns (r: seq<int>)
    ensures |r| == 0 <==> NoPair(nums, target)
    ensures |r| != 0 ==> |r| == 2 && IsFirstPair(nums, target, r[0], r[1])
  {
    var hashmap: map<int, int> := map[];
    var index := 0;
    while index < |nums|
      invariant 0 <= index <= |nums|
      invariant LastSeen(hashmap, nums, index)
      invariant NoPair(nums[..index], target)
    {
      var anotherNum := Wrap(target as int - nums[index]);
      if anotherNum in hashmap {
        var anotherIndex := hashmap[anotherNum];
        FoundFirstPair(hashmap, nums, target, index);
        FirstPairExcludesNoPair(nums, target, anotherIndex, index);
        return [anotherIndex, index];
      }
      MissExtendsNoPair(hashmap, nums, target, index);
      hashmap := hashmap[nums[index] := index];
      index := index + 1;
    }
    assert nums[..index] == nums;
    r := [];
  }
}

=== FILE: drill_specs.dfy ===
/** Reference definitions for the week1-DreamStart drills, independent of
    either implementation: decimal digits, common prefixes, interval
    coverage, XOR folds and the first two-sum pair. */
module DrillSpecs {
  import Seqs
  import opened GoTypes

  // ---------------------------------------------------------------- digits

  ghost predicate IsDigits(d: seq<int>)
  {
    forall k | 0 <= k < |d| :: 0 <= d[k] <= 9
  }

  function Pow10(k: nat): (r: nat)
    ensures r >= 1
  {
    if k == 0 then 1 else 10 * Pow10(k - 1)
  }

  /** The number a digit sequence denotes, most significant digit first. */
  function Value(d: seq<int>): int
  {
    if |d| == 0 then 0 else Value(d[..|d| - 1]) * 10 + d[|d| - 1]
  }

  /** The decimal digits of n, most significant first, as strconv.Itoa writes them. */
  function Digits(n: nat): (d: seq<int>)
    ensures |d| >= 1 && IsDigits(d)
    ensures Value(d) == n
    ensures n > 0 ==> d[0] != 0
    ensures d[|d| - 1] == n % 10
    decreases n
  {
    if n < 10 then [n]
    else
      var d := Digits(n / 10) + [n % 10];
      assert d[..|d| - 1] == Digits(n / 10);
      d
  }

  function Reverse<T>(s: seq<T>): (r: seq<T>)
    ensures |r| == |s|
    ensures forall k | 0 <= k < |s| :: r[k] == s[|s| - 1 - k]
  {
    if |s| == 0 then [] else [s[|s| - 1]] + Reverse(s[..|s| - 1])
  }

  /** A sequence that reads the same in both directions. */
  ghost predicate IsPalindrome<T>(s: seq<T>)
  {
    Reverse(s) == s
  }

  /** One mismatched mirrored pair rules out a palindrome. */
  lemma NotPalindromeAt<T>(s: seq<T>, k: int)
    requires 0 <= k < |s| && s[k] != s[|s| - 1 - k]
    ensures !IsPalindrome(s)
  {
    assert Reverse(s)[k] != s[k];
  }

  /** Checking mirrored positions up to the middle suffices. */
  lemma PalindromeByHalves<T>(s: seq<T>, m: int)
    requires 0 <= m && |s| - 1 - m <= m
    requires forall k | 0 <= k < m && k < |s| :: s[k] == s[|s| - 1 - k]
    ensures IsPalindrome(s)
  {
    forall k | 0 <= k < |s|
      ensures Reverse(s)[k] == s[k]
    {
      if k >= m {
        assert s[|s| - 1 - k] == s[|s| - 1 - (|s| - 1 - k)];
      }
    }
  }

  lemma {:induction false} ValueAppend(a: seq<int>, b: seq<int>)
    ensures Value(a + b) == Value(a) * Pow10(|b|) + Value(b)
    decreases |b|
  {
    if |b| == 0 {
      assert a + b == a;
    } else {
      var b' := b[..|b| - 1];
      assert (a + b)[..|a + b| - 1] == a + b';
      ValueAppend(a, b');
      calc {
        Value(a + b);
        Value(a + b') * 10 + b[|b| - 1];
        (Value(a) * Pow10(|b'|) + Value(b')) * 10 + b[|b| - 1];
        Value(a) * (Pow10(|b'|) * 10) + (Value(b') * 10 + b[|b| - 1]);
      }
    }
  }

  /** A run of zeros denotes 0. */
  lemma {:induction false} ValueZeros(z: seq<int>)
    requires forall k | 0 <= k < |z| :: z[k] == 0
    ensures Value(z) == 0
    decreases |z|
  {
    if |z| > 0 {
      ValueZeros(z[..|z| - 1]);
    }
  }

  /** A 1 followed by n zeros denotes 10^n. */
  lemma OneThenZeros(r: seq<int>)
    requires |r| >= 1 && r[0] == 1 && forall k | 1 <= k < |r| :: r[k] == 0
    ensures Value(r) == Pow10(|r| - 1)
  {
    assert r == [1] + r[1..];
    ValueAppend([1], r[1..]);
    ValueZeros(r[1..]);
    assert Value([1]) == 1 by { assert [1][..0] == []; }
  }

  /** Digit-array increment, carry step: a trailing 9 becomes 0 and the
      carry moves one digit left. Invariant: value + 1 equals the untouched
      prefix plus one, followed by zeros. */
  lemma CarryValue(d: seq<int>, i: int)
    requires IsDigits(d) && 0 <= i < |d| && d[i] >= 9
    requires Value(d) + 1 == (Value(d[..i + 1]) + 1) * Pow10(|d| - 1 - i)
    ensures Value(d) + 1 == (Value(d[..i]) + 1) * Pow10(|d| - i)
  {
    var P := Pow10(|d| - 1 - i);
    var v := Value(d[..i]);
    assert d[..i + 1][..i] == d[..i];
    assert Value(d[..i + 1]) + 1 == v * 10 + 10;
    assert Pow10(|d| - i) == 10 * P;
    CarryArith(v, P);
  }

  lemma CarryArith(v: int, P: int)
    ensures (v * 10 + 10) * P == (v + 1) * (10 * P)
  {
  }

  /** Digit-array increment, final step: a digit below 9 absorbs the carry. */
  lemma IncrementValue(d: seq<int>, e: seq<int>, i: int)
    requires 0 <= i < |d| && |e| == |d|
    requires forall k | 0 <= k < i :: e[k] == d[k]
    requires e[i] == d[i] + 1
    requires forall k | i < k < |e| :: e[k] == 0
    requires Value(d) + 1 == (Value(d[..i + 1]) + 1) * Pow10(|d| - 1 - i)
    ensures Value(e) == Value(d) + 1
  {
    IncrementHead(d, e[..i + 1], i);
    ValueZeros(e[i + 1..]);
    SplitValue(e, i + 1);
    assert |e| - (i + 1) == |d| - 1 - i;
    CarryIn(Value(e), Value(e[..i + 1]), Value(d[..i + 1]), Value(d), Pow10(|d| - 1 - i));
  }

  lemma CarryIn(w: int, a: int, b: int, v: int, p: int)
    requires w == a * p + 0 && a == b + 1 && v + 1 == (b + 1) * p
    ensures w == v + 1
  {
  }

  lemma IncrementHead(d: seq<int>, h: seq<int>, i: int)
    requires 0 <= i < |d| && |h| == i + 1
    requires forall k | 0 <= k < i :: h[k] == d[k]
    requires h[i] == d[i] + 1
    ensures Value(h) == Value(d[..i + 1]) + 1
  {
    assert h[..i] == d[..i] == d[..i + 1][..i];
  }

  lemma SplitValue(e: seq<int>, j: int)
    requires 0 <= j <= |e|
    ensures Value(e) == Value(e[..j]) * Pow10(|e| - j) + Value(e[j..])
  {
    assert e == e[..j] + e[j..];
    ValueAppend(e[..j], e[j..]);
  }

  /** Two digit sequences of the same length denote the same number only if
      they are equal. */
  lemma {:induction false} ValueInjective(a: seq<int>, b: seq<int>)
    requires |a| == |b| && IsDigits(a) && IsDigits(b)
    requires Value(a) == Value(b)
    ensures a == b
    decreases |a|
  {
    if |a| > 0 {
      var a', b' := a[..|a| - 1], b[..|b| - 1];
      var x, y := a[|a| - 1], b[|b| - 1];
      assert Value(a') * 10 + x == Value(b') * 10 + y;
      assert x == y && Value(a') == Value(b');
      ValueInjective(a', b');
      assert a == a' + [x] && b == b' + [y];
    }
  }

  /** The arithmetic digit reversal of main.go: acc is the reversal built so far. */
  function RevAcc(x: nat, acc: int): int
    decreases x
  {
    if x == 0 then acc else RevAcc(x / 10, acc * 10 + x % 10)
  }

  lemma {:induction false} RevAccIsReverse(n: nat, acc: int)
    requires n > 0
    ensures RevAcc(n, acc) == acc * Pow10(|Digits(n)|) + Value(Reverse(Digits(n)))
    decreases n
  {
    if n >= 10 {
      var m, r := n / 10, n % 10;
      var d := Digits(m);
      var P := Pow10(|d|);
      assert Digits(n) == d + [r];
      assert Reverse(Digits(n)) == [r] + Reverse(d);
      assert Pow10(|Digits(n)|) == 10 * P;
      RevAccIsReverse(m, acc * 10 + r);
      assert RevAcc(n, acc) == (acc * 10 + r) * P + Value(Reverse(d));
      ValueAppend([r], Reverse(d));
      assert Value([r]) == r by {
        assert [r][..0] == [];
      }
      assert Value(Reverse(Digits(n))) == r * P + Value(Reverse(d));
      Distribute(acc, r, P);
    } else {
      assert Reverse([n]) == [n];
      assert Value([n]) == n by { assert [n][..0] == []; }
    }
  }

  lemma Distribute(acc: int, r: int, P: int)
    ensures (acc * 10 + r) * P == acc * (10 * P) + r * P
  {
  }

  /** n equals its arithmetic digit reversal exactly when its decimal digits
      form a palindrome. */
  lemma RevAccPalindrome(n: nat)
    ensures (n == RevAcc(n, 0)) <==> IsPalindrome(Digits(n))
  {
    var d := Digits(n);
    if n > 0 {
      RevAccIsReverse(n, 0);
    } else {
      assert d == [0];
      assert Reverse(d) == d;
    }
    assert RevAcc(n, 0) == Value(Reverse(d));
    if n == RevAcc(n, 0) {
      ValueInjective(d, Reverse(d));
    }
  }

  /** The character strconv.Itoa writes for a digit. */
  function DigitChar(v: int): char
    requires 0 <= v <= 9
  {
    (48 + v) as char
  }

  lemma DigitCharInjective(v: int, w: int)
    requires 0 <= v <= 9 && 0 <= w <= 9
    requires DigitChar(v) == DigitChar(w)
    ensures v == w
  {
  }

  /** strconv.Itoa on a non-negative int. */
  function Itoa(n: nat): (s: string)
    ensures |s| == |Digits(n)|
    ensures forall k | 0 <= k < |s| :: s[k] == DigitChar(Digits(n)[k])
  {
    var d := Digits(n);
    seq(|d|, k requires 0 <= k < |d| => DigitChar(d[k]))
  }

  /** The decimal string is a palindrome exactly when the digits are. */
  lemma ItoaPalindrome(n: nat)
    ensures IsPalindrome(Itoa(n)) <==> IsPalindrome(Digits(n))
  {
    var s, d := Itoa(n), Digits(n);
    var rs, rd := Reverse(s), Reverse(d);
    if IsPalindrome(d) {
      forall k | 0 <= k < |s|
        ensures rs[k] == s[k]
      {
        assert rd[k] == d[k];
      }
      assert rs == s;
    }
    if IsPalindrome(s) {
      forall k | 0 <= k < |d|
        ensures rd[k] == d[k]
      {
        assert rs[k] == s[k];
        DigitCharInjective(d[|d| - 1 - k], d[k]);
      }
      assert rd == d;
    }
  }

  // -------------------------------------------------------- common prefixes

  ghost predicate IsCommonPrefix(p: Bytes, strs: seq<Bytes>)
  {
    forall k | 0 <= k < |strs| :: p <= strs[k]
  }

  /** p is a common prefix and every common prefix is a prefix of p. */
  ghost predicate IsLongestCommonPrefix(p: Bytes, strs: seq<Bytes>)
  {
    IsCommonPrefix(p, strs) && forall q :: IsCommonPrefix(q, strs) ==> q <= p
  }

  /** A common prefix that no byte extends: some string ends right
      after it or disagrees with the first string there. */
  ghost predicate CannotExtend(p: Bytes, strs: seq<Bytes>)
  {
    |strs| > 0 &&
    exists k | 0 <= k < |strs| :: |strs[k]| == |p| || (|p| < |strs[k]| && |p| < |strs[0]| && strs[k][|p|] != strs[0][|p|])
  }

  lemma CannotExtendIsLongest(p: Bytes, strs: seq<Bytes>)
    requires IsCommonPrefix(p, strs) && CannotExtend(p, strs)
    ensures IsLongestCommonPrefix(p, strs)
  {
    forall q | IsCommonPrefix(q, strs)
      ensures q <= p
    {
      assert q <= strs[0] && p <= strs[0];
    }
  }

  /** The longest common prefix of a non-empty list is unique. */
  lemma LongestCommonPrefixUnique(p: Bytes, q: Bytes, strs: seq<Bytes>)
    requires IsLongestCommonPrefix(p, strs) && IsLongestCommonPrefix(q, strs)
    ensures p == q
  {
    assert p <= q && q <= p;
  }

  /** A single string is its own longest common prefix. */
  lemma SingleLongestCommonPrefix(strs: seq<Bytes>)
    requires |strs| == 1
    ensures IsLongestCommonPrefix(strs[0], strs)
  {
  }

  /** Go compares bytes, so the longest common prefix of "é" and "è" (UTF-8
      C3 A9 and C3 A8) is their shared lead byte C3 alone, which is not a
      complete UTF-8 character. */
  lemma PrefixSplitsCharacter()
    ensures IsLongestCommonPrefix([0xC3], [[0xC3, 0xA9], [0xC3, 0xA8]])
  {
    var strs: seq<Bytes> := [[0xC3, 0xA9], [0xC3, 0xA8]];
    assert strs[1][1] != strs[0][1];
    CannotExtendIsLongest([0xC3], strs);
  }

  /** Cutting the longest common prefix of the first i strings back to where
      it stops agreeing with strs[i] gives the longest common prefix of the
      first i + 1. */
  lemma CutToAgreement(p: Bytes, strs: seq<Bytes>, i: int, j: int)
    requires 1 <= i < |strs| && IsLongestCommonPrefix(p, strs[..i])
    requires 0 <= j <= |p| && j <= |strs[i]| && p[..j] == strs[i][..j]
    requires j == |p| || j == |strs[i]| || p[j] != strs[i][j]
    ensures IsLongestCommonPrefix(p[..j], strs[..i + 1])
  {
    var t := strs[..i + 1];
    forall k | 0 <= k < |t|
      ensures p[..j] <= t[k]
    {
      if k < i {
        assert strs[..i][k] == t[k];
      }
    }
    forall q | IsCommonPrefix(q, t)
      ensures q <= p[..j]
    {
      assert IsCommonPrefix(q, strs[..i]) by {
        forall k | 0 <= k < i
          ensures q <= strs[..i][k]
        {
          assert t[k] == strs[..i][k];
        }
      }
      assert q <= p;
      assert q <= t[i];
    }
  }

  /** Shrinking the longest common prefix p0 of the first i strings until
      it is a prefix of strs[i] (or empty), having ruled out every longer
      candidate, gives the longest common prefix of the first i + 1. */
  lemma ShrinkToAgreement(p0: Bytes, p: Bytes, strs: seq<Bytes>, i: int)
    requires 1 <= i < |strs| && IsLongestCommonPrefix(p0, strs[..i])
    requires p <= p0 && (p == [] || p <= strs[i])
    requires forall m | |p| < m <= |p0| :: !(p0[..m] <= strs[i])
    ensures IsLongestCommonPrefix(p, strs[..i + 1])
  {
    var t := strs[..i + 1];
    forall k | 0 <= k < |t|
      ensures p <= t[k]
    {
      if k < i {
        assert strs[..i][k] == t[k];
      }
    }
    forall q | IsCommonPrefix(q, t)
      ensures q <= p
    {
      assert IsCommonPrefix(q, strs[..i]) by {
        forall k | 0 <= k < i
          ensures q <= strs[..i][k]
        {
          assert t[k] == strs[..i][k];
        }
      }
      assert q <= p0 && q <= t[i];
      assert p0[..|q|] == q;
    }
  }

  /** Once the first n strings have no common prefix, no list extending
      them has one. */
  lemma EmptyLongestCommonPrefix(strs: seq<Bytes>, n: int)
    requires 0 < n <= |strs| && IsLongestCommonPrefix([], strs[..n])
    ensures IsLongestCommonPrefix([], strs)
  {
    forall q | IsCommonPrefix(q, strs)
      ensures q <= []
    {
      assert IsCommonPrefix(q, strs[..n]) by {
        forall k | 0 <= k < n
          ensures q <= strs[..n][k]
        {
          assert strs[k] == strs[..n][k];
        }
      }
    }
  }

  // ------------------------------------------------------- sorted dedup

  /** w is what an in-place dedup has kept after reading the input prefix
      seen: its values strictly ascending, exactly the values of seen, and
      the last value read is the last one kept. */
  ghost predicate DedupPrefix(w: seq<int>, seen: seq<int>)
  {
    && |w| >= 1 && |seen| >= 1
    && Seqs.StrictlySorted(w)
    && w[|w| - 1] == seen[|seen| - 1]
    && (forall k | 0 <= k < |w| :: w[k] in seen)
    && (forall k | 0 <= k < |seen| :: seen[k] in w)
  }

  lemma DedupStart(d: seq<int>)
    requires |d| >= 1
    ensures DedupPrefix(d[..1], d[..1])
  {
  }

  /** Reading d[j] of a sorted input when it differs from the last value
      kept: it is kept. */
  lemma DedupKeep(w: seq<int>, d: seq<int>, j: int)
    requires 1 <= j < |d| && Seqs.Sorted(d) && DedupPrefix(w, d[..j])
    requires d[j] != w[|w| - 1]
    ensures DedupPrefix(w + [d[j]], d[..j + 1])
  {
    assert d[..j + 1] == d[..j] + [d[j]];
    assert d[..j][j - 1] == d[j - 1];
    var w' := w + [d[j]];
    forall k | 0 <= k < |w'|
      ensures w'[k] in d[..j + 1]
    {
      if k < |w| {
        assert w'[k] == w[k];
      }
    }
    var seen := d[..j + 1];
    forall k | 0 <= k < |seen|
      ensures seen[k] in w'
    {
      if k < j {
        assert seen[k] == d[..j][k];
      }
    }
  }

  /** Reading d[j] of a sorted input when it equals the last value kept:
      nothing is kept. */
  lemma DedupSkip(w: seq<int>, d: seq<int>, j: int)
    requires 1 <= j < |d| && DedupPrefix(w, d[..j])
    requires d[j] == w[|w| - 1]
    ensures DedupPrefix(w, d[..j + 1])
  {
    assert d[..j + 1] == d[..j] + [d[j]];
    forall k | 0 <= k < |w|
      ensures w[k] in d[..j + 1]
    {
      assert w[k] in d[..j];
    }
    var seen := d[..j + 1];
    forall k | 0 <= k < |seen|
      ensures seen[k] in w
    {
      if k < j {
        assert seen[k] == d[..j][k];
      }
    }
  }

  /** What the dedup keeps of the whole input. */
  lemma DedupDone(w: seq<int>, d: seq<int>)
    requires DedupPrefix(w, d)
    ensures Seqs.StrictlySorted(w)
    ensures Seqs.Elements(w) == Seqs.Elements(d)
    ensures |w| == |Seqs.Elements(d)|
  {
    assert Seqs.Elements(w) == Seqs.Elements(d) by {
      forall x | x in Seqs.Elements(w)
        ensures x in Seqs.Elements(d)
      {
        var k :| 0 <= k < |w| && w[k] == x;
        assert w[k] in d;
      }
      forall x | x in Seqs.Elements(d)
        ensures x in Seqs.Elements(w)
      {
        var k :| 0 <= k < |d| && d[k] == x;
        assert d[k] in w;
      }
    }
    Seqs.StrictlySortedCard(w);
  }

  // -------------------------------------------------------------- intervals

  /** One element of the intervals argument: a two-element []int. */
  datatype Interval = Interval(start: int, end: int)

  /** Some interval of s contains the point p of the real line. */
  ghost predicate Covers(s: seq<Interval>, p: real)
  {
    exists k | 0 <= k < |s| :: s[k].start as real <= p <= s[k].end as real
  }

  /** a and b cover the same points. */
  ghost predicate SameCover(a: seq<Interval>, b: seq<Interval>)
  {
    forall p: real :: Covers(a, p) <==> Covers(b, p)
  }

  /** Each interval ends strictly before the next one starts. */
  ghost predicate Separated(s: seq<Interval>)
  {
    forall k | 0 <= k < |s| - 1 :: s[k].end < s[k + 1].start
  }

  ghost predicate StartsAscending(s: seq<Interval>)
  {
    forall i, j | 0 <= i < j < |s| :: s[i].start <= s[j].start
  }

  ghost predicate WellFormed(s: seq<Interval>)
  {
    forall k | 0 <= k < |s| :: s[k].start <= s[k].end
  }

  lemma CoversSnoc(a: seq<Interval>, x: Interval, p: real)
    ensures Covers(a + [x], p) <==> Covers(a, p) || x.start as real <= p <= x.end as real
  {
    var b := a + [x];
    if Covers(b, p) {
      var k :| 0 <= k < |b| && b[k].start as real <= p <= b[k].end as real;
      if k < |a| {
        assert a[k] == b[k];
      }
    }
    if Covers(a, p) {
      var k :| 0 <= k < |a| && a[k].start as real <= p <= a[k].end as real;
      assert b[k] == a[k];
    }
    if x.start as real <= p <= x.end as real {
      assert b[|a|] == x;
    }
  }

  /** Coverage and well-formedness do not depend on the order. */
  lemma CoversPermutation(a: seq<Interval>, b: seq<Interval>)
    requires multiset(a) == multiset(b)
    ensures SameCover(a, b)
    ensures WellFormed(a) ==> WellFormed(b)
  {
    forall p: real | Covers(a, p)
      ensures Covers(b, p)
    {
      var k :| 0 <= k < |a| && a[k].start as real <= p <= a[k].end as real;
      assert a[k] in multiset(b);
      var j :| 0 <= j < |b| && b[j] == a[k];
    }
    forall p: real | Covers(b, p)
      ensures Covers(a, p)
    {
      var k :| 0 <= k < |b| && b[k].start as real <= p <= b[k].end as real;
      assert b[k] in multiset(a);
      var j :| 0 <= j < |a| && a[j] == b[k];
    }
    if WellFormed(a) {
      forall k | 0 <= k < |b|
        ensures b[k].start <= b[k].end
      {
        assert b[k] in multiset(a);
        var j :| 0 <= j < |a| && a[j] == b[k];
      }
    }
  }

  /** Separated well-formed intervals come in ascending order. */
  lemma {:induction false} SeparatedAscending(s: seq<Interval>)
    requires Separated(s) && WellFormed(s)
    ensures StartsAscending(s)
  {
    forall i, j | 0 <= i < j < |s|
      ensures s[i].start <= s[j].start
    {
      SeparatedChain(s, i, j);
    }
  }

  lemma {:induction false} SeparatedChain(s: seq<Interval>, i: int, j: int)
    requires Separated(s) && WellFormed(s) && 0 <= i < j < |s|
    ensures s[i].start < s[j].start
    decreases j - i
  {
    if i + 1 < j {
      SeparatedChain(s, i + 1, j);
    }
  }

  /** The state of the merge sweep after reading s[..i] into res: res covers
      what s[..i] covers, its intervals are separated, its last interval
      starts no later than any unread one, and it is well formed when the
      input read so far is. */
  ghost predicate SweepInv(res: seq<Interval>, s: seq<Interval>, i: int)
  {
    && 1 <= i <= |s| && |res| >= 1
    && SameCover(res, s[..i])
    && Separated(res)
    && (forall k | i <= k < |s| :: res[|res| - 1].start <= s[k].start)
    && (WellFormed(s[..i]) ==> WellFormed(res))
  }

  lemma SweepStart(s: seq<Interval>)
    requires |s| >= 1 && StartsAscending(s)
    ensures SweepInv([s[0]], s, 1)
  {
    assert s[..1] == [s[0]];
  }

  /** The next interval starts after the last merged one ends: append it. */
  lemma SweepAppend(res: seq<Interval>, s: seq<Interval>, i: int)
    requires SweepInv(res, s, i) && i < |s| && StartsAscending(s)
    requires s[i].start > res[|res| - 1].end
    ensures SweepInv(res + [s[i]], s, i + 1)
  {
    var c := s[i];
    assert s[..i + 1] == s[..i] + [c];
    forall p: real
      ensures Covers(res + [c], p) <==> Covers(s[..i + 1], p)
    {
      CoversSnoc(res, c, p);
      CoversSnoc(s[..i], c, p);
    }
    if WellFormed(s[..i + 1]) {
      assert WellFormed(s[..i]) by {
        forall k | 0 <= k < i
          ensures s[..i][k].start <= s[..i][k].end
        {
          assert s[..i][k] == s[..i + 1][k];
        }
      }
      assert s[..i + 1][i] == c;
    }
  }

  /** The next interval starts within the last merged one: widen the last
      one's end to the larger of the two ends. */
  lemma SweepExtend(res: seq<Interval>, s: seq<Interval>, i: int)
    requires SweepInv(res, s, i) && i < |s| && StartsAscending(s)
    requires s[i].start <= res[|res| - 1].end
    ensures var last := res[|res| - 1];
            var end := if s[i].end > last.end then s[i].end else last.end;
            SweepInv(res[..|res| - 1] + [Interval(last.start, end)], s, i + 1)
  {
    var c := s[i];
    var n := |res| - 1;
    var last := res[n];
    var end := if c.end > last.end then c.end else last.end;
    var front := res[..n];
    var res' := front + [Interval(last.start, end)];
    assert res == front + [last];
    assert s[..i + 1] == s[..i] + [c];
    forall p: real
      ensures Covers(res', p) <==> Covers(s[..i + 1], p)
    {
      CoversSnoc(front, Interval(last.start, end), p);
      CoversSnoc(front, last, p);
      CoversSnoc(s[..i], c, p);
    }
    assert Separated(res') by {
      forall k | 0 <= k < |res'| - 1
        ensures res'[k].end < res'[k + 1].start
      {
        assert res'[k] == res[k];
        assert res'[k + 1].start == res[k + 1].start;
      }
    }
    if WellFormed(s[..i + 1]) {
      assert WellFormed(s[..i]) by {
        forall k | 0 <= k < i
          ensures s[..i][k].start <= s[..i][k].end
        {
          assert s[..i][k] == s[..i + 1][k];
        }
      }
    }
  }

  /** What the sweep guarantees once every interval is read. */
  lemma SweepDone(res: seq<Interval>, s: seq<Interval>)
    requires SweepInv(res, s, |s|)
    ensures SameCover(res, s) && Separated(res)
    ensures WellFormed(s) ==> WellFormed(res) && StartsAscending(res)
  {
    assert s[..|s|] == s;
    if WellFormed(s) {
      SeparatedAscending(res);
    }
  }

  /** The caller's intervals during a merge sweep over the sorted slots s.
      Go's merged slice holds the caller's inner slices themselves, so
      widening a merged interval writes into the caller's slot: slot
      heads[m] holds merged interval m, every other slot still holds its
      sorted interval, and every merged interval comes from a slot before
      i. (The caller's inner slices are taken to be distinct arrays.) */
  ghost predicate SlotsShared(a: seq<Interval>, s: seq<Interval>, merged: seq<Interval>, heads: seq<int>, i: int)
  {
    && |a| == |s| && |heads| == |merged| && i <= |s|
    && (forall m | 0 <= m < |heads| :: 0 <= heads[m] < i && a[heads[m]] == merged[m])
    && (forall m, n | 0 <= m < n < |heads| :: heads[m] < heads[n])
    && (forall k | 0 <= k < |a| :: a[k].start == s[k].start)
    && (forall k | 0 <= k < |a| && k !in heads :: a[k] == s[k])
  }

  lemma SlotsStart(s: seq<Interval>)
    requires |s| >= 1
    ensures SlotsShared(s, s, [s[0]], [0], 1)
  {
  }

  /** A slot the sweep has not reached is still the sorted interval. */
  lemma SlotUnread(a: seq<Interval>, s: seq<Interval>, merged: seq<Interval>, heads: seq<int>, i: int)
    requires SlotsShared(a, s, merged, heads, i) && 0 <= i < |s|
    ensures a[i] == s[i] && i !in heads
  {
  }

  /** Appending the next slot's interval shares that slot. */
  lemma SlotsAppend(a: seq<Interval>, s: seq<Interval>, merged: seq<Interval>, heads: seq<int>, i: int)
    requires SlotsShared(a, s, merged, heads, i) && 0 <= i < |s|
    ensures SlotsShared(a, s, merged + [s[i]], heads + [i], i + 1)
  {
    SlotUnread(a, s, merged, heads, i);
    var heads', merged' := heads + [i], merged + [s[i]];
    forall k | 0 <= k < |a| && k !in heads'
      ensures a[k] == s[k]
    {
      assert k !in heads;
    }
  }

  /** Widening the last merged interval to end writes end into its slot. */
  lemma SlotsWiden(a: seq<Interval>, s: seq<Interval>, merged: seq<Interval>, heads: seq<int>, i: int, end: int)
    requires SlotsShared(a, s, merged, heads, i) && 0 <= i < |s| && |heads| > 0
    ensures var h := heads[|heads| - 1];
            var last := merged[|merged| - 1];
            SlotsShared(a[h := Interval(a[h].start, end)], s, merged[..|merged| - 1] + [Interval(last.start, end)], heads, i + 1)
  {
    var n := |heads| - 1;
    var h := heads[n];
    var a' := a[h := Interval(a[h].start, end)];
    var merged' := merged[..n] + [Interval(merged[n].start, end)];
    forall m | 0 <= m < |heads|
      ensures a'[heads[m]] == merged'[m]
    {
      if m < n {
        assert heads[m] < h;
      }
    }
    forall k | 0 <= k < |a'| && k !in heads
      ensures a'[k] == s[k]
    {
      assert k != h;
    }
  }

  // -------------------------------------------------------------------- XOR

  /** The XOR of all elements, as 64-bit two's-complement words. */
  function XorAll(s: seq<bv64>): bv64
  {
    if |s| == 0 then 0 else XorAll(s[..|s| - 1]) ^ s[|s| - 1]
  }

  lemma {:induction false} XorAppend(a: seq<bv64>, b: seq<bv64>)
    ensures XorAll(a + b) == XorAll(a) ^ XorAll(b)
    decreases |b|
  {
    if |b| == 0 {
      assert a + b == a;
    } else {
      assert (a + b)[..|a + b| - 1] == a + b[..|b| - 1];
      XorAppend(a, b[..|b| - 1]);
    }
  }

  /** Removing the element at j takes it out of the XOR. */
  lemma XorRemoveAt(b: seq<bv64>, j: int)
    requires 0 <= j < |b|
    ensures XorAll(b) == XorAll(b[..j] + b[j + 1..]) ^ b[j]
  {
    var x, u, v := b[j], b[..j], b[j + 1..];
    assert b == (u + [x]) + v;
    XorSplit(u, x, v);
    XorAppend(u, v);
    XorSwapAll(b, u, v, x);
  }

  lemma XorSplit(u: seq<bv64>, x: bv64, v: seq<bv64>)
    ensures XorAll(u + [x] + v) == (XorAll(u) ^ x) ^ XorAll(v)
  {
    XorAppend(u + [x], v);
    assert (u + [x])[..|u|] == u;
  }

  lemma XorSwapAll(b: seq<bv64>, u: seq<bv64>, v: seq<bv64>, x: bv64)
    requires XorAll(b) == (XorAll(u) ^ x) ^ XorAll(v)
    requires XorAll(u + v) == XorAll(u) ^ XorAll(v)
    ensures XorAll(b) == XorAll(u + v) ^ x
  {
  }

  /** Removing the element at j takes one occurrence out of the multiset. */
  lemma MultisetRemoveAt<T>(b: seq<T>, j: int)
    requires 0 <= j < |b|
    ensures multiset(b[..j] + b[j + 1..]) == multiset(b) - multiset{b[j]}
  {
    assert b == b[..j] + [b[j]] + b[j + 1..];
    assert multiset(b) == multiset(b[..j]) + multiset([b[j]]) + multiset(b[j + 1..]);
  }

  /** Matching the last element of a against one occurrence in b leaves
      equal multisets behind. */
  lemma MatchLast<T>(a: seq<T>, b: seq<T>) returns (j: int)
    requires |a| > 0 && multiset(a) == multiset(b)
    ensures 0 <= j < |b| && b[j] == a[|a| - 1]
    ensures multiset(a[..|a| - 1]) == multiset(b[..j] + b[j + 1..])
  {
    var i := |a| - 1;
    assert a[i] in multiset(b);
    j :| 0 <= j < |b| && b[j] == a[i];
    MultisetRemoveAt(a, i);
    MultisetRemoveAt(b, j);
    assert a[..i] + a[i + 1..] == a[..i];
  }

  /** The XOR of a sequence depends only on its multiset of elements. */
  lemma {:induction false} XorPermutation(a: seq<bv64>, b: seq<bv64>)
    requires multiset(a) == multiset(b)
    ensures XorAll(a) == XorAll(b)
    decreases |a|
  {
    if |a| == 0 {
      assert |b| == |multiset(b)| == 0;
    } else {
      var j := MatchLast(a, b);
      XorPermutation(a[..|a| - 1], b[..j] + b[j + 1..]);
      XorRemoveAt(b, j);
    }
  }

  lemma XorCancel(x: bv64, q: bv64)
    ensures (x ^ q) ^ q == x
  {
  }

  /** When every value but x occurs an even number of times (p lists one of
      each pair), the XOR of all elements is x. */
  lemma SingleNumberIsUnpaired(nums: seq<bv64>, x: bv64, p: seq<bv64>)
    requires multiset(nums) == multiset([x] + p + p)
    ensures XorAll(nums) == x
  {
    XorPermutation(nums, [x] + p + p);
    XorPairsCancel(x, p);
  }

  lemma XorPairsCancel(x: bv64, p: seq<bv64>)
    ensures XorAll([x] + p + p) == x
  {
    var q := XorAll(p);
    XorAppend([x], p);
    assert XorAll([x]) == x by { assert [x][..0] == []; }
    XorAppend([x] + p, p);
    XorCancel(x, q);
  }

  // ---------------------------------------------------------------- two sum

  /** b is the first index that has an earlier partner summing to target,
      and a is the latest such partner (the index the hash map holds). Sums
      are Go's: exact sums wrapped to 64 bits. */
  ghost predicate IsFirstPair(nums: seq<Int64>, target: Int64, a: int, b: int)
  {
    && 0 <= a < b < |nums|
    && Wrap(nums[a] as int + nums[b]) == target
    && (forall k | a < k < b :: Wrap(nums[k] as int + nums[b]) != target)
    && (forall j, k | 0 <= j < k < b :: Wrap(nums[j] as int + nums[k]) != target)
  }

  /** No two distinct positions sum to target in 64-bit arithmetic. */
  ghost predicate NoPair(nums: seq<Int64>, target: Int64)
  {
    forall j, k | 0 <= j < k < |nums| :: Wrap(nums[j] as int + nums[k]) != target
  }

  lemma FirstPairUnique(nums: seq<Int64>, target: Int64, a: int, b: int, a': int, b': int)
    requires IsFirstPair(nums, target, a, b) && IsFirstPair(nums, target, a', b')
    ensures a == a' && b == b'
  {
  }

  lemma FirstPairExcludesNoPair(nums: seq<Int64>, target: Int64, a: int, b: int)
    requires IsFirstPair(nums, target, a, b)
    ensures !NoPair(nums, target)
  {
  }

  /** Two copies of the smallest int sum to 0 once wrapped, so both twoSum
      loops report them as a pair for target 0 although their exact sum is
      -2^64. */
  lemma WrappedPair()
    ensures MinInt64 + MinInt64 != 0
    ensures IsFirstPair([MinInt64, MinInt64], 0, 0, 1)
  {
    assert Wrap(MinInt64 + MinInt64) == MinInt64 + MinInt64 + Two64;
  }

  /** The hash map of both twoSum loops after reading nums[..i]: it holds
      every value read, each mapped to the latest index where it occurs. */
  ghost predicate LastSeen(seen: map<int, int>, nums: seq<Int64>, i: int)
  {
    && 0 <= i <= |nums|
    && (forall k | 0 <= k < i :: nums[k] in seen)
    && (forall v | v in seen :: 0 <= seen[v] < i && nums[seen[v]] == v)
    && (forall v, k | v in seen && seen[v] < k < i :: nums[k] != v)
  }

  /** Recording nums[i] at index i keeps the map current. */
  lemma LastSeenStep(seen: map<int, int>, nums: seq<Int64>, i: int)
    requires LastSeen(seen, nums, i) && i < |nums|
    ensures LastSeen(seen[nums[i] := i], nums, i + 1)
  {
  }

  /** The first hit on the wrapped complement, with no pair among the
      earlier elements, is the first pair. */
  lemma FoundFirstPair(seen: map<int, int>, nums: seq<Int64>, target: Int64, i: int)
    requires LastSeen(seen, nums, i) && i < |nums| && NoPair(nums[..i], target)
    requires Wrap(target as int - nums[i]) in seen
    ensures IsFirstPair(nums, target, seen[Wrap(target as int - nums[i])], i)
  {
    var key := Wrap(target as int - nums[i]);
    var a := seen[key];
    ComplementIff(nums[i], nums[a], target);
    forall k | a < k < i
      ensures Wrap(nums[k] as int + nums[i]) != target
    {
      ComplementIff(nums[i], nums[k], target);
    }
    forall j, k | 0 <= j < k < i
      ensures Wrap(nums[j] as int + nums[k]) != target
    {
      assert nums[..i][j] == nums[j] && nums[..i][k] == nums[k];
    }
  }

  /** A miss extends the pair-free prefix by one element. */
  lemma MissExtendsNoPair(seen: map<int, int>, nums: seq<Int64>, target: Int64, i: int)
    requires LastSeen(seen, nums, i) && i < |nums| && NoPair(nums[..i], target)
    requires Wrap(target as int - nums[i]) !in seen
    ensures NoPair(nums[..i + 1], target)
    ensures LastSeen(seen[nums[i] := i], nums, i + 1)
  {
    var t := nums[..i + 1];
    forall j, k | 0 <= j < k < |t|
      ensures Wrap(t[j] as int + t[k]) != target
    {
      if k < i {
        assert nums[..i][j] == t[j] && nums[..i][k] == t[k];
      } else {
        assert nums[j] in seen;
        ComplementIff(nums[i], nums[j], target);
      }
    }
    LastSeenStep(seen, nums, i);
  }
}

=== FILE: go_types.dfy ===
/** Go's machine types where their width shows: a string as the bytes it
    holds, and the 64-bit `int` of amd64 with its two's-complement
    wrap-around. */
module GoTypes {

  newtype byte = b: int | 0 <= b < 256

  /** A Go string where the source slices, compares or measures it by
      bytes. */
  type Bytes = seq<byte>

  const Two64: int := 0x1_0000_0000_0000_0000
  const MinInt64: int := -0x8000_0000_0000_0000
  const MaxInt64: int := 0x7FFF_FFFF_FFFF_FFFF

  /** The values of Go's `int` on a 64-bit platform. */
  type Int64 = x: int | -0x8000_0000_0000_0000 <= x <= 0x7FFF_FFFF_FFFF_FFFF

  /** The Int64 an exact result wraps to: `+`, `-` and `*` on Go ints
      compute the exact value modulo 2^64, read back in two's complement. */
  function Wrap(x: int): (r: Int64)
    ensures (r - x) % Two64 == 0
    ensures MinInt64 <= x <= MaxInt64 ==> r == x
    ensures x > MaxInt64 && x - Two64 <= MaxInt64 ==> r == x - Two64
    ensures x < MinInt64 && x + Two64 >= MinInt64 ==> r == x + Two64
  {
    (x - MinInt64) % Two64 + MinInt64
  }

  /** Two Int64 values that agree modulo 2^64 are equal. */
  lemma CongruentEqual(a: Int64, b: Int64)
    requires (a - b) % Two64 == 0
    ensures a == b
  {
  }

  /** Wrapping is compatible with congruence: two exact values that agree
      modulo 2^64 wrap to the same Int64, and conversely. */
  lemma WrapCongruent(x: int, y: int)
    ensures Wrap(x) == Wrap(y) <==> (x - y) % Two64 == 0
  {
    var a, b := Wrap(x), Wrap(y);
    assert x == a + Two64 * ((x - a) / Two64);
    assert y == b + Two64 * ((y - b) / Two64);
    if (x - y) % Two64 == 0 {
      assert a - b == (x - y) - Two64 * ((x - a) / Two64) + Two64 * ((y - b) / Two64);
      CongruentEqual(a, b);
    }
  }

  /** In Go, `y == target - x` holds exactly when `x + y == target`: both
      mean the exact sum agrees with target modulo 2^64. */
  lemma ComplementIff(x: Int64, y: Int64, target: Int64)
    ensures y == Wrap(target as int - x) <==> Wrap(x as int + y) == target
  {
    WrapCongruent(target - x, y);
    WrapCongruent(x + y, target);
  }
}

=== FILE: gorm_domain.dfy ===
/** The GORM hook exercise of Task3-DbDriver/gorm/domain.go: a post's
    AfterCreate counts it for its author, a comment's AfterDelete
    recomputes its post's comment count and status, and DeleteComment loads
    the row before deleting it. This schema has no soft delete. Every
    `Update` and `Updates` on users or posts also sets updated_at; times are
    an explicit `now`. */
module GormDomain {
  import opened Wrappers

  datatype User = User(id: nat, name: string, email: string, postCount: int, createdAt: int, updatedAt: int)
  datatype Post = Post(id: nat, title: string, content: string, commentCount: int, commentStatus: string,
                       userId: nat, createdAt: int, updatedAt: int)
  datatype Comment = Comment(id: nat, content: string, author: string, postId: nat, createdAt: int)

  /** The three tables and their next auto-increment ids. */
  datatype Store = Store(users: map<nat, User>, posts: map<nat, Post>, comments: map<nat, Comment>,
                         nextUserId: nat, nextPostId: nat, nextCommentId: nat)

  datatype Error = NotFound | ForeignKeyViolation

  /** The comment_status values; the first is the column default. */
  const NoComments := "无评论"
  const HasComments := "有评论"

  /** The comments referencing a post. */
  function CommentsOn(s: Store, pid: nat): (ids: set<nat>)
    ensures forall id :: id in ids <==> id in s.comments && s.comments[id].postId == pid
  {
    set id | id in s.comments && s.comments[id].postId == pid
  }

  /** The posts of a user. */
  function PostsOf(s: Store, uid: nat): (ids: set<nat>)
    ensures forall id :: id in ids <==> id in s.posts && s.posts[id].userId == uid
  {
    set id | id in s.posts && s.posts[id].userId == uid
  }

  /** A post whose count and status describe the comments it has. */
  ghost predicate Reconciled(s: Store, pid: nat)
    requires pid in s.posts
  {
    && s.posts[pid].commentCount == |CommentsOn(s, pid)|
    && s.posts[pid].commentStatus == (if |CommentsOn(s, pid)| == 0 then NoComments else HasComments)
  }

  /** Every user's post_count counts its posts. */
  ghost predicate PostCountsAgree(s: Store)
  {
    forall uid | uid in s.users :: s.users[uid].postCount == |PostsOf(s, uid)|
  }

  /** Rows live below their table's next id. */
  ghost predicate Allocated(s: Store)
  {
    && (forall id | id in s.users :: id < s.nextUserId)
    && (forall id | id in s.posts :: id < s.nextPostId)
    && (forall id | id in s.comments :: id < s.nextCommentId)
  }

  /** Post.AfterCreate: `UPDATE users SET post_count = post_count + 1,
      updated_at = now WHERE id = ?` for the post's author, and nothing
      else. */
  function PostAfterCreate(s: Store, p: Post, now: int): (r: Store)
    ensures r == s.(users := r.users) && r.users.Keys == s.users.Keys
    ensures forall id | id in s.users && id != p.userId :: r.users[id] == s.users[id]
    ensures p.userId in s.users ==>
              r.users[p.userId] == s.users[p.userId].(postCount := s.users[p.userId].postCount + 1, updatedAt := now)
  {
    if p.userId in s.users then
      s.(users := s.users[p.userId := s.users[p.userId].(postCount := s.users[p.userId].postCount + 1, updatedAt := now)])
    else s
  }

  /** Creating a post at time now: the author must exist; the post starts
      with no comments and the default status, and AfterCreate counts it
      and stamps the author. */
  function CreatePost(s: Store, title: string, content: string, userId: nat, now: int): (r: Result<(Store, Post), Error>)
    ensures r.Success? <==> userId in s.users
    ensures r.Failure? ==> r.error == ForeignKeyViolation
    ensures r.Success? ==>
      var (s', p) := r.value;
      && p == Post(s.nextPostId, title, content, 0, NoComments, userId, now, now)
      && s'.posts == s.posts[p.id := p] && s'.comments == s.comments && s'.nextPostId == s.nextPostId + 1
      && s'.users.Keys == s.users.Keys
      && s'.users[userId] == s.users[userId].(postCount := s.users[userId].postCount + 1, updatedAt := now)
      && (forall id | id in s.users && id != userId :: s'.users[id] == s.users[id])
  {
    if userId !in s.users then Failure(ForeignKeyViolation)
    else
      var p := Post(s.nextPostId, title, content, 0, NoComments, userId, now, now);
      Success((PostAfterCreate(s.(posts := s.posts[p.id := p], nextPostId := s.nextPostId + 1), p, now), p))
  }

  lemma CreatePostPreserves(s: Store, title: string, content: string, userId: nat, now: int)
    requires Allocated(s) && PostCountsAgree(s)
    ensures var r := CreatePost(s, title, content, userId, now);
            r.Success? ==> Allocated(r.value.0) && PostCountsAgree(r.value.0)
  {
    var r := CreatePost(s, title, content, userId, now);
    if r.Success? {
      var (s', p) := r.value;
      assert p.id !in s.posts;
      forall uid | uid in s'.users
        ensures s'.users[uid].postCount == |PostsOf(s', uid)|
      {
        PostsOfInsert(s, s', p, uid);
      }
    }
  }

  lemma PostsOfInsert(s: Store, s': Store, p: Post, uid: nat)
    requires p.id !in s.posts && s'.posts == s.posts[p.id := p]
    ensures |PostsOf(s', uid)| == |PostsOf(s, uid)| + (if p.userId == uid then 1 else 0)
  {
    if p.userId == uid {
      assert PostsOf(s', uid) == PostsOf(s, uid) + {p.id};
    } else {
      assert PostsOf(s', uid) == PostsOf(s, uid);
    }
  }

  /** Creating a comment: its post must exist. There is no comment create
      hook, so no post's count or status moves. */
  function CreateComment(s: Store, content: string, author: string, postId: nat, now: int)
    : (r: Result<(Store, Comment), Error>)
    ensures r.Success? <==> postId in s.posts
    ensures r.Failure? ==> r.error == ForeignKeyViolation
    ensures r.Success? ==>
      var (s', c) := r.value;
      && c == Comment(s.nextCommentId, content, author, postId, now)
      && s'.comments == s.comments[c.id := c] && s'.posts == s.posts && s'.users == s.users
  {
    if postId !in s.posts then Failure(ForeignKeyViolation)
    else
      var c := Comment(s.nextCommentId, content, author, postId, now);
      Success((s.(comments := s.comments[c.id := c], nextCommentId := s.nextCommentId + 1), c))
  }

  /** A fresh post with one comment still reports none: the count waits
      for a delete to reconcile it. */
  lemma CreateCommentLeavesCountStale()
    ensures var s := Store(map[1 := User(1, "u", "e", 0, 0, 0)], map[], map[], 2, 1, 1);
            var p := CreatePost(s, "t", "c", 1, 1);
            p.Success? &&
            var c := CreateComment(p.value.0, "hi", "a", p.value.1.id, 2);
            && c.Success? && Reconciled(p.value.0, 1)
            && c.value.0.posts[1].commentCount == 0 && !Reconciled(c.value.0, 1)
  {
    var s := Store(map[1 := User(1, "u", "e", 0, 0, 0)], map[], map[], 2, 1, 1);
    var p := CreatePost(s, "t", "c", 1, 1);
    assert CommentsOn(p.value.0, 1) == {};
    var c := CreateComment(p.value.0, "hi", "a", p.value.1.id, 2);
    assert 1 in CommentsOn(c.value.0, 1);
  }

  /** Comment.AfterDelete: counts the comments still referencing the
      deleted comment's post and writes that count, with "无评论" for zero
      and "有评论" otherwise, and updated_at now, to that post alone. */
  function CommentAfterDelete(s: Store, c: Comment, now: int): (r: Store)
    ensures r == s.(posts := r.posts) && r.posts.Keys == s.posts.Keys
    ensures forall id | id in s.posts && id != c.postId :: r.posts[id] == s.posts[id]
    ensures c.postId in s.posts ==> Reconciled(r, c.postId)
    ensures c.postId in s.posts ==>
              r.posts[c.postId] == s.posts[c.postId].(commentCount := r.posts[c.postId].commentCount,
                                                      commentStatus := r.posts[c.postId].commentStatus,
                                                      updatedAt := now)
  {
    var n := |CommentsOn(s, c.postId)|;
    if c.postId in s.posts then
      var p := s.posts[c.postId];
      var r := s.(posts := s.posts[c.postId := p.(commentCount := n,
                                                  commentStatus := if n == 0 then NoComments else HasComments,
                                                  updatedAt := now)]);
      assert CommentsOn(r, c.postId) == CommentsOn(s, c.postId);
      r
    else s
  }

  /** BlogManager.DeleteComment: loads the comment first, so a missing id
      is NotFound and changes nothing; otherwise the row goes and the hook
      sees its real post id. */
  function DeleteComment(s: Store, commentId: nat, now: int): (r: Result<Store, Error>)
    ensures r.Failure? <==> commentId !in s.comments
    ensures r.Failure? ==> r.error == NotFound
    ensures r.Success? ==>
      var c := s.comments[commentId];
      && r.value.comments == s.comments - {commentId} && r.value.users == s.users
      && r.value.posts.Keys == s.posts.Keys
      && (forall id | id in s.posts && id != c.postId :: r.value.posts[id] == s.posts[id])
      && (c.postId in s.posts ==> Reconciled(r.value, c.postId))
      && (c.postId in s.posts ==> r.value.posts[c.postId].updatedAt == now)
  {
    if commentId !in s.comments then Failure(NotFound)
    else Success(CommentAfterDelete(s.(comments := s.comments - {commentId}), s.comments[commentId], now))
  }

  /** Deleting a comment keeps every reconciled post reconciled, and the
      comment's own post becomes reconciled whatever it said before. */
  lemma DeleteCommentReconciles(s: Store, commentId: nat, pid: nat, now: int)
    requires pid in s.posts
    ensures var r := DeleteComment(s, commentId, now);
            r.Success? && (Reconciled(s, pid) || pid == s.comments[commentId].postId) ==> Reconciled(r.value, pid)
  {
    var r := DeleteComment(s, commentId, now);
    if r.Success? && pid != s.comments[commentId].postId {
      assert CommentsOn(r.value, pid) == CommentsOn(s, pid);
    }
  }

  /** Post counts are untouched by comment deletion. */
  lemma DeleteCommentKeepsPostCounts(s: Store, commentId: nat, now: int)
    requires PostCountsAgree(s)
    ensures var r := DeleteComment(s, commentId, now);
            r.Success? ==> PostCountsAgree(r.value)
  {
    var r := DeleteComment(s, commentId, now);
    if r.Success? {
      assert forall uid :: PostsOf(r.value, uid) == PostsOf(s, uid);
    }
  }
}

=== FILE: ledger.dfy ===
/** The transfer engine of Task3-DbDriver/sql/transaction.go: accounts with
    balances in cents, an append-only log of transfer records, and the
    database transaction that moves an amount between two accounts.
    Each operation is one atomic step from a ledger state to a new one. */
module Ledger {
  import opened Wrappers
  import Seqs

  type AccountId = int

  /** A row of the accounts table. */
  datatype Account = Account(id: AccountId, balance: int)

  /** A row of the transactions table. */
  datatype Record = Record(id: int, from: AccountId, to: AccountId, amount: int, createdAt: int)

  /** Both tables plus the two AUTO_INCREMENT counters. */
  datatype Ledger = Ledger(
    balances: map<AccountId, int>,
    log: seq<Record>,
    nextAccountId: AccountId,
    nextRecordId: int)

  /** Which storage call, if any, reports an error during a transfer. */
  datatype StoreFault = NoFault | BeginFails | DebitFails | CreditFails | InsertFails | CommitFails

  datatype TransferError =
    | BeginFailed
    | SourceMissing(id: AccountId)
    | InsufficientFunds(id: AccountId, have: int, need: int)
    | DestinationMissing(id: AccountId)
    | DebitFailed
    | CreditFailed
    | RecordFailed
    | CommitFailed
    | InvalidAmount(amount: int)

  /** The state after a call and the error it returned, if any. */
  datatype Step = Step(ledger: Ledger, error: Option<TransferError>)

  /** Ids come from the counters: every account id and record id was handed
      out before, and records are logged in increasing id order. */
  ghost predicate Valid(l: Ledger)
  {
    && l.nextAccountId >= 1
    && l.nextRecordId >= 1
    && (forall id | id in l.balances :: 1 <= id < l.nextAccountId)
    && (forall i | 0 <= i < |l.log| :: 1 <= l.log[i].id < l.nextRecordId)
    && (forall i, j | 0 <= i < j < |l.log| :: l.log[i].id < l.log[j].id)
  }

  ghost predicate NonNegative(m: map<AccountId, int>)
  {
    forall id | id in m :: m[id] >= 0
  }

  /** The sum of all balances. */
  ghost function Total(m: map<AccountId, int>): int
    decreases |m|
  {
    if |m| == 0 then 0
    else
      var k := Pick(m);
      assert |m - {k}| < |m| by { assert (m - {k}).Keys == m.Keys - {k}; }
      m[k] + Total(m - {k})
  }

  /** Some key of a non-empty map. */
  ghost function Pick(m: map<AccountId, int>): (k: AccountId)
    requires |m| != 0
    ensures k in m
  {
    NonEmptyHasKey(m);
    var k :| k in m;
    k
  }

  lemma NonEmptyHasKey(m: map<AccountId, int>)
    requires |m| != 0
    ensures exists k :: k in m
  {
    if forall k :: k !in m {
      assert false;
    }
  }

  lemma {:induction false} TotalRemove(m: map<AccountId, int>, k: AccountId)
    requires k in m
    ensures Total(m) == m[k] + Total(m - {k})
    decreases |m|
  {
    var j := Pick(m);
    if j != k {
      var mj, mk := m - {j}, m - {k};
      assert |mj| < |m| by { assert mj.Keys == m.Keys - {j}; }
      assert |mk| < |m| by { assert mk.Keys == m.Keys - {k}; }
      assert k in mj && mj[k] == m[k];
      assert j in mk && mk[j] == m[j];
      TotalRemove(mj, k);
      TotalRemove(mk, j);
      assert mj - {k} == mk - {j};
    }
  }

  lemma TotalUpdate(m: map<AccountId, int>, k: AccountId, v: int)
    ensures k in m ==> Total(m[k := v]) == Total(m) - m[k] + v
    ensures k !in m ==> Total(m[k := v]) == Total(m) + v
  {
    TotalRemove(m[k := v], k);
    if k in m {
      TotalRemove(m, k);
      assert m[k := v] - {k} == m - {k};
    } else {
      assert m[k := v] - {k} == m;
    }
  }

  /** CreateAccount: inserts a row with the next id and the given balance.
      The insert may fail, in which case nothing changes. There is no guard
      on the sign of the initial balance. */
  function CreateAccount(l: Ledger, initialBalance: int, insertFails: bool): (r: (Ledger, Option<Account>))
    requires Valid(l)
    ensures insertFails ==> r == (l, None)
    ensures !insertFails ==>
      && r.1 == Some(Account(l.nextAccountId, initialBalance))
      && r.1.value.id !in l.balances
      && r.0.balances.Keys == l.balances.Keys + {r.1.value.id}
      && r.0.balances[r.1.value.id] == initialBalance
      && (forall id | id in l.balances :: r.0.balances[id] == l.balances[id])
      && r.0.log == l.log
    ensures Valid(r.0)
  {
    if insertFails then (l, None)
    else
      var id := l.nextAccountId;
      (l.(balances := l.balances[id := initialBalance], nextAccountId := id + 1),
       Some(Account(id, initialBalance)))
  }

  /** GetAccount: the row with that id, or the not-found error as None. */
  function GetAccount(l: Ledger, id: AccountId): (r: Option<Account>)
    ensures r.Some? <==> id in l.balances
    ensures r.Some? ==> r.value.id == id && r.value.balance == l.balances[id]
  {
    if id in l.balances then Some(Account(id, l.balances[id])) else None
  }

  /** An account just created is found by its returned id with its initial
      balance, and every other id finds what it found before. */
  lemma CreateThenGetAccount(l: Ledger, initialBalance: int)
    requires Valid(l)
    ensures var (l', a) := CreateAccount(l, initialBalance, false);
            && a.Some?
            && GetAccount(l', a.value.id) == Some(Account(a.value.id, initialBalance))
            && (forall id | id != a.value.id :: GetAccount(l', id) == GetAccount(l, id))
  {
  }

  /** ClearAllTransferData: deletes every record and then every account in
      one transaction. DELETE FROM leaves the auto-increment counters where
      they were, so ids handed out afterwards continue from them. */
  function ClearAll(l: Ledger): (r: Ledger)
    requires Valid(l)
    ensures r.balances == map[] && r.log == []
    ensures r.nextAccountId == l.nextAccountId && r.nextRecordId == l.nextRecordId
    ensures Valid(r)
  {
    l.(balances := map[], log := [])
  }

  /** Transfer: begin a transaction; load the source (error if missing);
      compare its balance with the amount; load the destination (error if
      missing); debit, credit, insert the record, commit. Any error rolls the
      whole transaction back, so the state is unchanged. The source balance is
      checked before the destination is looked up, the amount's sign is never
      checked, and a transfer to the same account is not special-cased. */
  function Transfer(l: Ledger, from: AccountId, to: AccountId, amount: int, now: int, fault: StoreFault): (s: Step)
    ensures s.error.Some? ==> s.ledger == l
    ensures s.error.None? <==>
      fault == NoFault && from in l.balances && amount <= l.balances[from] && to in l.balances
    ensures fault == BeginFails ==> s.error == Some(BeginFailed)
    ensures fault != BeginFails && from !in l.balances ==> s.error == Some(SourceMissing(from))
    ensures fault != BeginFails && from in l.balances && l.balances[from] < amount ==>
      s.error == Some(InsufficientFunds(from, l.balances[from], amount))
    ensures fault != BeginFails && from in l.balances && amount <= l.balances[from] && to !in l.balances ==>
      s.error == Some(DestinationMissing(to))
    ensures s.error.None? ==>
      && s.ledger.balances.Keys == l.balances.Keys
      && (from != to ==> s.ledger.balances[from] == l.balances[from] - amount)
      && (from != to ==> s.ledger.balances[to] == l.balances[to] + amount)
      && (from == to ==> s.ledger.balances == l.balances)
      && (forall id | id in l.balances && id != from && id != to :: s.ledger.balances[id] == l.balances[id])
      && s.ledger.log == l.log + [Record(l.nextRecordId, from, to, amount, now)]
      && s.ledger.nextRecordId == l.nextRecordId + 1
      && s.ledger.nextAccountId == l.nextAccountId
  {
    if fault == BeginFails then Step(l, Some(BeginFailed))
    else if from !in l.balances then Step(l, Some(SourceMissing(from)))
    else if l.balances[from] < amount then Step(l, Some(InsufficientFunds(from, l.balances[from], amount)))
    else if to !in l.balances then Step(l, Some(DestinationMissing(to)))
    else if fault == DebitFails then Step(l, Some(DebitFailed))
    else if fault == CreditFails then Step(l, Some(CreditFailed))
    else if fault == InsertFails then Step(l, Some(RecordFailed))
    else if fault == CommitFails then Step(l, Some(CommitFailed))
    else
      assert fault.NoFault?;
      var debited := l.balances[from := l.balances[from] - amount];
      var credited := debited[to := debited[to] + amount];
      var rec := Record(l.nextRecordId, from, to, amount, now);
      Step(Ledger(credited, l.log + [rec], l.nextAccountId, l.nextRecordId + 1), None)
  }

  /** Conservation: a transfer never changes the sum of all balances, and a
      successful one appends exactly one record with a fresh id. */
  lemma TransferConserves(l: Ledger, from: AccountId, to: AccountId, amount: int, now: int, fault: StoreFault)
    requires Valid(l)
    ensures var s := Transfer(l, from, to, amount, now, fault);
      && Total(s.ledger.balances) == Total(l.balances)
      && Valid(s.ledger)
      && |s.ledger.log| == |l.log| + (if s.error.None? then 1 else 0)
      && (s.error.None? ==> forall i | 0 <= i < |l.log| :: l.log[i].id != s.ledger.log[|l.log|].id)
  {
    var s := Transfer(l, from, to, amount, now, fault);
    if s.error.None? {
      if from != to {
        MoveIsTwoUpdates(l.balances, s.ledger.balances, from, to, amount);
        MoveTotal(l.balances, from, to, amount);
      }
      AppendRecordValid(l, s.ledger.balances, Record(l.nextRecordId, from, to, amount, now));
    }
  }

  /** Moving an amount between two distinct accounts, and nothing else,
      keeps the sum. */
  lemma MoveTotal(m: map<AccountId, int>, from: AccountId, to: AccountId, amount: int)
    requires from in m && to in m && from != to
    ensures Total(m[from := m[from] - amount][to := m[to] + amount]) == Total(m)
  {
    var debited := m[from := m[from] - amount];
    TotalUpdate(m, from, m[from] - amount);
    TotalUpdate(debited, to, m[to] + amount);
  }

  lemma MoveIsTwoUpdates(m: map<AccountId, int>, m': map<AccountId, int>, from: AccountId, to: AccountId, amount: int)
    requires from in m && to in m && from != to && m'.Keys == m.Keys
    requires m'[from] == m[from] - amount && m'[to] == m[to] + amount
    requires forall id | id in m && id != from && id != to :: m'[id] == m[id]
    ensures m' == m[from := m[from] - amount][to := m[to] + amount]
  {
    var n := m[from := m[from] - amount][to := m[to] + amount];
    assert n.Keys == m'.Keys;
    forall id | id in m'
      ensures m'[id] == n[id]
    {
    }
  }

  /** Logging a record under the next record id, with the same accounts,
      keeps the ids consistent. */
  lemma AppendRecordValid(l: Ledger, balances: map<AccountId, int>, rec: Record)
    requires Valid(l) && balances.Keys == l.balances.Keys && rec.id == l.nextRecordId
    ensures Valid(Ledger(balances, l.log + [rec], l.nextAccountId, l.nextRecordId + 1))
  {
    var log := l.log + [rec];
    assert forall i | 0 <= i < |l.log| :: log[i] == l.log[i];
  }

  /** GetTransactionHistory: every logged record, newest first. */
  function History(l: Ledger): (h: seq<Record>)
    ensures multiset(h) == multiset(l.log)
    ensures forall i, j | 0 <= i < j < |h| :: h[i].createdAt >= h[j].createdAt
  {
    var key := (r: Record) => -r.createdAt;
    var h := Seqs.SortBy(l.log, key);
    assert forall i, j | 0 <= i < j < |h| :: key(h[i]) <= key(h[j]);
    h
  }

  /** One call of Transfer as a caller would issue it. */
  datatype Request = Request(from: AccountId, to: AccountId, amount: int, now: int, fault: StoreFault)

  /** Issues the requests one after another, each on the state the previous left. */
  function Run(l: Ledger, reqs: seq<Request>): Ledger
    decreases |reqs|
  {
    if |reqs| == 0 then l
    else
      var q := reqs[0];
      Run(Transfer(l, q.from, q.to, q.amount, q.now, q.fault).ledger, reqs[1..])
  }

  /** Conservation over any sequence of transfers, successful or not. */
  lemma {:induction false} RunConserves(l: Ledger, reqs: seq<Request>)
    requires Valid(l)
    ensures Total(Run(l, reqs).balances) == Total(l.balances)
    ensures Run(l, reqs).balances.Keys == l.balances.Keys
    ensures Valid(Run(l, reqs))
    decreases |reqs|
  {
    if |reqs| > 0 {
      var q := reqs[0];
      TransferConserves(l, q.from, q.to, q.amount, q.now, q.fault);
      RunConserves(Transfer(l, q.from, q.to, q.amount, q.now, q.fault).ledger, reqs[1..]);
    }
  }

  /** n identical transfers issued one after another; also counts the successes. */
  function Repeat(l: Ledger, from: AccountId, to: AccountId, amount: int, now: int, n: nat): (r: (Ledger, nat))
    ensures r.0.balances.Keys == l.balances.Keys
    ensures r.1 <= n
    decreases n
  {
    if n == 0 then (l, 0)
    else
      var s := Transfer(l, from, to, amount, now, NoFault);
      var rest := Repeat(s.ledger, from, to, amount, now, n - 1);
      (rest.0, rest.1 + (if s.error.None? then 1 else 0))
  }

  /** Exhaustion: n transfers of a positive amount from an account holding b
      succeed k times, where k is n when n * amount fits in b and otherwise
      the largest k whose k * amount fits; the source ends with b - k * amount,
      the destination gains the same, and the log grows by k records. */
  lemma {:induction false} RepeatExhausts(l: Ledger, from: AccountId, to: AccountId, amount: int, now: int, n: nat)
    requires from in l.balances && to in l.balances && from != to
    requires amount > 0 && l.balances[from] >= 0
    ensures var r := Repeat(l, from, to, amount, now, n);
      && r.0.balances[from] == l.balances[from] - Mul(amount, r.1)
      && r.0.balances[to] == l.balances[to] + Mul(amount, r.1)
      && r.0.balances[from] >= 0
      && (r.1 == n || r.0.balances[from] < amount)
      && |r.0.log| == |l.log| + r.1
    decreases n
  {
    if n > 0 {
      if amount <= l.balances[from] {
        var next := RepeatAdvance(l, from, to, amount, now, n);
        RepeatExhausts(next, from, to, amount, now, n - 1);
      } else {
        RepeatStuck(l, from, to, amount, now, n);
      }
    }
  }

  /** k copies of a added up: the total k transfers of a move. */
  function Mul(a: int, k: nat): (r: int)
    decreases k
  {
    if k == 0 then 0 else Mul(a, k - 1) + a
  }

  lemma {:induction false} MulIsProduct(a: int, k: nat)
    ensures Mul(a, k) == a * k
    decreases k
  {
    if k > 0 {
      MulIsProduct(a, k - 1);
    }
  }

  /** A covered transfer succeeds, and the remaining n - 1 run from the
      state it leaves. */
  lemma RepeatAdvance(l: Ledger, from: AccountId, to: AccountId, amount: int, now: int, n: nat) returns (next: Ledger)
    requires from in l.balances && to in l.balances && from != to
    requires amount <= l.balances[from] && n > 0
    ensures next.balances.Keys == l.balances.Keys
    ensures next.balances[from] == l.balances[from] - amount
    ensures next.balances[to] == l.balances[to] + amount
    ensures |next.log| == |l.log| + 1
    ensures var rest := Repeat(next, from, to, amount, now, n - 1);
      Repeat(l, from, to, amount, now, n) == (rest.0, rest.1 + 1)
  {
    next := Transfer(l, from, to, amount, now, NoFault).ledger;
  }

  /** Once the source cannot cover the amount, every further transfer fails. */
  lemma {:induction false} RepeatStuck(l: Ledger, from: AccountId, to: AccountId, amount: int, now: int, n: nat)
    requires from in l.balances && l.balances[from] < amount
    ensures Repeat(l, from, to, amount, now, n) == (l, 0)
    decreases n
  {
    if n > 0 {
      RepeatStuck(l, from, to, amount, now, n - 1);
    }
  }

  /** The demonstration run at the end of transaction.go, from any earlier
      state: the tables are cleared, then accounts of 500, 300 and 50 are
      created; A pays B 100; C's payment of 100 to A is refused for lack of
      funds without any change; C pays B 30; the log then holds the two
      successful transfers. The accounts are named by the ids CreateAccount
      returns, which continue from the counter the clear left alone. */
  lemma DemoRun(l: Ledger, t1: int, t2: int, t3: int)
    requires Valid(l)
    ensures
      var (l1, a) := CreateAccount(ClearAll(l), 50000, false);
      var (l2, b) := CreateAccount(l1, 30000, false);
      var (l3, c) := CreateAccount(l2, 5000, false);
      var s1 := Transfer(l3, a.value.id, b.value.id, 10000, t1, NoFault);
      var s2 := Transfer(s1.ledger, c.value.id, a.value.id, 10000, t2, NoFault);
      var s3 := Transfer(s2.ledger, c.value.id, b.value.id, 3000, t3, NoFault);
      && a.value.id == l.nextAccountId && b.value.id == a.value.id + 1 && c.value.id == a.value.id + 2
      && s1.error.None?
      && s1.ledger.balances[a.value.id] == 40000 && s1.ledger.balances[b.value.id] == 40000
      && s2.error == Some(InsufficientFunds(c.value.id, 5000, 10000))
      && s2.ledger == s1.ledger
      && s3.error.None?
      && s3.ledger.balances == map[a.value.id := 40000, b.value.id := 43000, c.value.id := 2000]
      && |s3.ledger.log| == 2
  {
  }

  /** The transfer the design intends: a non-positive amount is rejected
      before any storage access, otherwise the call is Transfer. */
  function TransferChecked(l: Ledger, from: AccountId, to: AccountId, amount: int, now: int, fault: StoreFault): (s: Step)
    ensures amount <= 0 ==> s == Step(l, Some(InvalidAmount(amount)))
    ensures amount > 0 ==> s == Transfer(l, from, to, amount, now, fault)
    ensures NonNegative(l.balances) ==> NonNegative(s.ledger.balances)
  {
    if amount <= 0 then Step(l, Some(InvalidAmount(amount)))
    else Transfer(l, from, to, amount, now, fault)
  }

  /** As written, Transfer accepts a negative amount whenever the source
      balance is at least that amount, which moves money from the destination
      to the source and can leave the destination below zero. */
  lemma NegativeAmountOverdrawsDestination()
    ensures var l := Ledger(map[1 := 0, 2 := 0], [], 3, 1);
      var s := Transfer(l, 1, 2, -100, 0, NoFault);
      && NonNegative(l.balances)
      && s.error.None?
      && s.ledger.balances[2] == -100
      && !NonNegative(s.ledger.balances)
  {
  }
}

=== FILE: post_service.dfy ===
/** The post service of Task4-Blog/services/post_service.go over the
    abstract database: creation with its hooks, listing, the partial update,
    ownership, the view counter and deletion. */
module PostService {
  import opened Wrappers
  import opened BlogModels
  import opened GoTypes
  import Seqs
  import Validators

  /** GORM's insert rule for a column that declares a default: a zero value
      is left out of the INSERT, so the column takes its default. */
  function StoredText(value: string, default: string): (r: string)
    ensures value != "" ==> r == value
    ensures value == "" ==> r == default
  {
    if value == "" then default else value
  }

  function StoredFlag(value: bool, default: bool): (r: bool)
    ensures value ==> r
    ensures !value ==> r == default
  {
    if value then value else default
  }

  /** The unique index on slug already holds slug for a row other than
      self: a live post, or a deleted one, whose slug equals it under the
      collation. */
  predicate SlugTaken(db: Db, slug: string, self: nat)
  {
    || (exists id | id in db.posts :: id != self && SameText(db.posts[id].slug, slug))
    || (exists d | d in db.deletedSlugs :: SameText(d, slug))
  }

  /** The row CreatePost inserts, before BeforeCreate runs, given the
      is_public value actually stored. */
  function NewPost(db: Db, userId: nat, title: string, content: Bytes, summary: Bytes, slug: string,
                   status: string, isPublic: bool, now: int): Post
  {
    Post(db.nextPostId, title, content, summary, slug, StoredText(status, StatusDraft), isPublic,
         0, 0, 0, None, now, now, userId)
  }

  /** `db.Create(post)` at time now: BeforeCreate, the INSERT under its
      foreign-key and unique-slug constraints, then AfterCreate. */
  function InsertPost(db: Db, row: Post, now: int): (r: Result<(Db, Post), DbError>)
  {
    var p := PostBeforeCreate(row);
    if !(0 < p.userId < db.nextUserId) then Failure(ForeignKeyViolation)
    else if SlugTaken(db, p.slug, p.id) then Failure(DuplicateKey)
    else
      var inserted := db.(posts := db.posts[p.id := p], nextPostId := db.nextPostId + 1);
      Success((PostAfterCreate(inserted, p, now), p))
  }

  /** CreatePost as written: is_public is a plain bool under `default:true`,
      so a false request value is never stored. */
  function CreatePostAsWritten(db: Db, userId: nat, title: string, content: Bytes, summary: Bytes, slug: string,
                               status: string, isPublic: bool, now: int): (r: Result<(Db, Post), DbError>)
    ensures r.Success? ==> r.value.1.isPublic
  {
    InsertPost(db, NewPost(db, userId, title, content, summary, slug, status, StoredFlag(isPublic, true), now), now)
  }

  /** A private post requested from CreatePost as written comes out public. */
  lemma PrivatePostStoredPublic()
    ensures var db := EmptyDb.(users := map[1 := NoUser.(id := 1)], nextUserId := 2);
            var r := CreatePostAsWritten(db, 1, "t", [], [], "s", "", false, 0);
            r.Success? && r.value.1.isPublic
  {
  }

  /** CreatePost: inserts a post by userId with the requested fields, an
      empty status becoming "draft" and an empty summary derived from the
      content; the author's post_count goes up by one and the author's
      updated_at becomes now. It fails, changing nothing, when the author id
      was never allocated or the slug is already in the unique index. */
  function CreatePost(db: Db, userId: nat, title: string, content: Bytes, summary: Bytes, slug: string,
                      status: string, isPublic: bool, now: int): (r: Result<(Db, Post), DbError>)
    ensures r.Success? <==> 0 < userId < db.nextUserId && !SlugTaken(db, slug, db.nextPostId)
    ensures !(0 < userId < db.nextUserId) ==> r == Failure(ForeignKeyViolation)
    ensures r.Success? ==>
      var (db', p) := r.value;
      && p.id == db.nextPostId && p.userId == userId && p.title == title && p.content == content
      && p.slug == slug && p.isPublic == isPublic
      && p.status == (if status == "" then StatusDraft else status)
      && p.summary == (if summary == [] then AutoSummary(content) else summary)
      && p.viewCount == 0 && p.likeCount == 0 && p.commentCount == 0 && p.publishedAt == None
      && p.createdAt == now && p.updatedAt == now
      && db'.posts == db.posts[p.id := p] && db'.nextPostId == db.nextPostId + 1
      && db'.comments == db.comments && db'.nextUserId == db.nextUserId && db'.nextCommentId == db.nextCommentId
      && db'.deletedSlugs == db.deletedSlugs && db'.users.Keys == db.users.Keys
      && (forall id | id in db.users ::
            db'.users[id] == db.users[id].(postCount := db.users[id].postCount + (if id == userId then 1 else 0),
                                           updatedAt := if id == userId then now else db.users[id].updatedAt))
  {
    InsertPost(db, NewPost(db, userId, title, content, summary, slug, status, isPublic, now), now)
  }

  /** CreatePost keeps the database well formed and every counter equal to
      what it counts. */
  lemma CreatePostPreserves(db: Db, userId: nat, title: string, content: Bytes, summary: Bytes, slug: string,
                            status: string, isPublic: bool, now: int)
    requires Valid(db) && CountersAgree(db)
    ensures var r := CreatePost(db, userId, title, content, summary, slug, status, isPublic, now);
            r.Success? ==> Valid(r.value.0) && CountersAgree(r.value.0)
  {
    var r := CreatePost(db, userId, title, content, summary, slug, status, isPublic, now);
    if r.Success? {
      var (db', p) := r.value;
      var inserted := db.(posts := db.posts[p.id := p]);
      assert p.id !in db.posts;
      forall uid | uid in db'.users
        ensures db'.users[uid].postCount == |PostsBy(db', uid)|
      {
        PostsByInsert(db, p, uid);
        assert PostsBy(db', uid) == PostsBy(inserted, uid);
      }
      forall pid | pid in db'.posts
        ensures db'.posts[pid].commentCount == |ApprovedOn(db', pid)|
      {
        assert ApprovedOn(db', pid) == ApprovedOn(db, pid);
        if pid == p.id {
          assert ApprovedOn(db, pid) == {};
        }
      }
    }
  }

  /** GetPostByID: the live post with its author and its comments (replies
      included, in insertion order) preloaded, or RecordNotFound. */
  function GetPostById(db: Db, postId: nat): (r: Result<(Post, User, seq<Comment>), DbError>)
    ensures r.Success? <==> postId in db.posts
    ensures r.Failure? ==> r.error == RecordNotFound
    ensures r.Success? ==> r.value.0 == db.posts[postId] && r.value.1 == AuthorOf(db, r.value.0)
    ensures r.Success? ==>
      && (forall k | 0 <= k < |r.value.2| :: r.value.2[k] in db.comments.Values && r.value.2[k].postId == r.value.0.id)
      && (forall id | id in db.comments && id < db.nextCommentId && db.comments[id].postId == r.value.0.id ::
            db.comments[id] in r.value.2)
  {
    if postId !in db.posts then Failure(RecordNotFound)
    else
      var p := db.posts[postId];
      Success((p, AuthorOf(db, p), Seqs.RowsWhere(db.comments, db.nextCommentId, (c: Comment) => c.postId == p.id)))
  }

  /** A created post reads back as stored, by its author, with no comments. */
  lemma CreateThenGetPost(db: Db, userId: nat, title: string, content: Bytes, summary: Bytes, slug: string,
                          status: string, isPublic: bool, now: int)
    requires Valid(db)
    ensures var r := CreatePost(db, userId, title, content, summary, slug, status, isPublic, now);
            r.Success? ==>
              var (db', p) := r.value;
              var g := GetPostById(db', p.id);
              && g.Success? && g.value.0 == p && g.value.2 == []
              && (userId in db.users ==> g.value.1 == db'.users[userId])
  {
    var r := CreatePost(db, userId, title, content, summary, slug, status, isPublic, now);
    if r.Success? {
      var (db', p) := r.value;
      var keep := (c: Comment) => c.postId == p.id;
      assert Seqs.KeysBelow(db'.comments, db'.nextCommentId, keep) == {};
    }
  }

  /** The condition GetPosts and GetUserPosts put on a row; the status
      comparison runs in the database, under its collation. */
  predicate Matches(p: Post, author: Option<nat>, status: string)
  {
    (author.None? || p.userId == author.value) && (status == "" || SameText(p.status, status))
  }

  /** The user a post's author association loads as. */
  function AuthorOf(db: Db, p: Post): User
  {
    if p.userId in db.users then db.users[p.userId] else NoUser
  }

  /** The live posts that match. */
  ghost function MatchingIds(db: Db, author: Option<nat>, status: string): set<nat>
  {
    set id | id in db.posts && Matches(db.posts[id], author, status)
  }

  lemma AllBelowNext(db: Db, author: Option<nat>, status: string)
    ensures Valid(db) ==>
      Seqs.KeysBelow(db.posts, db.nextPostId, (p: Post) => Matches(p, author, status)) == MatchingIds(db, author, status)
  {
  }

  /** The rows GetPosts and GetUserPosts show: the page at offset
      (page - 1) * pageSize of at most pageSize live matching posts, newest
      first. */
  function PostPage(db: Db, author: Option<nat>, page: int, pageSize: int, status: string): (rows: seq<Post>)
    ensures pageSize >= 0 ==> |rows| <= pageSize
    ensures forall k | 0 <= k < |rows| :: rows[k] in db.posts.Values && Matches(rows[k], author, status)
    ensures forall i, j | 0 <= i < j < |rows| :: rows[i].createdAt >= rows[j].createdAt
  {
    var matching := Seqs.RowsWhere(db.posts, db.nextPostId, (p: Post) => Matches(p, author, status));
    Seqs.NewestPage(matching, (p: Post) => p.createdAt, page, pageSize)
  }

  /** GetPosts / GetUserPosts: the page's posts as responses with their
      authors, in page order, and the total number of matching posts. */
  function ListPosts(db: Db, author: Option<nat>, page: int, pageSize: int, status: string): (r: (seq<PostResponse>, nat))
    ensures var rows := PostPage(db, author, page, pageSize, status);
      |r.0| == |rows| && forall k | 0 <= k < |rows| :: r.0[k] == PostToResponse(rows[k], AuthorOf(db, rows[k]))
    ensures pageSize >= 0 ==> |r.0| <= pageSize
    ensures forall i, j | 0 <= i < j < |r.0| :: r.0[i].createdAt >= r.0[j].createdAt
    ensures Valid(db) ==> r.1 == |MatchingIds(db, author, status)|
  {
    (Responses(db, PostPage(db, author, page, pageSize, status)), MatchingCount(db, author, status))
  }

  /** The `Count` query before the page is fetched. */
  function MatchingCount(db: Db, author: Option<nat>, status: string): (n: nat)
    ensures Valid(db) ==> n == |MatchingIds(db, author, status)|
  {
    var matching := Seqs.RowsWhere(db.posts, db.nextPostId, (p: Post) => Matches(p, author, status));
    AllBelowNext(db, author, status);
    |matching|
  }

  /** Each row as a response with its author preloaded. */
  function Responses(db: Db, rows: seq<Post>): (r: seq<PostResponse>)
    ensures |r| == |rows|
    ensures forall k | 0 <= k < |r| :: r[k] == PostToResponse(rows[k], AuthorOf(db, rows[k]))
  {
    seq(|rows|, k requires 0 <= k < |rows| => PostToResponse(rows[k], AuthorOf(db, rows[k])))
  }

  /** Every post GetPosts shows has the requested status, ignoring letter
      case (any status when none is given); one whose author row is present is shown with that
      author, and is a live post of theirs. */
  function GetPosts(db: Db, page: int, pageSize: int, status: string): (r: (seq<PostResponse>, nat))
    ensures pageSize >= 0 ==> |r.0| <= pageSize
    ensures forall k | 0 <= k < |r.0| :: status != "" ==> SameText(r.0[k].status, status)
    ensures Valid(db) ==> forall k | 0 <= k < |r.0| && r.0[k].user.id != 0 ::
              PostFromResponse(r.0[k], r.0[k].user.id) in db.posts.Values
    ensures forall i, j | 0 <= i < j < |r.0| :: r.0[i].createdAt >= r.0[j].createdAt
    ensures Valid(db) ==> r.1 == |MatchingIds(db, None, status)|
  {
    var rows := PostPage(db, None, page, pageSize, status);
    var r := ListPosts(db, None, page, pageSize, status);
    forall k | 0 <= k < |r.0| && Valid(db) && r.0[k].user.id != 0
      ensures PostFromResponse(r.0[k], r.0[k].user.id) in db.posts.Values
    {
      PostResponseKeepsColumns(rows[k], AuthorOf(db, rows[k]));
    }
    r
  }

  /** Every post GetUserPosts shows is a live post of that user with the
      requested status, ignoring letter case (any status when none is
      given). */
  function GetUserPosts(db: Db, userId: nat, page: int, pageSize: int, status: string): (r: (seq<PostResponse>, nat))
    ensures pageSize >= 0 ==> |r.0| <= pageSize
    ensures forall k | 0 <= k < |r.0| :: status != "" ==> SameText(r.0[k].status, status)
    ensures forall k | 0 <= k < |r.0| :: PostFromResponse(r.0[k], userId) in db.posts.Values
    ensures forall i, j | 0 <= i < j < |r.0| :: r.0[i].createdAt >= r.0[j].createdAt
    ensures Valid(db) ==> r.1 == |MatchingIds(db, Some(userId), status)|
  {
    var rows := PostPage(db, Some(userId), page, pageSize, status);
    var r := ListPosts(db, Some(userId), page, pageSize, status);
    forall k | 0 <= k < |r.0|
      ensures PostFromResponse(r.0[k], userId) in db.posts.Values
    {
      PostResponseKeepsColumns(rows[k], AuthorOf(db, rows[k]));
    }
    r
  }

  /** The status filter follows the collation: with one post stored as
      "published", asking for "Published" counts it. */
  lemma StatusFilterIgnoresCase()
    ensures var db := EmptyDb.(users := map[1 := NoUser.(id := 1)], nextUserId := 2,
                               posts := map[1 := NoPost.(id := 1, userId := 1, status := StatusPublished)], nextPostId := 2);
            GetPosts(db, 1, 10, "Published").1 == 1
  {
    var db := EmptyDb.(users := map[1 := NoUser.(id := 1)], nextUserId := 2,
                       posts := map[1 := NoPost.(id := 1, userId := 1, status := StatusPublished)], nextPostId := 2);
    assert Validators.ToLower("Published") == Validators.ToLower(StatusPublished);
    assert MatchingIds(db, None, "Published") == {1};
  }

  /** The fields UpdatePost may change; empty text and None mean "keep". */
  datatype PostPatch = PostPatch(title: string, content: Bytes, summary: Bytes, slug: string, status: string,
                                 isPublic: Option<bool>)

  predicate EmptyPatch(u: PostPatch)
  {
    u.title == "" && u.content == [] && u.summary == [] && u.slug == "" && u.status == "" && u.isPublic.None?
  }

  /** The row after `Updates` with the patch's column map. */
  function Merge(p: Post, u: PostPatch, now: int): (r: Post)
  {
    p.(title := if u.title != "" then u.title else p.title,
       content := if u.content != [] then u.content else p.content,
       summary := if u.summary != [] then u.summary else p.summary,
       slug := if u.slug != "" then u.slug else p.slug,
       status := if u.status != "" then u.status else p.status,
       isPublic := if u.isPublic.Some? then u.isPublic.value else p.isPublic,
       updatedAt := now)
  }

  /** UpdatePost as written: the BeforeUpdate hook sees the row as loaded
      and its publish time is not among the updated columns, so
      published_at never changes. */
  function UpdatePostAsWritten(db: Db, postId: nat, u: PostPatch, now: int): (r: Result<(Db, Post), DbError>)
    ensures r.Success? ==> postId in db.posts && r.value.1.publishedAt == db.posts[postId].publishedAt
  {
    if postId !in db.posts then Failure(RecordNotFound)
    else if EmptyPatch(u) then Success((db, db.posts[postId]))
    else if u.slug != "" && SlugTaken(db, u.slug, postId) then Failure(DuplicateKey)
    else
      var p := Merge(db.posts[postId], u, now);
      Success((db.(posts := db.posts[postId := p]), p))
  }

  /** Publishing an unpublished draft through UpdatePost as written leaves
      it without a publish time. */
  lemma PublishWithoutTimestamp()
    ensures var p := Post(1, "t", [], [], "s", StatusDraft, true, 0, 0, 0, None, 0, 0, 1);
            var db := EmptyDb.(posts := map[1 := p], nextPostId := 2);
            var r := UpdatePostAsWritten(db, 1, PostPatch("", [], [], "", StatusPublished, None), 5);
            r.Success? && r.value.1.status == StatusPublished && r.value.1.publishedAt == None
  {
  }

  /** UpdatePost: a missing post is an error and changes nothing; an empty
      patch changes nothing; otherwise exactly the non-empty fields of the
      patch are written, updated_at becomes now, and a post that is
      published without a publish time gets now as its publish time. */
  function UpdatePost(db: Db, postId: nat, u: PostPatch, now: int): (r: Result<(Db, Post), DbError>)
    ensures postId !in db.posts ==> r == Failure(RecordNotFound)
    ensures r.Failure? ==> r.error == RecordNotFound || r.error == DuplicateKey
    ensures postId in db.posts && EmptyPatch(u) ==> r == Success((db, db.posts[postId]))
    ensures r.Success? ==>
      var (db', p) := r.value;
      var before := db.posts[postId];
      && db' == db.(posts := db.posts[postId := p])
      && p.id == before.id && p.userId == before.userId && p.viewCount == before.viewCount
      && p.likeCount == before.likeCount && p.commentCount == before.commentCount && p.createdAt == before.createdAt
      && (u.title != "" ==> p.title == u.title) && (u.title == "" ==> p.title == before.title)
      && (u.content != [] ==> p.content == u.content) && (u.content == [] ==> p.content == before.content)
      && (u.summary != [] ==> p.summary == u.summary) && (u.summary == [] ==> p.summary == before.summary)
      && (u.slug != "" ==> p.slug == u.slug) && (u.slug == "" ==> p.slug == before.slug)
      && (u.status != "" ==> p.status == u.status) && (u.status == "" ==> p.status == before.status)
      && (u.isPublic.Some? ==> p.isPublic == u.isPublic.value) && (u.isPublic.None? ==> p.isPublic == before.isPublic)
      && (before.publishedAt.Some? ==> p.publishedAt == before.publishedAt)
      && (!EmptyPatch(u) ==> p.updatedAt == now)
      && (!EmptyPatch(u) && before.publishedAt.None? ==>
            p.publishedAt == (if p.status == StatusPublished then Some(now) else None))
  {
    if postId !in db.posts then Failure(RecordNotFound)
    else if EmptyPatch(u) then Success((db, db.posts[postId]))
    else if u.slug != "" && SlugTaken(db, u.slug, postId) then Failure(DuplicateKey)
    else
      var p := PostBeforeUpdate(Merge(db.posts[postId], u, now), now);
      Success((db.(posts := db.posts[postId := p]), p))
  }

  /** Applying the same update twice gives the same database as once. */
  lemma UpdatePostIdempotent(db: Db, postId: nat, u: PostPatch, now: int)
    ensures var r := UpdatePost(db, postId, u, now);
            r.Success? ==> UpdatePost(r.value.0, postId, u, now) == r
  {
    var r := UpdatePost(db, postId, u, now);
    if r.Success? && !EmptyPatch(u) {
      var (db', p) := r.value;
      if u.slug != "" {
        assert !SlugTaken(db', u.slug, postId) by {
          assert forall id | id in db'.posts && id != postId :: db'.posts[id] == db.posts[id];
        }
      }
      assert Merge(p, u, now) == p;
      assert PostBeforeUpdate(p, now) == p;
      assert db'.(posts := db'.posts[postId := p]) == db';
    }
  }

  lemma UpdatePostPreserves(db: Db, postId: nat, u: PostPatch, now: int)
    requires Valid(db) && CountersAgree(db)
    ensures var r := UpdatePost(db, postId, u, now);
            r.Success? ==> Valid(r.value.0) && CountersAgree(r.value.0)
  {
    var r := UpdatePost(db, postId, u, now);
    if r.Success? {
      var (db', p) := r.value;
      forall uid | uid in db'.users
        ensures db'.users[uid].postCount == |PostsBy(db', uid)|
      {
        PostsByReplace(db, p, uid);
      }
      forall pid | pid in db'.posts
        ensures db'.posts[pid].commentCount == |ApprovedOn(db', pid)|
      {
        assert ApprovedOn(db', pid) == ApprovedOn(db, pid);
      }
    }
  }

  /** IsPostOwner: false for a missing post, else whether userId wrote it.
      It agrees with the author column GetPostById loads, and on a valid
      store the id 0 of an absent user owns nothing. */
  function IsPostOwner(db: Db, postId: nat, userId: nat): (r: bool)
    ensures r <==> GetPostById(db, postId).Success? && GetPostById(db, postId).value.0.userId == userId
    ensures Valid(db) && r ==> userId != 0
  {
    postId in db.posts && db.posts[postId].userId == userId
  }

  /** The creator owns a new post, and updates never change a post's owner. */
  lemma OwnershipStable(db: Db, userId: nat, title: string, content: Bytes, summary: Bytes, slug: string,
                        status: string, isPublic: bool, now: int, postId: nat, u: PostPatch, other: nat)
    ensures var r := CreatePost(db, userId, title, content, summary, slug, status, isPublic, now);
            r.Success? ==> IsPostOwner(r.value.0, r.value.1.id, userId)
    ensures var r := UpdatePost(db, postId, u, now);
            r.Success? ==> IsPostOwner(r.value.0, postId, other) == IsPostOwner(db, postId, other)
  {
  }

  /** IncrementViewCount: `view_count + 1` on that post, whose updated_at
      becomes now; a missing post changes nothing. */
  function IncrementViewCount(db: Db, postId: nat, now: int): (r: Db)
    ensures r == db.(posts := r.posts) && r.posts.Keys == db.posts.Keys
    ensures forall id | id in db.posts && id != postId :: r.posts[id] == db.posts[id]
    ensures postId in db.posts ==>
      r.posts[postId] == db.posts[postId].(viewCount := db.posts[postId].viewCount + 1, updatedAt := now)
  {
    if postId in db.posts then
      db.(posts := db.posts[postId := db.posts[postId].(viewCount := db.posts[postId].viewCount + 1, updatedAt := now)])
    else db
  }

  /** A view changes no key or counter, so the store invariants survive. */
  lemma IncrementViewCountPreserves(db: Db, postId: nat, now: int)
    requires Valid(db) && CountersAgree(db)
    ensures var db' := IncrementViewCount(db, postId, now);
            Valid(db') && CountersAgree(db')
  {
    var db' := IncrementViewCount(db, postId, now);
    if postId in db.posts {
      var p := db'.posts[postId];
      forall uid | uid in db'.users
        ensures db'.users[uid].postCount == |PostsBy(db', uid)|
      {
        PostsByReplace(db, p, uid);
      }
      forall pid | pid in db'.posts
        ensures db'.posts[pid].commentCount == |ApprovedOn(db', pid)|
      {
        assert ApprovedOn(db', pid) == ApprovedOn(db, pid);
      }
    }
  }

  /** n views at time now raise the count by n and, when there was at least
      one, leave the post updated at now; nothing else changes. */
  lemma {:induction false} ViewsAccumulate(db: Db, postId: nat, n: nat, now: int)
    requires postId in db.posts
    ensures var r := Views(db, postId, n, now);
            && r == db.(posts := r.posts) && r.posts.Keys == db.posts.Keys
            && (forall id | id in db.posts && id != postId :: r.posts[id] == db.posts[id])
    ensures Views(db, postId, n, now).posts[postId] ==
              db.posts[postId].(viewCount := db.posts[postId].viewCount + n,
                                updatedAt := if n == 0 then db.posts[postId].updatedAt else now)
    decreases n
  {
    if n > 0 {
      ViewsAccumulate(db, postId, n - 1, now);
    }
  }

  function Views(db: Db, postId: nat, n: nat, now: int): Db
    decreases n
  {
    if n == 0 then db else IncrementViewCount(Views(db, postId, n - 1, now), postId, now)
  }

  /** The soft delete of `Delete(&Post{}, id)`: the row leaves the live
      table and its slug stays in the unique index. */
  function SoftDeletePost(db: Db, postId: nat): (r: Db)
    ensures r == db.(posts := db.posts - {postId}, deletedSlugs := r.deletedSlugs)
    ensures postId in db.posts ==> r.deletedSlugs == db.deletedSlugs + {db.posts[postId].slug}
    ensures postId !in db.posts ==> r == db
  {
    if postId in db.posts then db.(posts := db.posts - {postId}, deletedSlugs := db.deletedSlugs + {db.posts[postId].slug})
    else db
  }

  /** DeletePost as written: `Delete(&Post{}, id)` soft-deletes the row, but
      the AfterDelete hook receives the zero-valued post, whose user id 0
      names no user, so no user row changes. A missing id is not an error. */
  function DeletePostAsWritten(db: Db, postId: nat, now: int): (r: Db)
    ensures r.posts == db.posts - {postId}
    ensures Valid(db) ==> r.users == db.users
  {
    PostAfterDelete(SoftDeletePost(db, postId), NoPost, now)
  }

  /** After the author's only post is deleted as written, their post_count
      still says 1. */
  lemma DeleteKeepsStaleCount()
    ensures var db := EmptyDb.(users := map[1 := NoUser.(id := 1, postCount := 1)], nextUserId := 2,
                               posts := map[1 := NoPost.(id := 1, userId := 1)], nextPostId := 2);
            && Valid(db) && CountersAgree(db)
            && DeletePostAsWritten(db, 1, 5).users[1].postCount == 1
            && !CountersAgree(DeletePostAsWritten(db, 1, 5))
  {
    var db := EmptyDb.(users := map[1 := NoUser.(id := 1, postCount := 1)], nextUserId := 2,
                       posts := map[1 := NoPost.(id := 1, userId := 1)], nextPostId := 2);
    assert PostsBy(db, 1) == {1};
    assert PostsBy(DeletePostAsWritten(db, 1, 5), 1) == {};
  }

  /** DeletePost: soft-deletes the post, and its author loses one from
      post_count and gets updated_at now; no other column of any row
      changes. A missing id changes nothing. */
  function DeletePost(db: Db, postId: nat, now: int): (r: Db)
    ensures r.posts == db.posts - {postId}
    ensures r.comments == db.comments && r.users.Keys == db.users.Keys
    ensures r.nextUserId == db.nextUserId && r.nextPostId == db.nextPostId && r.nextCommentId == db.nextCommentId
    ensures postId !in db.posts ==> r == db
    ensures postId in db.posts ==> r.deletedSlugs == db.deletedSlugs + {db.posts[postId].slug}
    ensures postId in db.posts ==> forall id | id in db.users ::
              var author := id == db.posts[postId].userId;
              && r.users[id].postCount == db.users[id].postCount - (if author then 1 else 0)
              && r.users[id].updatedAt == (if author then now else db.users[id].updatedAt)
              && r.users[id] == db.users[id].(postCount := r.users[id].postCount, updatedAt := r.users[id].updatedAt)
  {
    if postId in db.posts then PostAfterDelete(SoftDeletePost(db, postId), db.posts[postId], now)
    else db
  }

  lemma DeletePostPreserves(db: Db, postId: nat, now: int)
    requires Valid(db) && CountersAgree(db)
    ensures Valid(DeletePost(db, postId, now)) && CountersAgree(DeletePost(db, postId, now))
  {
    var db' := DeletePost(db, postId, now);
    if postId in db.posts {
      forall uid | uid in db'.users
        ensures db'.users[uid].postCount == |PostsBy(db', uid)|
      {
        PostsByRemove(db, postId, uid);
        assert PostsBy(db', uid) == PostsBy(db.(posts := db.posts - {postId}), uid);
      }
      forall pid | pid in db'.posts
        ensures db'.posts[pid].commentCount == |ApprovedOn(db', pid)|
      {
        assert ApprovedOn(db', pid) == ApprovedOn(db, pid);
      }
    }
  }

  /** A deleted post's slug cannot be used again: the deleted row keeps it
      in the unique index, so CreatePost with that slug is a duplicate key. */
  lemma DeletedSlugStaysTaken(db: Db, postId: nat, now: int, userId: nat, title: string, content: Bytes,
                              summary: Bytes, status: string, isPublic: bool)
    requires postId in db.posts
    ensures var db' := DeletePost(db, postId, now);
            var r := CreatePost(db', userId, title, content, summary, db.posts[postId].slug, status, isPublic, now);
            0 < userId < db.nextUserId ==> r == Failure(DuplicateKey)
  {
    var slug := db.posts[postId].slug;
    var db' := DeletePost(db, postId, now);
    assert slug in db'.deletedSlugs && SameText(slug, slug);
  }

  /** The slug check follows the collation: with a post "hello-go" stored,
      creating "Hello-Go" is a duplicate key. */
  lemma SlugClashIgnoresCase()
    ensures var db := EmptyDb.(users := map[1 := NoUser.(id := 1)], nextUserId := 2,
                               posts := map[1 := NoPost.(id := 1, userId := 1, slug := "hello-go")], nextPostId := 2);
            CreatePost(db, 1, "t", [], [], "Hello-Go", "", true, 0) == Failure(DuplicateKey)
  {
    var db := EmptyDb.(users := map[1 := NoUser.(id := 1)], nextUserId := 2,
                       posts := map[1 := NoPost.(id := 1, userId := 1, slug := "hello-go")], nextPostId := 2);
    assert Validators.ToLower("Hello-Go") == "hello-go";
    assert Validators.ToLower("hello-go") == "hello-go";
    assert 1 in db.posts && 1 != 2 && SameText(db.posts[1].slug, "Hello-Go");
  }
}

=== FILE: seqs.dfy ===
/** Generic sequence helpers: a stable sort by an integer key, filtering,
    and the offset/limit slicing that SQL pagination performs. */
module Seqs {

  /** Every element's key is at most the key of every later element. */
  ghost predicate SortedBy<T>(s: seq<T>, key: T -> int)
  {
    forall i, j | 0 <= i < j < |s| :: key(s[i]) <= key(s[j])
  }

  /** Inserts x in front of the first element whose key exceeds key(x). */
  function InsertBy<T>(x: T, s: seq<T>, key: T -> int): (r: seq<T>)
    requires SortedBy(s, key)
    ensures SortedBy(r, key)
    ensures multiset(r) == multiset(s) + multiset{x}
    ensures |r| == |s| + 1
    /** x goes first exactly when no element's key is at most its own. */
    ensures |s| == 0 || key(x) < key(s[0]) ==> r[0] == x
    ensures |s| > 0 && key(s[0]) <= key(x) ==> r[0] == s[0]
  {
    if |s| == 0 then [x]
    else if key(x) < key(s[0]) then [x] + s
    else
      var t := InsertBy(x, s[1..], key);
      assert s == [s[0]] + s[1..];
      assert key(s[0]) <= key(t[0]);
      [s[0]] + t
  }

  /** Insertion sort: a permutation of s ordered by key, ascending. */
  function SortBy<T>(s: seq<T>, key: T -> int): (r: seq<T>)
    ensures SortedBy(r, key)
    ensures multiset(r) == multiset(s)
    ensures |r| == |s|
  {
    if |s| == 0 then []
    else
      assert s == [s[0]] + s[1..];
      InsertBy(s[0], SortBy(s[1..], key), key)
  }

  /** The rows an SQL query returns with OFFSET offset and LIMIT limit, where
      GORM drops a non-positive offset and a negative limit. */
  function Window<T>(rows: seq<T>, offset: int, limit: int): (r: seq<T>)
    ensures limit >= 0 ==> |r| <= limit
    ensures offset <= 0 && limit < 0 ==> r == rows
    ensures forall k | 0 <= k < |r| ::
              0 <= (if offset > 0 then offset else 0) + k < |rows| &&
              r[k] == rows[(if offset > 0 then offset else 0) + k]
    ensures |r| == (var start := if offset > 0 then offset else 0;
                    var avail := if start <= |rows| then |rows| - start else 0;
                    if 0 <= limit < avail then limit else avail)
  {
    var start := if offset > 0 then offset else 0;
    if start >= |rows| then []
    else
      var rest := rows[start..];
      if 0 <= limit < |rest| then rest[..limit] else rest
  }

  /** `ORDER BY created_at DESC`: a stable sort on the negated timestamp,
      so rows created at the same time keep their order. */
  function NewestFirst<T(==)>(rows: seq<T>, createdAt: T -> int): (r: seq<T>)
    ensures |r| == |rows| && multiset(r) == multiset(rows)
    ensures forall k | 0 <= k < |r| :: r[k] in rows
    ensures forall i, j | 0 <= i < j < |r| :: createdAt(r[i]) >= createdAt(r[j])
  {
    var sorted := SortBy(rows, (x: T) => -createdAt(x));
    SameMembers(sorted, rows);
    sorted
  }

  /** `ORDER BY created_at ASC`, stable. */
  function OldestFirst<T(==)>(rows: seq<T>, createdAt: T -> int): (r: seq<T>)
    ensures |r| == |rows|
    ensures forall k | 0 <= k < |r| :: r[k] in rows
    ensures forall x | x in rows :: x in r
    ensures forall i, j | 0 <= i < j < |r| :: createdAt(r[i]) <= createdAt(r[j])
  {
    var sorted := SortBy(rows, createdAt);
    SameMembers(sorted, rows);
    sorted
  }

  /** Sequences with the same multiset have the same members. */
  lemma SameMembers<T>(a: seq<T>, b: seq<T>)
    requires multiset(a) == multiset(b)
    ensures forall k | 0 <= k < |a| :: a[k] in b
    ensures forall x | x in b :: x in a
  {
    forall k | 0 <= k < |a|
      ensures a[k] in b
    {
      assert a[k] in multiset(a);
    }
    forall x | x in b
      ensures x in a
    {
      assert x in multiset(b);
    }
  }

  /** The row a page starts at: the offset (page - 1) * pageSize, or the
      first row when that offset is not positive. */
  function PageStart(page: int, pageSize: int): (start: nat)
    ensures start == 0 || start == (page - 1) * pageSize
    ensures 1 <= page && 0 <= pageSize ==> start == (page - 1) * pageSize
  {
    var offset := (page - 1) * pageSize;
    if offset > 0 then offset else 0
  }

  /** What a list endpoint returns: the rows newest first, then OFFSET
      (page - 1) * pageSize and LIMIT pageSize. */
  function NewestPage<T(==)>(rows: seq<T>, createdAt: T -> int, page: int, pageSize: int): (r: seq<T>)
    ensures pageSize >= 0 ==> |r| <= pageSize
    ensures forall k | 0 <= k < |r| :: r[k] in rows
    ensures forall i, j | 0 <= i < j < |r| :: createdAt(r[i]) >= createdAt(r[j])
  {
    var sorted := NewestFirst(rows, createdAt);
    // GORM drops a non-positive offset, so the clamped start selects the same rows.
    var start := PageStart(page, pageSize);
    PageOfNewest(sorted, rows, start, pageSize, createdAt);
    Window(sorted, start, pageSize)
  }

  /** A window of a newest-first sequence drawn from pool is drawn from pool
      and newest first. */
  lemma PageOfNewest<T>(sorted: seq<T>, pool: seq<T>, start: nat, limit: int, key: T -> int)
    requires forall k | 0 <= k < |sorted| :: sorted[k] in pool
    requires forall i, j | 0 <= i < j < |sorted| :: key(sorted[i]) >= key(sorted[j])
    ensures var r := Window(sorted, start, limit);
            && (forall k | 0 <= k < |r| :: r[k] in pool)
            && (forall i, j | 0 <= i < j < |r| :: key(r[i]) >= key(r[j]))
  {
    var r := Window(sorted, start, limit);
    forall k | 0 <= k < |r|
      ensures start + k < |sorted| && r[k] == sorted[start + k]
    {
      assert (if start > 0 then start else 0) == start;
    }
    RunMembers(sorted, r, start, pool);
    RunDescending(sorted, r, start, key);
  }

  /** A run of consecutive elements of a sequence drawn from pool is drawn
      from pool. */
  lemma RunMembers<T>(s: seq<T>, r: seq<T>, start: nat, pool: seq<T>)
    requires forall k | 0 <= k < |r| :: start + k < |s| && r[k] == s[start + k]
    requires forall k | 0 <= k < |s| :: s[k] in pool
    ensures forall k | 0 <= k < |r| :: r[k] in pool
  {
    forall k | 0 <= k < |r|
      ensures r[k] in pool
    {
      assert start + k < |s| && r[k] == s[start + k];
      assert s[start + k] in pool;
    }
  }

  /** A run of consecutive elements of a sequence in descending key order is
      in descending key order. */
  lemma RunDescending<T>(s: seq<T>, r: seq<T>, start: nat, key: T -> int)
    requires forall k | 0 <= k < |r| :: start + k < |s| && r[k] == s[start + k]
    requires forall i, j | 0 <= i < j < |s| :: key(s[i]) >= key(s[j])
    ensures forall i, j | 0 <= i < j < |r| :: key(r[i]) >= key(r[j])
  {
    forall i, j | 0 <= i < j < |r|
      ensures key(r[i]) >= key(r[j])
    {
      assert start + i < |s| && r[i] == s[start + i];
      assert start + j < |s| && r[j] == s[start + j];
      assert key(s[start + i]) >= key(s[start + j]);
    }
  }

  /** Page `page` starts PageStart rows into the newest-first order, and is
      full whenever pageSize rows remain from there. */
  lemma NewestPageWindow<T>(rows: seq<T>, createdAt: T -> int, page: int, pageSize: int)
    ensures var r := NewestPage(rows, createdAt, page, pageSize);
            forall k | 0 <= k < |r| ::
              PageStart(page, pageSize) + k < |rows| && r[k] == NewestFirst(rows, createdAt)[PageStart(page, pageSize) + k]
    ensures 0 <= pageSize && PageStart(page, pageSize) + pageSize <= |rows| ==>
              |NewestPage(rows, createdAt, page, pageSize)| == pageSize
  {
    var sorted := NewestFirst(rows, createdAt);
    var start := PageStart(page, pageSize);
    assert NewestPage(rows, createdAt, page, pageSize) == Window(sorted, start, pageSize);
    assert |sorted| == |rows| && (if start > 0 then start else 0) == start;
  }

  /** Ascending, repeats allowed. */
  ghost predicate Sorted(s: seq<int>)
  {
    forall i, j | 0 <= i < j < |s| :: s[i] <= s[j]
  }

  /** Ascending without repeats. */
  ghost predicate StrictlySorted(s: seq<int>)
  {
    forall i, j | 0 <= i < j < |s| :: s[i] < s[j]
  }

  /** The set of values occurring in s. */
  ghost function Elements(s: seq<int>): (r: set<int>)
    ensures forall k | 0 <= k < |s| :: s[k] in r
  {
    set k | 0 <= k < |s| :: s[k]
  }

  lemma StrictlySortedSnoc(s: seq<int>, x: int)
    requires StrictlySorted(s)
    requires |s| == 0 || s[|s| - 1] < x
    ensures StrictlySorted(s + [x])
  {
  }

  /** A strictly ascending sequence has as many distinct values as elements. */
  lemma {:induction false} StrictlySortedCard(s: seq<int>)
    requires StrictlySorted(s)
    ensures |Elements(s)| == |s|
    decreases |s|
  {
    if |s| > 0 {
      var t := s[..|s| - 1];
      var x := s[|s| - 1];
      StrictlySortedCard(t);
      assert Elements(s) == Elements(t) + {x};
      assert x !in Elements(t);
    }
  }

  /** Overwriting the slot just past a kept prefix, in an array whose tail
      still equals d's. */
  lemma OverwriteNext(prev: seq<int>, d: seq<int>, i: int, j: int)
    requires |prev| == |d| && 0 <= i < j < |d| && prev[i + 1..] == d[i + 1..]
    ensures prev[i + 1 := d[j]][..i + 2] == prev[..i + 1] + [d[j]]
    ensures prev[i + 1 := d[j]][i + 2..] == d[i + 2..]
  {
    var n := prev[i + 1 := d[j]];
    assert n[i + 2..] == prev[i + 2..];
    assert prev[i + 2..] == prev[i + 1..][1..];
  }

  /** The keys below n of the entries of m that keep accepts. */
  ghost function KeysBelow<T>(m: map<nat, T>, n: nat, keep: T -> bool): set<nat>
  {
    set id | id in m && id < n && keep(m[id])
  }

  lemma KeysBelowStep<T>(m: map<nat, T>, n: nat, keep: T -> bool)
    requires n > 0
    ensures n - 1 in m && keep(m[n - 1]) ==> KeysBelow(m, n, keep) == KeysBelow(m, n - 1, keep) + {n - 1}
    ensures !(n - 1 in m && keep(m[n - 1])) ==> KeysBelow(m, n, keep) == KeysBelow(m, n - 1, keep)
    ensures n - 1 !in KeysBelow(m, n - 1, keep)
  {
  }

  /** Those keys in ascending order: the order in which the matching rows
      of an auto-increment table were inserted. */
  function KeysWhere<T>(m: map<nat, T>, n: nat, keep: T -> bool): (r: seq<nat>)
    ensures forall k | 0 <= k < |r| :: r[k] in m && r[k] < n && keep(m[r[k]])
    ensures forall id | id in m && id < n && keep(m[id]) :: id in r
    ensures forall i, j | 0 <= i < j < |r| :: r[i] < r[j]
  {
    if n == 0 then []
    else
      var rest := KeysWhere(m, n - 1, keep);
      if n - 1 in m && keep(m[n - 1]) then
        var r := rest + [n - 1];
        assert forall k | 0 <= k < |rest| :: r[k] == rest[k];
        assert forall id | id in m && id < n && keep(m[id]) :: id == n - 1 || id in rest;
        r
      else
        assert forall id | id in m && id < n && keep(m[id]) :: id < n - 1;
        rest
  }

  /** As many keys are listed as there are matching entries. */
  lemma {:induction false} KeysWhereCount<T>(m: map<nat, T>, n: nat, keep: T -> bool)
    ensures |KeysWhere(m, n, keep)| == |KeysBelow(m, n, keep)|
  {
    if n == 0 {
      assert KeysBelow(m, n, keep) == {};
    } else {
      var rest := KeysWhere(m, n - 1, keep);
      KeysWhereCount(m, n - 1, keep);
      KeysBelowStep(m, n, keep);
      if n - 1 in m && keep(m[n - 1]) {
        assert KeysWhere(m, n, keep) == rest + [n - 1];
      } else {
        assert KeysWhere(m, n, keep) == rest;
      }
    }
  }

  /** The values under ids, in the order of ids. */
  function ValuesAt<T>(m: map<nat, T>, ids: seq<nat>): (rows: seq<T>)
    requires forall k | 0 <= k < |ids| :: ids[k] in m
    ensures |rows| == |ids|
    ensures forall k | 0 <= k < |rows| :: rows[k] == m[ids[k]]
  {
    seq(|ids|, k requires 0 <= k < |ids| => m[ids[k]])
  }

  /** The rows of an auto-increment table below n that satisfy keep, in
      insertion order: `SELECT ... WHERE keep` without an ORDER BY. */
  function RowsWhere<T(==)>(m: map<nat, T>, n: nat, keep: T -> bool): (rows: seq<T>)
    ensures forall k | 0 <= k < |rows| :: rows[k] in m.Values && keep(rows[k])
    ensures forall id | id in m && id < n && keep(m[id]) :: m[id] in rows
    ensures |rows| == |KeysBelow(m, n, keep)|
  {
    var ids := KeysWhere(m, n, keep);
    KeysWhereCount(m, n, keep);
    var rows := ValuesAt(m, ids);
    assert forall k | 0 <= k < |ids| :: rows[k] == m[ids[k]];
    rows
  }
}

=== FILE: user_service.dfy ===
/** The user service of Task4-Blog/services/user_service.go: lookups,
    existence checks, profile and login-time updates, the user list and
    password change. The bcrypt hasher and checker are parameters. */
module UserService {
  import opened Wrappers
  import opened BlogModels
  import Seqs
  import PostService

  /** `First` under a condition: the live row with the smallest id that
      satisfies keep, if any. */
  function FirstWhere(db: Db, keep: User -> bool): (r: Option<nat>)
    ensures r.Some? ==> r.value in db.users && keep(db.users[r.value])
    ensures r.Some? ==> forall id | id in db.users && id < r.value :: !keep(db.users[id])
    ensures r.None? <==> forall id | id in db.users && id < db.nextUserId :: !keep(db.users[id])
  {
    var ids := Seqs.KeysWhere(db.users, db.nextUserId, keep);
    if |ids| == 0 then None
    else
      assert forall id | id in db.users && id < ids[0] :: id < db.nextUserId;
      Some(ids[0])
  }

  /** GetUserByID: the live user with that id, or RecordNotFound. */
  function GetUserById(db: Db, userId: nat): (r: Result<User, DbError>)
    ensures r.Success? <==> userId in db.users
    ensures r.Failure? ==> r.error == RecordNotFound
    ensures r.Success? ==> r.value in db.users.Values && (Valid(db) ==> r.value.id == userId)
  {
    if userId in db.users then Success(db.users[userId]) else Failure(RecordNotFound)
  }

  /** GetUserByUsername: the first live user whose username equals the
      argument under the collation, so letter case does not matter. */
  function GetUserByUsername(db: Db, username: string): (r: Result<User, DbError>)
    ensures r.Failure? ==> r.error == RecordNotFound
    ensures r.Success? ==> r.value in db.users.Values && SameText(r.value.username, username)
    ensures Valid(db) ==> (r.Success? <==> exists id | id in db.users :: SameText(db.users[id].username, username))
  {
    match FirstWhere(db, (u: User) => SameText(u.username, username))
    case None => Failure(RecordNotFound)
    case Some(id) => Success(db.users[id])
  }

  /** GetUserByEmail: the first live user whose email equals the argument
      under the collation. */
  function GetUserByEmail(db: Db, email: string): (r: Result<User, DbError>)
    ensures r.Failure? ==> r.error == RecordNotFound
    ensures r.Success? ==> r.value in db.users.Values && SameText(r.value.email, email)
    ensures Valid(db) ==> (r.Success? <==> exists id | id in db.users :: SameText(db.users[id].email, email))
  {
    match FirstWhere(db, (u: User) => SameText(u.email, email))
    case None => Failure(RecordNotFound)
    case Some(id) => Success(db.users[id])
  }

  /** Under the unique index a user is found again by its username and by
      its email. */
  lemma LookupFindsUser(db: Db, id: nat)
    requires Valid(db) && UniqueLogins(db) && id in db.users
    ensures GetUserByUsername(db, db.users[id].username) == Success(db.users[id])
    ensures GetUserByEmail(db, db.users[id].email) == Success(db.users[id])
  {
  }

  /** UsernameExists: whether counting the live users with that username
      gives more than zero. A user the lookup finds is counted, and on a
      valid store the count is positive exactly when the lookup succeeds. */
  function UsernameExists(db: Db, username: string): (r: bool)
    ensures GetUserByUsername(db, username).Success? ==> r
    ensures Valid(db) ==> (r <==> GetUserByUsername(db, username).Success?)
  {
    exists id | id in db.users :: SameText(db.users[id].username, username)
  }

  /** EmailExists: the same count over email. */
  function EmailExists(db: Db, email: string): (r: bool)
    ensures GetUserByEmail(db, email).Success? ==> r
    ensures Valid(db) ==> (r <==> GetUserByEmail(db, email).Success?)
  {
    exists id | id in db.users :: SameText(db.users[id].email, email)
  }

  /** UpdateUser: a missing user is RecordNotFound; otherwise each non-empty
      argument replaces its column, and updated_at moves only when one did.
      Nothing else about the user, and no other row, changes. */
  function UpdateUser(db: Db, userId: nat, bio: string, avatar: string, now: int): (r: Result<(Db, User), DbError>)
    ensures r.Failure? <==> userId !in db.users
    ensures r.Failure? ==> r.error == RecordNotFound
    ensures r.Success? ==>
      var (db', u) := r.value;
      var before := db.users[userId];
      && u.bio == (if bio != "" then bio else before.bio)
      && u.avatar == (if avatar != "" then avatar else before.avatar)
      && u == before.(bio := u.bio, avatar := u.avatar, updatedAt := u.updatedAt)
      && (bio == "" && avatar == "" ==> db' == db && u == before)
      && (bio != "" || avatar != "" ==> u.updatedAt == now)
      && db' == db.(users := db.users[userId := u])
  {
    if userId !in db.users then Failure(RecordNotFound)
    else
      var before := db.users[userId];
      if bio == "" && avatar == "" then Success((db, before))
      else
        var u := before.(bio := if bio != "" then bio else before.bio,
                         avatar := if avatar != "" then avatar else before.avatar,
                         updatedAt := now);
        Success((db.(users := db.users[userId := u]), u))
  }

  /** Repeating an update changes nothing further. */
  lemma UpdateUserIdempotent(db: Db, userId: nat, bio: string, avatar: string, now: int)
    ensures var r := UpdateUser(db, userId, bio, avatar, now);
            r.Success? ==> UpdateUser(r.value.0, userId, bio, avatar, now) == r
  {
    var r := UpdateUser(db, userId, bio, avatar, now);
    if r.Success? && (bio != "" || avatar != "") {
      var (db', u) := r.value;
      assert db'.users[userId := u] == db'.users;
    }
  }

  lemma UpdateUserPreserves(db: Db, userId: nat, bio: string, avatar: string, now: int)
    requires Valid(db) && CountersAgree(db) && UniqueLogins(db)
    ensures var r := UpdateUser(db, userId, bio, avatar, now);
            r.Success? ==> Valid(r.value.0) && CountersAgree(r.value.0) && UniqueLogins(r.value.0)
  {
    var r := UpdateUser(db, userId, bio, avatar, now);
    if r.Success? {
      UserEditPreserves(db, r.value.0.users);
    }
  }

  /** UpdateLastLogin: `UPDATE users SET last_login = ?, updated_at = ?
      WHERE id = ?`; no row matches a missing user, which is not an
      error. */
  function UpdateLastLogin(db: Db, userId: nat, loginTime: Option<int>, now: int): (r: Db)
    ensures r.posts == db.posts && r.comments == db.comments && r.users.Keys == db.users.Keys
    ensures forall id | id in db.users && id != userId :: r.users[id] == db.users[id]
    ensures userId in db.users ==>
              r.users[userId] == db.users[userId].(lastLogin := loginTime, updatedAt := now)
    ensures userId !in db.users ==> r == db
  {
    if userId in db.users then
      db.(users := db.users[userId := db.users[userId].(lastLogin := loginTime, updatedAt := now)])
    else db
  }

  lemma UpdateLastLoginPreserves(db: Db, userId: nat, loginTime: Option<int>, now: int)
    requires Valid(db) && CountersAgree(db) && UniqueLogins(db)
    ensures var db' := UpdateLastLogin(db, userId, loginTime, now);
            Valid(db') && CountersAgree(db') && UniqueLogins(db')
  {
    var db' := UpdateLastLogin(db, userId, loginTime, now);
    if userId in db.users {
      UserEditPreserves(db, db'.users);
    }
  }

  /** GetUserPosts (user service): every post of the user, of any status,
      newest first, paged, with the user's post count. */
  function GetUserPosts(db: Db, userId: nat, page: int, pageSize: int): (r: (seq<PostResponse>, nat))
    ensures pageSize >= 0 ==> |r.0| <= pageSize
    ensures forall k | 0 <= k < |r.0| :: PostFromResponse(r.0[k], userId) in db.posts.Values
    ensures forall i, j | 0 <= i < j < |r.0| :: r.0[i].createdAt >= r.0[j].createdAt
    ensures Valid(db) ==> r.1 == |PostsBy(db, userId)|
  {
    UserFilterIsPostsBy(db, userId);
    PostService.GetUserPosts(db, userId, page, pageSize, "")
  }

  /** Filtering on the author alone selects exactly the user's posts. */
  lemma UserFilterIsPostsBy(db: Db, userId: nat)
    ensures PostService.MatchingIds(db, Some(userId), "") == PostsBy(db, userId)
  {
  }

  /** In a consistent database the total GetUserPosts reports is the
      user's post_count. */
  lemma UserPostsTotalIsPostCount(db: Db, userId: nat, page: int, pageSize: int)
    requires Valid(db) && CountersAgree(db) && userId in db.users
    ensures GetUserPosts(db, userId, page, pageSize).1 == db.users[userId].postCount
  {
  }

  lemma AllUsersBelowNext(db: Db)
    ensures Valid(db) ==> Seqs.KeysBelow(db.users, db.nextUserId, (u: User) => true) == db.users.Keys
  {
  }

  /** GetUsers: the page at offset (page - 1) * pageSize of at most
      pageSize live users, newest first, and the number of live users. */
  function GetUsers(db: Db, page: int, pageSize: int): (r: (seq<User>, nat))
    ensures pageSize >= 0 ==> |r.0| <= pageSize
    ensures forall k | 0 <= k < |r.0| :: r.0[k] in db.users.Values
    ensures forall i, j | 0 <= i < j < |r.0| :: r.0[i].createdAt >= r.0[j].createdAt
    ensures Valid(db) ==> r.1 == |db.users|
  {
    var rows := Seqs.RowsWhere(db.users, db.nextUserId, (u: User) => true);
    AllUsersBelowNext(db);
    var shown := Seqs.NewestPage(rows, (u: User) => u.createdAt, page, pageSize);
    (shown, |rows|)
  }

  /** ChangePassword: a missing user is RecordNotFound, an old password the
      stored hash rejects is InvalidData, a hasher failure is HashFailed;
      otherwise the new hash replaces the stored one and updated_at moves. */
  function ChangePassword(db: Db, userId: nat, oldPassword: string, newPassword: string,
                          checkHash: (string, string) -> bool, hash: string -> Option<string>, now: int)
    : (r: Result<Db, DbError>)
    ensures userId !in db.users ==> r == Failure(RecordNotFound)
    ensures userId in db.users && !checkHash(oldPassword, db.users[userId].password) ==> r == Failure(InvalidData)
    ensures r.Success? <==> userId in db.users && checkHash(oldPassword, db.users[userId].password)
                            && hash(newPassword).Some?
    ensures r.Success? ==>
      r.value == db.(users := db.users[userId := db.users[userId].(password := hash(newPassword).value, updatedAt := now)])
  {
    if userId !in db.users then Failure(RecordNotFound)
    else
      var u := db.users[userId];
      if !checkHash(oldPassword, u.password) then Failure(InvalidData)
      else match hash(newPassword)
        case None => Failure(HashFailed)
        case Some(hashed) => Success(db.(users := db.users[userId := u.(password := hashed, updatedAt := now)]))
  }

  /** A password change touches no key, counter, username or email, so the
      store invariants and the unique logins survive. */
  lemma ChangePasswordPreserves(db: Db, userId: nat, oldPassword: string, newPassword: string,
                                checkHash: (string, string) -> bool, hash: string -> Option<string>, now: int)
    requires Valid(db) && CountersAgree(db) && UniqueLogins(db)
    ensures var r := ChangePassword(db, userId, oldPassword, newPassword, checkHash, hash, now);
            r.Success? ==> Valid(r.value) && CountersAgree(r.value) && UniqueLogins(r.value)
  {
    var r := ChangePassword(db, userId, oldPassword, newPassword, checkHash, hash, now);
    if r.Success? {
      var db' := r.value;
      UserEditPreserves(db, db'.users);
    }
  }

  /** When the checker accepts every password against its own hash, the new
      password is accepted afterwards: changing it back succeeds. */
  lemma ChangePasswordTakesEffect(db: Db, userId: nat, oldPassword: string, newPassword: string,
                                  checkHash: (string, string) -> bool, hash: string -> Option<string>, t1: int, t2: int)
    requires forall p | hash(p).Some? :: checkHash(p, hash(p).value)
    ensures var r := ChangePassword(db, userId, oldPassword, newPassword, checkHash, hash, t1);
            r.Success? && hash(oldPassword).Some? ==>
              ChangePassword(r.value, userId, newPassword, oldPassword, checkHash, hash, t2).Success?
  {
  }
}

=== FILE: validators.dfy ===
/** The request validators of Task4-Blog/utils/validator_utils.go: the custom
    `username`, `password` and `slug` rules, and the translation of a failed
    validation into a field-to-message map.

    Validators see a string as its Unicode scalar values; Go's `len` counts
    the bytes of the UTF-8 encoding, which Utf8Len gives. The two regular
    expressions of the source are single character classes repeated one or
    more times, written here as MatchPlus. */
module Validators {
  import opened Wrappers

  /** Bytes UTF-8 needs for one scalar value. */
  function Utf8Width(c: char): (w: nat)
    ensures 1 <= w <= 4
    ensures w == 1 <==> c < 128 as char
  {
    if c < 128 as char then 1
    else if c < 0x800 as char then 2
    else if c < 0x1_0000 as char then 3
    else 4
  }

  /** Go's len(s): the byte length of the UTF-8 encoding. */
  function Utf8Len(s: string): (n: nat)
    ensures |s| <= n <= 4 * |s|
  {
    if |s| == 0 then 0 else Utf8Width(s[0]) + Utf8Len(s[1..])
  }

  ghost predicate Ascii(s: string)
  {
    forall k | 0 <= k < |s| :: s[k] < 128 as char
  }

  /** On ASCII text bytes and characters coincide; otherwise the encoding is
      strictly longer. */
  lemma {:induction false} Utf8LenAscii(s: string)
    ensures Utf8Len(s) == |s| <==> Ascii(s)
    decreases |s|
  {
    if |s| > 0 {
      Utf8LenAscii(s[1..]);
      assert forall k | 1 <= k < |s| :: s[k] == s[1..][k - 1];
      if !Ascii(s[1..]) {
        var k :| 0 <= k < |s[1..]| && !(s[1..][k] < 128 as char);
        assert !(s[k + 1] < 128 as char);
      }
    }
  }

  /** A regular expression `^[class]+$`: one class character, then either
      the end or another match. */
  function MatchPlus(inClass: char -> bool, s: string): (r: bool)
    ensures r <==> |s| > 0 && forall k | 0 <= k < |s| :: inClass(s[k])
  {
    if |s| == 0 then false
    else if !inClass(s[0]) then false
    else if |s| == 1 then true
    else
      assert forall k | 1 <= k < |s| :: s[k] == s[1..][k - 1];
      MatchPlus(inClass, s[1..])
  }

  /** `[a-zA-Z0-9_]`. */
  predicate WordChar(c: char)
  {
    ('a' <= c <= 'z') || ('A' <= c <= 'Z') || ('0' <= c <= '9') || c == '_'
  }

  /** `[a-z0-9-]`. */
  predicate SlugChar(c: char)
  {
    ('a' <= c <= 'z') || ('0' <= c <= '9') || c == '-'
  }

  /** The `username` rule: 3 to 50 bytes, then the word-character pattern.
      Since the pattern admits only ASCII, the bound is on characters too. */
  function ValidUsername(username: string): (r: bool)
    ensures r <==> 3 <= |username| <= 50 && forall k | 0 <= k < |username| :: WordChar(username[k])
  {
    var n := Utf8Len(username);
    Utf8LenAscii(username);
    if n < 3 || n > 50 then false
    else
      MatchPlus(WordChar, username)
  }

  /** A name of two characters whose encoding reaches three bytes passes the
      byte-length guard yet is rejected by the pattern. */
  lemma ShortNameRejected()
    ensures !ValidUsername("é_")
  {
    assert !WordChar("é_"[0]);
  }

  /** The `password` rule: at least 6 bytes, and at least one letter and one
      number among its runes. The rune classes (Go's unicode.IsLetter and
      unicode.IsNumber) are parameters; the switch tests the letter class
      first, so a rune counts as a number only when it is not a letter. */
  method ValidPassword(password: string, isLetter: char -> bool, isNumber: char -> bool) returns (r: bool)
    ensures r <==> Utf8Len(password) >= 6
                   && (exists k | 0 <= k < |password| :: isLetter(password[k]))
                   && (exists k | 0 <= k < |password| :: !isLetter(password[k]) && isNumber(password[k]))
  {
    if Utf8Len(password) < 6 {
      return false;
    }
    var hasLetter, hasNumber := false, false;
    var i := 0;
    while i < |password|
      invariant 0 <= i <= |password|
      invariant hasLetter <==> exists k | 0 <= k < i :: isLetter(password[k])
      invariant hasNumber <==> exists k | 0 <= k < i :: !isLetter(password[k]) && isNumber(password[k])
    {
      var c := password[i];
      if isLetter(c) {
        hasLetter := true;
      } else if isNumber(c) {
        hasNumber := true;
      }
      i := i + 1;
    }
    r := hasLetter && hasNumber;
  }

  /** The `slug` rule: the lower-case pattern, so never empty. */
  function ValidSlug(slug: string): (r: bool)
    ensures r ==> |slug| > 0 && Utf8Len(slug) == |slug|
    ensures r <==> |slug| > 0 && forall k | 0 <= k < |slug| :: SlugChar(slug[k])
  {
    var matched := MatchPlus(SlugChar, slug);
    Utf8LenAscii(slug);
    matched
  }

  /** strings.ToLower on one character; outside ASCII the model keeps the
      character. */
  function LowerChar(c: char): (d: char)
    ensures !('A' <= d <= 'Z')
    ensures c != d <==> 'A' <= c <= 'Z'
  {
    if 'A' <= c <= 'Z' then (c as int + 32) as char else c
  }

  function ToLower(s: string): (r: string)
    ensures |r| == |s|
    ensures forall k | 0 <= k < |s| :: r[k] == LowerChar(s[k])
  {
    seq(|s|, k requires 0 <= k < |s| => LowerChar(s[k]))
  }

  /** Lower-casing twice is lower-casing once, and a valid slug is already
      lower case. */
  lemma ToLowerIdempotent(s: string)
    ensures ToLower(ToLower(s)) == ToLower(s)
    ensures ValidSlug(s) ==> ToLower(s) == s
  {
    if ValidSlug(s) {
      forall k | 0 <= k < |s|
        ensures ToLower(s)[k] == s[k]
      {
        assert SlugChar(s[k]);
      }
    }
  }

  /** One failed constraint as the validator library reports it. */
  datatype FieldError = FieldError(field: string, tag: string)

  /** The message shown for a failed constraint tag. */
  function Message(tag: string): string
  {
    match tag
    case "required" => "该字段为必填项"
    case "email" => "邮箱格式不正确"
    case "min" => "长度太短"
    case "max" => "长度太长"
    case "username" => "用户名只能包含字母、数字、下划线，长度3-50位"
    case "password" => "密码必须包含字母和数字，长度至少6位"
    case "slug" => "Slug只能包含小写字母、数字和连字符"
    case _ => DefaultMessage
  }

  const DefaultMessage := "字段验证失败"
  const KnownTags: seq<string> := ["required", "email", "min", "max", "username", "password", "slug"]

  /** Each known tag has its own message, and only unknown tags get the
      default one: the message determines the tag whenever it is not the
      default. */
  lemma MessageDistinguishesTags(t: string, u: string)
    ensures Message(t) == DefaultMessage <==> t !in KnownTags
    ensures t in KnownTags && Message(t) == Message(u) ==> t == u
  {
  }

  /** Entry k's key occurs in no later entry. */
  ghost predicate LastFor<K, V>(entries: seq<(K, V)>, k: int)
    requires 0 <= k < |entries|
  {
    forall j | k < j < |entries| :: entries[j].0 != entries[k].0
  }

  /** m holds exactly the keys of entries, each bound to the value of the
      last entry with that key: what writing the entries into an empty map
      in order leaves behind. */
  ghost predicate LastWins<K, V>(entries: seq<(K, V)>, m: map<K, V>)
  {
    && (forall k | 0 <= k < |entries| :: entries[k].0 in m)
    && (forall key | key in m :: exists k | 0 <= k < |entries| :: entries[k].0 == key)
    && (forall k | 0 <= k < |entries| && LastFor(entries, k) :: m[entries[k].0] == entries[k].1)
  }

  lemma LastWinsStep<K, V>(entries: seq<(K, V)>, m: map<K, V>, i: int)
    requires 0 <= i < |entries|
    requires LastWins(entries[..i], m)
    ensures LastWins(entries[..i + 1], m[entries[i].0 := entries[i].1])
  {
    var pre, post := entries[..i], entries[..i + 1];
    var m' := m[entries[i].0 := entries[i].1];
    assert forall k | 0 <= k < |pre| :: post[k] == pre[k];
    assert post[i] == entries[i];
    forall k | 0 <= k < |post| && LastFor(post, k)
      ensures m'[post[k].0] == post[k].1
    {
      if k < i {
        assert post[i].0 != post[k].0;
        assert LastFor(pre, k);
      }
    }
    forall key | key in m'
      ensures exists k | 0 <= k < |post| :: post[k].0 == key
    {
      if key != entries[i].0 {
        var k :| 0 <= k < |pre| && pre[k].0 == key;
        assert post[k].0 == key;
      }
    }
  }

  /** The (field, message) entry each error contributes. */
  function Entries(errs: seq<FieldError>): (r: seq<(string, string)>)
    ensures |r| == |errs|
  {
    seq(|errs|, k requires 0 <= k < |errs| => (ToLower(errs[k].field), Message(errs[k].tag)))
  }

  /** ValidationErrorsToMap: a value that is not a list of validation errors
      (None here) gives the empty map; otherwise each error writes its tag's
      message under its lower-cased field name, later errors overwriting
      earlier ones. */
  method ValidationErrorsToMap(err: Option<seq<FieldError>>) returns (m: map<string, string>)
    ensures err.None? ==> m == map[]
    ensures err.Some? ==> LastWins(Entries(err.value), m)
  {
    m := map[];
    if err.None? {
      return;
    }
    var errs := err.value;
    ghost var entries := Entries(errs);
    var i := 0;
    while i < |errs|
      invariant 0 <= i <= |errs|
      invariant LastWins(entries[..i], m)
    {
      var fieldName := ToLower(errs[i].field);
      LastWinsStep(entries, m, i);
      m := m[fieldName := Message(errs[i].tag)];
      i := i + 1;
    }
    assert entries[..i] == entries;
  }
}

=== FILE: week1.dfy ===
/** The first set of drills (week1-DreamStart/week1.go), each as the loop the
    source runs, proved against the reference definitions. */
module Week1 {
  import opened DrillSpecs
  import opened GoTypes
  import Brackets
  import Seqs

  /** singleNumber: XOR of every element, over 64-bit words. */
  method SingleNumber(nums: seq<bv64>) returns (r: bv64)
    ensures r == XorAll(nums)
  {
    r := 0;
    var i := 0;
    while i < |nums|
      invariant 0 <= i <= |nums|
      invariant r == XorAll(nums[..i])
    {
      assert nums[..i + 1][..i] == nums[..i];
      r := r ^ nums[i];
      i := i + 1;
    }
    assert nums[..i] == nums;
  }

  /** isPalindrome: negative numbers are rejected; otherwise the decimal
      string is compared from both ends. */
  method IsPalindrome(x: int) returns (r: bool)
    ensures r <==> x >= 0 && DrillSpecs.IsPalindrome(Itoa(x))
  {
    if x < 0 {
      return false;
    }
    var s := Itoa(x);
    var begin, end := 0, |s| - 1;
    while begin < end
      invariant 0 <= begin <= end + 1 && end == |s| - 1 - begin
      invariant forall k | 0 <= k < begin :: s[k] == s[|s| - 1 - k]
    {
      if s[begin] != s[end] {
        NotPalindromeAt(s, begin);
        return false;
      }
      begin := begin + 1;
      end := end - 1;
    }
    PalindromeByHalves(s, begin);
    r := true;
  }

  /** isValid: openers are pushed; every other rune must find, on top of
      the stack, the opener its map entry names. */
  method IsValid(s: string) returns (r: bool)
    ensures r <==> Brackets.Balanced(s)
  {
    var stack: seq<char> := [];
    var i := 0;
    while i < |s|
      invariant 0 <= i <= |s|
      invariant Brackets.OthersClose(s, []) == Brackets.OthersClose(s[i..], stack)
    {
      var c := s[i];
      assert s[i..][1..] == s[i + 1..];
      if c == '(' || c == '{' || c == '[' {
        stack := stack + [c];
      } else {
        if |stack| == 0 {
          Brackets.OthersCloseDecides(s);
          return false;
        }
        var top := stack[|stack| - 1];
        if Brackets.MatchingOpener(c) != top {
          Brackets.OthersCloseDecides(s);
          return false;
        }
        stack := stack[..|stack| - 1];
      }
      i := i + 1;
    }
    Brackets.OthersCloseDecides(s);
    r := |stack| == 0;
  }

  /** longestCommonPrefix: start from the first string and cut the candidate
      back to its agreement with each following string, stopping early once
      it is empty. Go indexes and slices strings by byte, so the strings are
      their bytes here. */
  method LongestCommonPrefix(strs: seq<Bytes>) returns (r: Bytes)
    ensures |strs| == 0 ==> r == []
    ensures |strs| == 1 ==> r == strs[0]
    ensures |strs| > 0 ==> IsLongestCommonPrefix(r, strs)
  {
    if |strs| == 0 {
      return [];
    }
    if |strs| == 1 {
      SingleLongestCommonPrefix(strs);
      return strs[0];
    }
    var prefix := strs[0];
    SingleLongestCommonPrefix(strs[..1]);
    var i := 1;
    while i < |strs|
      invariant 1 <= i <= |strs|
      invariant IsLongestCommonPrefix(prefix, strs[..i])
    {
      var j := 0;
      while j < |prefix| && j < |strs[i]| && prefix[j] == strs[i][j]
        invariant 0 <= j <= |prefix| && j <= |strs[i]|
        invariant prefix[..j] == strs[i][..j]
      {
        j := j + 1;
      }
      CutToAgreement(prefix, strs, i, j);
      prefix := prefix[..j];
      if prefix == [] {
        EmptyLongestCommonPrefix(strs, i + 1);
        return prefix;
      }
      i := i + 1;
    }
    assert strs[..i] == strs;
    r := prefix;
  }

  /** Digit k of the caller's slice once addOne has carried: a digit that
      every later digit carried past (each at least 9) is incremented when
      below 9 and zeroed otherwise; an earlier digit is untouched. */
  ghost function AfterAddOne(d: seq<int>, k: int): int
    requires 0 <= k < |d|
  {
    if forall j | k < j < |d| :: d[j] >= 9 then (if d[k] < 9 then d[k] + 1 else 0) else d[k]
  }

  /** Bumping the first digit below 9 from the right, after zeroing the
      nines behind it, leaves the slice AfterAddOne describes. */
  lemma AddOneStops(d: seq<int>, prev: seq<int>, i: int)
    requires |prev| == |d| && 0 <= i < |d| && d[i] < 9
    requires prev[..i + 1] == d[..i + 1]
    requires forall k | i < k < |d| :: prev[k] == 0 && d[k] >= 9
    ensures forall k | 0 <= k < |d| :: prev[i := d[i] + 1][k] == AfterAddOne(d, k)
  {
    forall k | 0 <= k < i
      ensures prev[k] == AfterAddOne(d, k)
    {
      assert prev[..i + 1][k] == d[..i + 1][k];
    }
  }

  /** When every digit carried, the slice is all zeros, as AfterAddOne
      describes. */
  lemma AddOneCarriedAll(d: seq<int>, a: seq<int>)
    requires |a| == |d|
    requires forall k | 0 <= k < |d| :: a[k] == 0 && d[k] >= 9
    ensures forall k | 0 <= k < |d| :: a[k] == AfterAddOne(d, k)
  {
  }

  /** addOne: from the last digit, a digit below 9 is incremented and the
      same array returned; a 9 becomes 0 and carries. When every digit
      carried, a fresh array 1, 0, ..., 0 one longer is returned, and the
      caller's slice is left all zeros. */
  method AddOne(digits: array<Int64>) returns (r: array<Int64>)
    modifies digits
    ensures forall k | 0 <= k < digits.Length :: digits[k] == AfterAddOne(old(digits[..]), k)
    ensures (exists k | 0 <= k < digits.Length :: old(digits[k]) < 9) ==> r == digits
    ensures (forall k | 0 <= k < digits.Length :: old(digits[k]) >= 9) ==>
      fresh(r) && r.Length == digits.Length + 1 && r[0] == 1 && (forall k | 1 <= k < r.Length :: r[k] == 0)
      && (forall k | 0 <= k < digits.Length :: digits[k] == 0)
    ensures IsDigits(old(digits[..])) ==> IsDigits(r[..]) && Value(r[..]) == Value(old(digits[..])) + 1
  {
    ghost var d := digits[..];
    assert d[..digits.Length] == d;
    var i := digits.Length - 1;
    while i >= 0
      invariant -1 <= i < digits.Length
      invariant digits[..i + 1] == d[..i + 1]
      invariant forall k | i < k < digits.Length :: digits[k] == 0 && d[k] >= 9
      invariant IsDigits(d) ==> Value(d) + 1 == (Value(d[..i + 1]) + 1) * Pow10(digits.Length - 1 - i)
    {
      if digits[i] < 9 {
        AddOneStops(d, digits[..], i);
        digits[i] := digits[i] + 1;
        if IsDigits(d) {
          IncrementValue(d, digits[..], i);
          assert IsDigits(digits[..]);
        }
        return digits;
      }
      digits[i] := 0;
      if IsDigits(d) {
        CarryValue(d, i);
      }
      i := i - 1;
    }
    AddOneCarriedAll(d, digits[..]);
    r := new Int64[digits.Length + 1];
    r[0] := 1;
    forall k | 1 <= k < r.Length {
      r[k] := 0;
    }
    if IsDigits(d) {
      OneThenZeros(r[..]);
      assert d[..0] == [];
    }
  }

  /** removeDuplicates: a slow index keeps the last value written; each
      value that differs from it is copied one past it. */
  method RemoveDuplicates(nums: array<int>) returns (k: int)
    modifies nums
    ensures 0 <= k <= nums.Length
    ensures nums.Length == 0 ==> k == 0
    ensures nums[k..] == old(nums[k..])
    ensures Seqs.Sorted(old(nums[..])) ==>
      Seqs.StrictlySorted(nums[..k]) && Seqs.Elements(nums[..k]) == Seqs.Elements(old(nums[..])) && k == |Seqs.Elements(old(nums[..]))|
  {
    ghost var d := nums[..];
    if nums.Length == 0 {
      return 0;
    }
    var i := 0;
    var j := 1;
    DedupStart(d);
    while j < nums.Length
      invariant 0 <= i < j <= nums.Length
      invariant nums[..][i + 1..] == d[i + 1..]
      invariant Seqs.Sorted(d) ==> DedupPrefix(nums[..][..i + 1], d[..j])
    {
      ghost var prev := nums[..];
      ghost var before := prev[..i + 1];
      assert nums[j] == d[j] by {
        assert prev[i + 1..][j - i - 1] == d[i + 1..][j - i - 1];
      }
      if nums[j] != nums[i] {
        i := i + 1;
        nums[i] := nums[j];
        assert nums[..] == prev[i := d[j]];
        Seqs.OverwriteNext(prev, d, i - 1, j);
        if Seqs.Sorted(d) {
          DedupKeep(before, d, j);
        }
      } else {
        assert nums[..] == prev;
        if Seqs.Sorted(d) {
          DedupSkip(before, d, j);
        }
      }
      j := j + 1;
    }
    assert d[..j] == d;
    k := i + 1;
    assert nums[k..] == nums[..][k..];
    if Seqs.Sorted(d) {
      DedupDone(nums[..k], d);
    }
  }

  /** merge: sort.Slice orders the caller's slice by start, then the sweep
      widens the last merged interval while the next one starts within it.
      The result holds the caller's inner slices, returned here as heads,
      the caller's slots they share: `last[1] = current[1]` writes into that
      slot, which the caller sees. Empty input gives a nil slice, reported
      here as isNil, and leaves the caller's slice alone. */
  method Merge(intervals: array<Interval>) returns (r: seq<Interval>, heads: seq<int>, isNil: bool, ghost sorted: seq<Interval>)
    modifies intervals
    ensures isNil <==> intervals.Length == 0
    ensures isNil ==> r == [] && intervals[..] == old(intervals[..])
    ensures multiset(sorted) == old(multiset(intervals[..])) && StartsAscending(sorted)
    ensures SlotsShared(intervals[..], sorted, r, heads, |sorted|)
    ensures SameCover(r, old(intervals[..])) && Separated(r)
    ensures WellFormed(old(intervals[..])) ==> WellFormed(r) && StartsAscending(r)
  {
    if intervals.Length == 0 {
      return [], [], true, intervals[..];
    }
    ghost var input := intervals[..];
    var s := Seqs.SortBy(intervals[..], (iv: Interval) => iv.start);
    forall k | 0 <= k < intervals.Length {
      intervals[k] := s[k];
    }
    assert intervals[..] == s;
    assert StartsAscending(s);
    CoversPermutation(input, s);
    sorted := s;
    r, heads := SweepSlots(intervals, s);
    CoversPermutation(s, input);
    isNil := false;
  }

  /** merge's loop over the sorted slots s, widening the last merged
      interval in the slot it shares. */
  method SweepSlots(intervals: array<Interval>, ghost s: seq<Interval>) returns (result: seq<Interval>, heads: seq<int>)
    modifies intervals
    requires intervals[..] == s && |s| >= 1 && StartsAscending(s)
    ensures SlotsShared(intervals[..], s, result, heads, |s|)
    ensures SameCover(result, s) && Separated(result)
    ensures WellFormed(s) ==> WellFormed(result) && StartsAscending(result)
  {
    result := [intervals[0]];
    heads := [0];
    SweepStart(s);
    SlotsStart(s);
    var i := 1;
    while i < intervals.Length
      invariant SweepInv(result, s, i)
      invariant SlotsShared(intervals[..], s, result, heads, i) && |heads| > 0
    {
      ghost var a := intervals[..];
      SlotUnread(a, s, result, heads, i);
      var last := result[|result| - 1];
      var current := intervals[i];
      if current.start <= last.end {
        SweepExtend(result, s, i);
        if current.end > last.end {
          var h := heads[|heads| - 1];
          SlotsWiden(a, s, result, heads, i, current.end);
          intervals[h] := Interval(intervals[h].start, current.end);
          assert intervals[..] == a[h := Interval(a[h].start, current.end)];
          result := result[..|result| - 1] + [Interval(last.start, current.end)];
        } else {
          assert result[..|result| - 1] + [Interval(last.start, last.end)] == result;
        }
      } else {
        SweepAppend(result, s, i);
        SlotsAppend(a, s, result, heads, i);
        result := result + [current];
        heads := heads + [i];
      }
      i := i + 1;
    }
    SweepDone(result, s);
  }

  /** twoSum: for each element, look up the index last seen for its
      complement, computed with Go's wrapping subtraction; report the two
      values of the first pair found, or an empty slice. */
  method TwoSum(nums: seq<Int64>, target: Int64) returns (r: seq<int>)
    ensures |r| == 0 <==> NoPair(nums, target)
    ensures |r| != 0 ==> exists a, b :: IsFirstPair(nums, target, a, b) && r == [nums[a], nums[b]]
  {
    var seen: map<int, int> := map[];
    var i := 0;
    while i < |nums|
      invariant 0 <= i <= |nums|
      invariant LastSeen(seen, nums, i)
      invariant NoPair(nums[..i], target)
    {
      var complement := Wrap(target as int - nums[i]);
      if complement in seen {
        var j := seen[complement];
        FoundFirstPair(seen, nums, target, i);
        FirstPairExcludesNoPair(nums, target, j, i);
        return [nums[j], nums[i]];
      }
      MissExtendsNoPair(seen, nums, target, i);
      seen := seen[nums[i] := i];
      i := i + 1;
    }
    assert nums[..i] == nums;
    r := [];
  }
}

=== FILE: wrappers.dfy ===
/** Failure-carrying result types shared by every module of the model. */
module Wrappers {

  /** A value that may be absent: a Go nil pointer, a missing map key. */
  datatype Option<+T> = None | Some(value: T)

  /** Either a value or the error the Go code returns in its place. */
  datatype Result<+T, +E> = Success(value: T) | Failure(error: E)
}
